=== FILE: README.md ===
# CustomFishing item construction, modelled in Dafny

This project models the item construction engine of the CustomFishing plugin.

- **Item libraries.** A registry of item libraries, keyed by their identification. It resolves a stack to an id (`getAnyPluginItemID`) and an id to a stack (`buildAnyPluginItemByID`).
- **Item builders (`CFBuilder`).** A builder holds a library, an item id, an amount and an insertion-ordered map of named property editors. `getItemBuilder` assembles one from a configuration section, setting the amount and then making twenty editor-registering builder calls in a fixed order.
- **Building.** `build(player, builder, placeholders)` runs every editor once, in pipeline order. All editors share one tag document, one placeholder map and one random stream.
- **The template registry.** It is loaded file by file, and the first definition of a key wins. It is looked up to build items and emptied on unload.
- **Event listeners.** They guard and maintain built items: pick-up protection, hopper pick-up, anvil repair and mending. The stack identification questions `isCustomFishingItem` and `getCustomFishingItemID` are modelled with them.
- **Placeholder detectors.** These are the two placeholder scanners of the PlaceholderAPI integration.

Module map:

- `Wrappers`: `Option` and `Result`. The error cases of `Result` are the exceptions the Java code can throw.
- `Nbt`: the tag document and the NBT-API accessors, each with its defaults.
- `Items`, `Platform`: stacks and players. `Platform.Host` gathers the server and library functions the core calls but does not define.
- `Randomness`: one stream of uniform draws, consumed by position.
- `Libraries`: the item-library registry and both resolution directions.
- `Pipeline`: the insertion-ordered editor map (`LinkedHashMap` put, get and remove) and runs of builder-method calls.
- `Editors`: every property editor, as one function over the build state.
- `Enchanting`: random enchantments and the enchantment-pool draw loop.
- `Builders`: `CFBuilder`, `getItemBuilder` and `build`.
- `Templates`: the template registry.
- `Events`: the listeners and the identification questions.
- `PlaceholderScan`: the two regex detectors, written as scanners.

Three behaviours of the code are easy to misread; the model follows the code in each:

- **Size editor.** The condition parses as `left + left <= right ? 0 : nextFloat(right - left)`.
  - For every range with `right >= 2 * left` the random part is 0, and the size is just the `{size-fixed}` offset (`Editors.SizeIgnoresNarrowRange`).
  - Otherwise the draw lies in `[0, right - left)` and `left` is never added (`Editors.SizeBelowWidth`).
  - A degenerate range `left == right > 0` throws, because the bound is 0 (`Editors.SizeDraw`).
- **Unload.** The builders whose `persist()` holds are put back into a temporary copy of the registry, not into the registry, so the registry always ends up empty (`Templates.Unload`).
- **Anvil repair.** The visible wear is not rounded: `max_dur * (1 - damage / maxDurability)` is truncated toward zero by a Java `(int)` cast (`Events.AnvilCurDur`).

## Model

| member | source | states |
|---|---|---|
| Libraries.Register | plugin/src/main/java/net/momirealms/customfishing/mechanic/item/ItemManagerImpl.java:402-406 | registering refuses a taken identification and leaves the registry unchanged; otherwise it succeeds and adds exactly that entry, keeping every other one |
| Libraries.Unregister | plugin/src/main/java/net/momirealms/customfishing/mechanic/item/ItemManagerImpl.java:415-417 | reports whether the identification was registered; afterwards it is absent and every other library is untouched |
| Libraries.Initial | plugin/src/main/java/net/momirealms/customfishing/mechanic/item/ItemManagerImpl.java:85-92 | a new manager knows exactly its own library and the vanilla one |
| Libraries.RegisterUnregister | plugin/src/main/java/net/momirealms/customfishing/mechanic/item/ItemManagerImpl.java:402-417 | registering a new library and then unregistering it restores the registry, and the unregister reports success |
| Libraries.UnregisterRegister | plugin/src/main/java/net/momirealms/customfishing/mechanic/item/ItemManagerImpl.java:402-417 | unregistering a library and registering it again restores the registry |
| Libraries.FirstClaimSpec | plugin/src/main/java/net/momirealms/customfishing/mechanic/item/ItemManagerImpl.java:247-255 | the detection loop finds nothing exactly when no registered library in the order claims the stack; otherwise it answers the id of the first library that does |
| Libraries.AnyPluginItemId | plugin/src/main/java/net/momirealms/customfishing/mechanic/item/ItemManagerImpl.java:244-258 | "AIR" for no stack, an AIR stack, or a stack no library claims; otherwise the id given by the first claiming library in detection order |
| Libraries.UnregisteredSkipped | plugin/src/main/java/net/momirealms/customfishing/mechanic/item/ItemManagerImpl.java:248-249 | names in the detection order that are not registered are skipped: the answer is that of the order with them removed |
| Libraries.SplitFirstColon | plugin/src/main/java/net/momirealms/customfishing/mechanic/item/ItemManagerImpl.java:270 | `split(":", 2)` gives a first part without ':' that, joined with ':' to the rest, is the input |
| Libraries.SplitJoin | plugin/src/main/java/net/momirealms/customfishing/mechanic/item/ItemManagerImpl.java:270 | splitting `lib + ":" + item` with a colon-free `lib` gives back `(lib, item)`, whatever colons `item` holds |
| Libraries.UpperAscii | plugin/src/main/java/net/momirealms/customfishing/mechanic/item/ItemManagerImpl.java:274 | on ASCII text the English-locale upper-casing keeps the length, turns each lower-case letter into its capital in place, keeps every other character, and leaves no lower-case letter |
| Libraries.BuildById | plugin/src/main/java/net/momirealms/customfishing/mechanic/item/ItemManagerImpl.java:268-279 | a namespaced id goes to the library named before its first ':' (an unknown library is a null dereference); a bare id is its upper-cased material, or COD when no such material exists |
| Libraries.BuildByIdDispatch | plugin/src/main/java/net/momirealms/customfishing/mechanic/item/ItemManagerImpl.java:269-271 | `lib:item` is built by library `lib` from `item`, even when `item` holds further colons |
| Libraries.Appearance | plugin/src/main/java/net/momirealms/customfishing/mechanic/item/ItemManagerImpl.java:380-394 | no material gives a structure void; otherwise it is exactly the stack built from the id, same material and amount, with its display data removed and every other key kept, failing exactly when that build fails |
| Pipeline.Put | plugin/src/main/java/net/momirealms/customfishing/mechanic/item/ItemManagerImpl.java:819-822 | `put` keeps names unique: a present name keeps its position and takes the new editor, and a new name is appended |
| Pipeline.PutGet | plugin/src/main/java/net/momirealms/customfishing/mechanic/item/ItemManagerImpl.java:819-822 | after a put, the name maps to the new editor and every other name maps to what it did before |
| Pipeline.Remove | plugin/src/main/java/net/momirealms/customfishing/mechanic/item/ItemManagerImpl.java:813-816 | after `remove`, the name is gone, no name is new, and the names stay unique |
| Pipeline.RemoveGet | plugin/src/main/java/net/momirealms/customfishing/mechanic/item/ItemManagerImpl.java:813-816 | a removed name is forgotten and every other lookup is unchanged |
| Pipeline.RemoveDeletesOne | plugin/src/main/java/net/momirealms/customfishing/mechanic/item/ItemManagerImpl.java:813-816 | removing a present name deletes exactly its entry and keeps the others in order |
| Pipeline.RemoveAbsent | plugin/src/main/java/net/momirealms/customfishing/mechanic/item/ItemManagerImpl.java:813-816 | removing an absent name changes nothing |
| Pipeline.PutPut | plugin/src/main/java/net/momirealms/customfishing/mechanic/item/ItemManagerImpl.java:819-822 | putting a name twice is the same as putting its later editor once |
| Pipeline.RemovePut | plugin/src/main/java/net/momirealms/customfishing/mechanic/item/ItemManagerImpl.java:813-822 | removing a name and putting it again moves it to the end |
| Pipeline.OfferAllFresh | plugin/src/main/java/net/momirealms/customfishing/mechanic/item/ItemManagerImpl.java:330-351 | builder calls under distinct new names append the editors they register, in call order |
| Pipeline.OfferTwice | plugin/src/main/java/net/momirealms/customfishing/mechanic/item/ItemManagerImpl.java:339-340 | two consecutive calls under one name act as one call carrying the later editor, or the earlier one when the later call declines |
| Pipeline.MergeTwice | plugin/src/main/java/net/momirealms/customfishing/mechanic/item/ItemManagerImpl.java:339-344 | the same holds for such a pair inside a longer run of calls |
| Pipeline.GetAccepted | plugin/src/main/java/net/momirealms/customfishing/mechanic/item/ItemManagerImpl.java:330-351 | under distinct names, each name holds its call's editor, and nothing when the call declined |
| Randomness.NextInt | plugin/src/main/java/net/momirealms/customfishing/mechanic/item/ItemManagerImpl.java:779 | `nextInt(bound)` succeeds exactly for a positive bound, answers a value below it and consumes one draw |
| Randomness.NextFloat | plugin/src/main/java/net/momirealms/customfishing/mechanic/item/ItemManagerImpl.java:729 | `nextFloat(bound)` succeeds exactly for a positive bound, answers a value in `[0, bound)` and consumes one draw |
| Randomness.Pick | plugin/src/main/java/net/momirealms/customfishing/mechanic/item/ItemManagerImpl.java:655 | a weighted choice answers the index of some candidate and consumes one draw |
| Randomness.NextIntCovers | plugin/src/main/java/net/momirealms/customfishing/mechanic/item/ItemManagerImpl.java:779 | every value below the bound is produced by some draw |
| Editors.ReplaceComma | plugin/src/main/java/net/momirealms/customfishing/mechanic/item/ItemManagerImpl.java:712 | `replace(",", ".")` turns every comma into a point and keeps every other character |
| Editors.FlagMaskBits | plugin/src/main/java/net/momirealms/customfishing/mechanic/item/ItemManagerImpl.java:605-609 | bit b of `HideFlags` is set exactly when some flag's ordinal is congruent to b modulo 32, because Java's `1 << n` shifts by `n % 32` |
| Editors.JavaInt | plugin/src/main/java/net/momirealms/customfishing/mechanic/item/ItemManagerImpl.java:609 | the 32-bit mask is stored as a two's complement Java int |
| Editors.RandomEnchantEdit | plugin/src/main/java/net/momirealms/customfishing/mechanic/item/ItemManagerImpl.java:629-644 | the random-enchantment editor appends the winners of one draw per entry with repeated ids dropped, and consumes exactly one draw per entry |
| Enchanting.RandomPicks | plugin/src/main/java/net/momirealms/customfishing/mechanic/item/ItemManagerImpl.java:634-641 | kept entries have distinct ids, none already taken, and every entry that won its draw was kept or had its id taken |
| Enchanting.RandomPicksAreFirstWinners | plugin/src/main/java/net/momirealms/customfishing/mechanic/item/ItemManagerImpl.java:634-641 | the single pass equals flipping every coin first and then keeping the first winner of each id |
| Enchanting.RemoveId | plugin/src/main/java/net/momirealms/customfishing/mechanic/item/ItemManagerImpl.java:676 | `removeIf` on the pool drops every entry with the id, keeps every entry with another id, adds nothing, and shrinks the pool when the id was present |
| Enchanting.RemoveIdConcat | plugin/src/main/java/net/momirealms/customfishing/mechanic/item/ItemManagerImpl.java:676 | `removeIf` keeps the order of what it keeps: filtering a concatenation concatenates the filtered parts |
| Enchanting.PoolDraws | plugin/src/main/java/net/momirealms/customfishing/mechanic/item/ItemManagerImpl.java:666-686 | the draw loop appends at most the drawn amount of pool entries, with distinct ids, each free of conflicts with those before it; it throws only for an enchantment the server does not know, and never when all are known |
| Enchanting.PoolDrawsExhaust | plugin/src/main/java/net/momirealms/customfishing/mechanic/item/ItemManagerImpl.java:668-686 | the loop stops short of the drawn amount only when the pool is used up: every entry's id was appended, or its enchantment conflicts with one appended or added before |
| Editors.DrawnAmount | plugin/src/main/java/net/momirealms/customfishing/mechanic/item/ItemManagerImpl.java:650-655 | the pool amount is one of the configured amounts and costs one draw |
| Editors.PoolEdit | plugin/src/main/java/net/momirealms/customfishing/mechanic/item/ItemManagerImpl.java:647-689 | the pool editor does nothing for a non-positive amount, never touches the placeholders, and fails only on an unknown enchantment from the pool |
| Editors.PoolEditAppends | plugin/src/main/java/net/momirealms/customfishing/mechanic/item/ItemManagerImpl.java:647-689 | what the pool editor appends is at most the drawn amount of distinct, mutually compatible pool entries, and fewer only once the pool is used up |
| Editors.PriceEdit | plugin/src/main/java/net/momirealms/customfishing/mechanic/item/ItemManagerImpl.java:703-722 | the price editor fails exactly when `{size}` does not parse; otherwise it stores the market price of (base, bonus, size) in `Price` and `{price}`, writes `{base}` and `{bonus}` only when nonzero, and keeps every other placeholder |
| Editors.SizeDraw | plugin/src/main/java/net/momirealms/customfishing/mechanic/item/ItemManagerImpl.java:729 | the random part is 0 when `left + left <= right`; otherwise it is drawn from `[0, right - left)` and throws when that bound is not positive |
| Editors.SizeEdit | plugin/src/main/java/net/momirealms/customfishing/mechanic/item/ItemManagerImpl.java:725-738 | the size editor succeeds exactly when the draw and both placeholder numbers do; it stores the scaled and shifted size in the tag and in `{size}` and keeps every other top-level key |
| Editors.SizeIgnoresNarrowRange | plugin/src/main/java/net/momirealms/customfishing/mechanic/item/ItemManagerImpl.java:729-735 | for `left + left <= right` the stored size is exactly the `{size-fixed}` offset, and no draw is used |
| Editors.SizeBelowWidth | plugin/src/main/java/net/momirealms/customfishing/mechanic/item/ItemManagerImpl.java:729-735 | otherwise, with default multiplier and offset, the stored size lies in `[0, right - left)` and below `left` |
| Editors.ScaledDamage | plugin/src/main/java/net/momirealms/customfishing/mechanic/item/ItemManagerImpl.java:781 | the damage written for a current durability `dur < max_dur` is `M * dur / max_dur` truncated: `d * max_dur <= M * dur < (d + 1) * max_dur`, so it lies in `[0, M]`, below M when M > 0, and is 0 when `dur` is 0 |
| Editors.DamageEdit | plugin/src/main/java/net/momirealms/customfishing/mechanic/item/ItemManagerImpl.java:772-790 | with its own `max_dur`, an item gets a current durability in `[0, max_dur)` and the proportional damage; otherwise a damage below the material's maximum. It throws exactly when the bound is not positive |
| Editors.HeadEdit | plugin/src/main/java/net/momirealms/customfishing/mechanic/item/ItemManagerImpl.java:760-769 | the skull owner gets the name-based UUID of the item id and one more texture entry carrying the base64 value; other keys are kept |
| Editors.ApplyEditor | plugin/src/main/java/net/momirealms/customfishing/mechanic/item/ItemManagerImpl.java:525-790 | only the price, size, pool and damage editors can throw (custom editors are modelled as total); only size, price and custom editors change placeholders; only randomised editors consume draws |
| Editors.EditorFrame | plugin/src/main/java/net/momirealms/customfishing/mechanic/item/ItemManagerImpl.java:525-790 | every editor except `nbt` and custom ones writes only the top-level keys it is meant to write and keeps all others |
| Editors.ApplyAll | plugin/src/main/java/net/momirealms/customfishing/mechanic/item/ItemManagerImpl.java:371-373 | running the editors in order on one state fails only if some editor can throw (custom editors never do in the model), and only moves the random stream forward |
| Editors.ApplyAllConcat | plugin/src/main/java/net/momirealms/customfishing/mechanic/item/ItemManagerImpl.java:371-373 | running two pipelines back to back is running their concatenation |
| Editors.DeterministicPipeline | plugin/src/main/java/net/momirealms/customfishing/mechanic/item/ItemManagerImpl.java:371-373 | a pipeline without randomised or failing editors always succeeds and uses no draws |
| Editors.ApplyAllFrame | plugin/src/main/java/net/momirealms/customfishing/mechanic/item/ItemManagerImpl.java:371-373 | a pipeline of framed editors keeps every top-level key none of its editors writes |
| Editors.PriceSeesSize | plugin/src/main/java/net/momirealms/customfishing/mechanic/item/ItemManagerImpl.java:703-738 | a price editor right after a size editor prices the fish by the size just drawn, read back from its two-decimal text |
| Builders.RegisterCustomEditor | plugin/src/main/java/net/momirealms/customfishing/mechanic/item/ItemManagerImpl.java:819-822 | registering keeps library, id and amount; a new name is appended last, and a present name keeps its place and now holds the custom editor while every other step stays |
| Builders.RemoveEditor | plugin/src/main/java/net/momirealms/customfishing/mechanic/item/ItemManagerImpl.java:813-816 | removing keeps library, id and amount; an absent name changes nothing, and a present one loses exactly its step with the others kept in order |
| Builders.RegisterNewRunsLast | plugin/src/main/java/net/momirealms/customfishing/mechanic/item/ItemManagerImpl.java:819-822 | a custom editor under a new name runs after every other editor, on the state they left |
| Builders.BuildRegisterNew | plugin/src/main/java/net/momirealms/customfishing/mechanic/item/ItemManagerImpl.java:365-377 | a custom editor registered under a new name shapes the built item last: it sees what every other editor left, and its tag and placeholders are what the build hands out |
| Builders.RemoveThenRegister | plugin/src/main/java/net/momirealms/customfishing/mechanic/item/ItemManagerImpl.java:813-822 | removing an editor and registering a custom one under its name puts it at the end of the pipeline |
| Builders.Origin | plugin/src/main/java/net/momirealms/customfishing/mechanic/item/ItemManagerImpl.java:322-329 | a `library:item` material splits at its first ':'; anything else is the upper-cased material of the vanilla library |
| Builders.FlagOrdinals | plugin/src/main/java/net/momirealms/customfishing/mechanic/item/ItemManagerImpl.java:338 | the flag names convert exactly when every upper-cased name is a flag, giving their ordinals in order; otherwise `valueOf` throws |
| Builders.FlagOrdinalsError | plugin/src/main/java/net/momirealms/customfishing/mechanic/item/ItemManagerImpl.java:338 | the error names the first configured flag that is no flag, and every flag before it is known |
| Builders.Canonical | plugin/src/main/java/net/momirealms/customfishing/mechanic/item/ItemManagerImpl.java:330-351 | the seventeen editor names, in the order their first calls register them |
| Builders.GetItemBuilder | plugin/src/main/java/net/momirealms/customfishing/mechanic/item/ItemManagerImpl.java:320-353 | a builder is made exactly when the item flags convert; it carries the material's library and id and the configured amount (default 1), and its editor names are unique |
| Builders.ItemBuilderEditors | plugin/src/main/java/net/momirealms/customfishing/mechanic/item/ItemManagerImpl.java:330-351 | the assembled pipeline holds exactly the editors some call registered, in canonical order, the later of two calls under one name winning |
| Builders.ItemBuilderLookup | plugin/src/main/java/net/momirealms/customfishing/mechanic/item/ItemManagerImpl.java:330-351 | each editor name holds what its canonical request registers, and nothing when every call under it declined |
| Builders.StoredReplacesUnstored | plugin/src/main/java/net/momirealms/customfishing/mechanic/item/ItemManagerImpl.java:339-344 | a stored enchantment list, pool or random list that registers replaces the unstored editor under the same name; otherwise the unstored one stays |
| Builders.SizeThenPrice | plugin/src/main/java/net/momirealms/customfishing/mechanic/item/ItemManagerImpl.java:331-333 | when both register, the size editor runs immediately before the price editor, with at most the stackable editor before them |
| Builders.Build | plugin/src/main/java/net/momirealms/customfishing/mechanic/item/ItemManagerImpl.java:365-377 | an unknown library fails; an AIR base comes back untouched; otherwise the editors run once each over the base tag, the caller's placeholders and the stream, and the item is the base material with the builder's amount and the tag they left with its lore updated, handed back with the placeholders and stream they left; any editor failure is the build's failure |
| Builders.RunSplit | plugin/src/main/java/net/momirealms/customfishing/mechanic/item/ItemManagerImpl.java:371-373 | the editor loop can be split at any point, the rest continuing from the state the prefix left |
| Builders.BuiltPriceSeesSize | plugin/src/main/java/net/momirealms/customfishing/mechanic/item/ItemManagerImpl.java:331-333 | in a built item with size and price and no stackable editor, the first two editors draw the size and then price the fish by it |
| Builders.BuildPricesBySize | plugin/src/main/java/net/momirealms/customfishing/mechanic/item/ItemManagerImpl.java:365-377 | building an item whose section has a size and a price writes the size first, prices by it, and runs the remaining editors over what those two wrote |
| Templates.Admit | plugin/src/main/java/net/momirealms/customfishing/mechanic/item/ItemManagerImpl.java:167-175 | a section under a new key adds exactly its builder, failing exactly when the builder cannot be made; a non-section entry or a taken key always leaves the registry unchanged and never fails |
| Templates.LoadSingleFile | plugin/src/main/java/net/momirealms/customfishing/mechanic/item/ItemManagerImpl.java:164-177 | loading a file keeps every existing template and adds only keys its sections ask for; the only failure is an unknown item flag |
| Templates.LoadFailsExactly | plugin/src/main/java/net/momirealms/customfishing/mechanic/item/ItemManagerImpl.java:164-177 | loading a file fails exactly when some section under a key that is neither registered nor used by an earlier section of the file cannot be built; non-section entries and taken keys never make it fail |
| Templates.LoadStopsAtFirstFailing | plugin/src/main/java/net/momirealms/customfishing/mechanic/item/ItemManagerImpl.java:164-177 | a failing load reports the first failing section's error and keeps exactly what the entries before it added |
| Templates.LoadComplete | plugin/src/main/java/net/momirealms/customfishing/mechanic/item/ItemManagerImpl.java:164-177 | a load that runs to the end holds a template under every key its sections ask for |
| Templates.FirstDefinitionKept | plugin/src/main/java/net/momirealms/customfishing/mechanic/item/ItemManagerImpl.java:170-174 | on a duplicated key the first section wins: a new key holds the builder of its first section |
| Templates.Unload | plugin/src/main/java/net/momirealms/customfishing/mechanic/item/ItemManagerImpl.java:99-107 | after an unload the registry is empty, whichever templates persist; the copy they are put back into still holds everything |
| Templates.LoadThenLookup | plugin/src/main/java/net/momirealms/customfishing/mechanic/item/ItemManagerImpl.java:231-233 | after a load, a lookup finds a template exactly under a key registered before or asked for by a section, and a key new to the registry answers the builder of its first section |
| Templates.BuildByKey | plugin/src/main/java/net/momirealms/customfishing/mechanic/item/ItemManagerImpl.java:203-207 | an unknown key builds nothing; a known key builds exactly as its template does |
| Templates.LoadThenBuild | plugin/src/main/java/net/momirealms/customfishing/mechanic/item/ItemManagerImpl.java:164-207 | building a freshly loaded key is building the builder made from its first section |
| Events.OnPickUp | plugin/src/main/java/net/momirealms/customfishing/mechanic/item/ItemManagerImpl.java:831-843 | a pick-up is cancelled exactly when a protected drop names another player; when it goes through, the protection is gone and only the owner key changes |
| Events.OnMove | plugin/src/main/java/net/momirealms/customfishing/mechanic/item/ItemManagerImpl.java:850-857 | an inventory pick-up is never cancelled by the plugin and strips the protection |
| Events.PickUpIdempotent | plugin/src/main/java/net/momirealms/customfishing/mechanic/item/ItemManagerImpl.java:831-843 | after a successful pick-up, any later pick-up goes through and changes nothing |
| Events.MoveThenPickUp | plugin/src/main/java/net/momirealms/customfishing/mechanic/item/ItemManagerImpl.java:831-857 | after a hopper has collected a drop, every player may pick it up |
| Events.GrabThenPickUp | plugin/src/main/java/net/momirealms/customfishing/mechanic/item/ItemManagerImpl.java:751-757 | a drop built with the grabbing editor can be picked up by its player, which removes the tie, and by nobody else; without a player placeholder nobody is refused |
| Events.JavaIntOf | plugin/src/main/java/net/momirealms/customfishing/mechanic/item/ItemManagerImpl.java:893 | a Java `(int)` cast of a finite double truncates toward zero inside the int range and clamps outside it |
| Events.AnvilCurDur | plugin/src/main/java/net/momirealms/customfishing/mechanic/item/ItemManagerImpl.java:893 | the repaired durability is an int; for an item type without durability it follows the IEEE 754 rules: NaN gives 0 and an infinity gives the end of the range with the product's sign |
| Events.AnvilBounds | plugin/src/main/java/net/momirealms/customfishing/mechanic/item/ItemManagerImpl.java:893 | for damage within the type's range, the repaired durability lies in `[0, max_dur]` |
| Events.AnvilUndamaged | plugin/src/main/java/net/momirealms/customfishing/mechanic/item/ItemManagerImpl.java:893 | an undamaged item repairs to its full `max_dur` |
| Events.AnvilBroken | plugin/src/main/java/net/momirealms/customfishing/mechanic/item/ItemManagerImpl.java:893 | an item damaged to its type's maximum repairs to 0 |
| Events.OnRepairItem | plugin/src/main/java/net/momirealms/customfishing/mechanic/item/ItemManagerImpl.java:883-895 | an anvil result is left alone unless it is ours, with `max_dur` and damageable meta; then only its `cur_dur` is rewritten |
| Events.RepairBounded | plugin/src/main/java/net/momirealms/customfishing/mechanic/item/ItemManagerImpl.java:883-895 | a repaired result keeps material, amount and every other top-level key, and its `cur_dur` lies in `[0, max_dur]` |
| Events.RepairUndamaged | plugin/src/main/java/net/momirealms/customfishing/mechanic/item/ItemManagerImpl.java:883-895 | an undamaged item fresh from the durability editor leaves the anvil exactly as it was |
| Events.OnMending | plugin/src/main/java/net/momirealms/customfishing/mechanic/item/ItemManagerImpl.java:903-911 | mending of one of our items is cancelled and replaced by the plugin's own durability increase; other mending is left alone |
| Events.MendingTakesOverIdentified | plugin/src/main/java/net/momirealms/customfishing/mechanic/item/ItemManagerImpl.java:903-911 | for a real stack, mending is taken over exactly when the stack answers a CustomFishing id, and is otherwise left alone |
| Events.IsCustomFishingItem | plugin/src/main/java/net/momirealms/customfishing/mechanic/item/ItemManagerImpl.java:288-292 | a stack is ours exactly when its plugin compound carries a non-empty id; a plugin key holding no compound is a null dereference |
| Events.IdentityAgree | plugin/src/main/java/net/momirealms/customfishing/mechanic/item/ItemManagerImpl.java:288-308 | the two questions agree: ours exactly when a non-empty id is present, and no id where the first question fails |
| Events.TagThenIdentify | plugin/src/main/java/net/momirealms/customfishing/mechanic/item/ItemManagerImpl.java:552-560 | after the identity editor, a stack is recognised as ours and answers the id it was given |
| PlaceholderScan.ScanBasic | src/main/java/net/momirealms/customfishing/integration/papi/PlaceholderManager.java:34 | the scan of `%([^%]*)%` reports ordered, non-overlapping matches |
| PlaceholderScan.ScanBasicMeetsSpec | src/main/java/net/momirealms/customfishing/integration/papi/PlaceholderManager.java:70-71 | the scanner reports exactly the matches a `find` loop reports, as described declaratively |
| PlaceholderScan.ScanBasicCount | src/main/java/net/momirealms/customfishing/integration/papi/PlaceholderManager.java:70-71 | the number of basic matches is half the number of '%', rounded down |
| PlaceholderScan.DetectBasicPlaceholders | src/main/java/net/momirealms/customfishing/integration/papi/PlaceholderManager.java:67-73 | null text or text without '%' gives nothing; otherwise every reported text is a `%…%` token, and there are half as many as '%' characters |
| PlaceholderScan.DetectBasicMatchesSpec | src/main/java/net/momirealms/customfishing/integration/papi/PlaceholderManager.java:67-73 | the detector returns the texts of the one match sequence the description admits |
| PlaceholderScan.FindSpecUnique | src/main/java/net/momirealms/customfishing/integration/papi/PlaceholderManager.java:71 | the declarative description of a `find` loop determines its reports completely |
| PlaceholderScan.LazyBraceAt | src/main/java/net/momirealms/customfishing/integration/papi/PlaceholderManager.java:35 | `\{(.+?)\}` tried at a start matches the first eligible '}' after at least one non-terminator character, or fails exactly when no end exists |
| PlaceholderScan.ScanBetterMeetsSpec | src/main/java/net/momirealms/customfishing/integration/papi/PlaceholderManager.java:78-79 | the lazy scanner reports exactly the matches a `find` loop reports |
| PlaceholderScan.DetectBetterPlaceholders | src/main/java/net/momirealms/customfishing/integration/papi/PlaceholderManager.java:75-81 | null text or text lacking '{' or '}' gives nothing; otherwise every reported text is a `{…}` token |
| PlaceholderScan.BetterGuardRedundant | src/main/java/net/momirealms/customfishing/integration/papi/PlaceholderManager.java:76 | the guard in front of the lazy scan never changes the answer |
| PlaceholderScan.DetectBetterMatchesSpec | src/main/java/net/momirealms/customfishing/integration/papi/PlaceholderManager.java:75-81 | the detector returns the texts of the one match sequence the description admits |

## Left out

- Plugin lifecycle and I/O are not modelled. This covers `load`, listener registration, the plugin-folder walk, YAML parsing, `disable`, `dropItem` and the durability-changing helpers. A file is given as its top-level entries. A section is given as a `Section` record of already-parsed values.
- `ConfigUtils` parsing is not modelled. This covers enchantment pairs and tuples, pool weights and float pairs, which arrive already parsed.
- Weighted choice is an arbitrary choice of a candidate. The weights only shape probabilities, and probabilities are not modelled.
- Floating-point numbers are reals. `String.format("%.2f")`, `Float.parseFloat`, the market price function, MiniMessage rendering, PlaceholderAPI expansion, lore refresh, `setTagsFromBukkitYAML`, `increaseDurability` and `Damageable` meta are host functions with no further properties.
- Events.AnvilCurDur: computes the product exactly in reals for an item type with durability. It ignores double rounding, which can move a truncated result by one near an integer.
- Editors.ScaledDamage: computes `M * dur / max_dur` exactly in integers. Java computes `(int) (M * ((double) dur / i))` in doubles, which can land just below an integer: for M = 100, i = 100 and dur = 29 the double product is 28.999999999999996, so Java writes 28 where the model writes 29.
- Editors.ApplyEditor: a custom editor registered through `Builders.RegisterCustomEditor` is a total function of player, tag and placeholders that neither throws nor draws randomness. In Java it is arbitrary code, and an exception it throws ends the build. So the claims that only the price, size, pool and damage editors can throw (`Editors.ApplyEditor`, `Editors.ApplyAll`, `Builders.Build`) hold for the built-in editors only.
- Libraries.UpperAscii: upper-cases ASCII letters only. Java's English-locale `toUpperCase` maps other letters too (dotless `ı` and long `ſ` to `I` and `S`, `é` to `É`) and can change the length (`ß` to `SS`). So an id such as `fıshıng_rod` names `FISHING_ROD` in Java but falls back to COD in the model.
- A null section in `getItemBuilder` is not modelled. The loader passes only section entries.
- Null results from an item library's `buildItem` are not modelled. So the BARRIER branch of `getItemStackAppearance` and the null checks after a library build do not arise.
- The vanilla damage read by `onRepairItem` is the tag's `Damage` value. That value is what `Damageable.getDamage` reports.
- `toUpperCase()` without a locale, used for item flags, is modelled as ASCII upper-casing. The real call follows the default locale, so a Turkish default turns `i` into a dotted capital `İ`.
- A build whose editor throws loses the whole item. The placeholder map the caller passed may already hold values from earlier editors. The model answers an error and drops those intermediate placeholders.
- An enchantment-pool call with an empty amount list or an empty pool declines. The editor is not registered, as in the code.
- `onConsumeItem` and `onInteractWithUtils` are not modelled. They belong to loot and utility handling, not item construction.
- Player identity and server state beyond the player's name are not modelled.
- `persist()` always answers false. Unload takes the persistence test as a parameter; the outcome is the same for every test.

=== FILE: builders.dfy ===
/** `CFBuilder`, `getItemBuilder` and `build`: an item section becomes a
    pipeline of named editors in a fixed order, and building an item runs
    that pipeline over the stack a library hands out. */
module Builders {
  import opened Wrappers
  import opened Nbt
  import opened Items
  import opened Platform
  import opened Randomness
  import opened Enchanting
  import opened Editors
  import opened Pipeline
  import opened Libraries

  /** A `CFBuilder`: the library and id the base stack comes from, the amount
      it is given, and the editors in the order of their `LinkedHashMap`. */
  datatype CFBuilder = CFBuilder(library: string, id: string, amount: int, editors: seq<Step<Editor>>)

  /** `CFBuilder.of`: one item, no editors. */
  function Of(library: string, id: string): CFBuilder
  {
    CFBuilder(library, id, 1, [])
  }

  /** `registerCustomEditor(type, editor)`. */
  function RegisterCustomEditor(b: CFBuilder, name: string, edit: (Player, Compound, Placeholders) -> (Compound, Placeholders))
    : (r: CFBuilder)
    requires UniqueNames(b.editors)
    ensures UniqueNames(r.editors)
    ensures r.library == b.library && r.id == b.id && r.amount == b.amount
    ensures name in Names(b.editors) ==> Names(r.editors) == Names(b.editors)
    ensures name !in Names(b.editors) ==> r.editors == b.editors + [Step(name, Custom(edit))]
    ensures forall i :: 0 <= i < |b.editors| ==>
              r.editors[i] == (if b.editors[i].name == name then Step(name, Custom(edit)) else b.editors[i])
  {
    b.(editors := Put(b.editors, name, Custom(edit)))
  }

  /** `removeEditor(type)`. */
  function RemoveEditor(b: CFBuilder, name: string): (r: CFBuilder)
    ensures r.library == b.library && r.id == b.id && r.amount == b.amount
    ensures name !in Names(r.editors)
    ensures UniqueNames(b.editors) ==> UniqueNames(r.editors)
    ensures name !in Names(b.editors) ==> r == b
    ensures UniqueNames(b.editors) ==>
              forall k :: 0 <= k < |b.editors| && b.editors[k].name == name ==>
                r.editors == b.editors[..k] + b.editors[k + 1..]
  {
    RemoveShape(b.editors, name);
    b.(editors := Remove(b.editors, name))
  }

  // ---------------------------------------------------------------------
  // getItemBuilder

  /** An item section as read from the configuration. `None` stands for a
      key that is absent; a number or list whose absent value is zero or
      empty is given as that value. */
  datatype Section = Section(
    material: Option<string>,
    amount: Option<int>,
    stackable: Option<bool>,
    /** The `size` entry as a `min~max` pair. */
    size: Option<(real, real)>,
    priceBase: real,
    priceBonus: real,
    customModelData: int,
    /** The `nbt` sub-section, its values given as text. */
    nbt: Option<map<string, string>>,
    maxDurability: int,
    itemFlags: seq<string>,
    enchantments: seq<Enchant>,
    storedEnchantments: seq<Enchant>,
    poolAmounts: seq<int>,
    pool: seq<Enchant>,
    storedPoolAmounts: seq<int>,
    storedPool: seq<Enchant>,
    randomEnchantments: seq<Chance>,
    randomStoredEnchantments: seq<Chance>,
    tag: Option<bool>,
    randomDurability: Option<bool>,
    unbreakable: Option<bool>,
    preventGrabbing: Option<bool>,
    head64: Option<string>,
    displayName: Option<string>,
    lore: seq<string>)

  /** One builder-method call: the editor name and the editor it puts, or
      None when the method returns without registering anything. */
  type Request = (string, Option<Editor>)

  /** The editor names, in the order `getItemBuilder` first uses them. */
  const EditorNames: seq<string> := ["stackable", "size", "price", "custom-model-data", "nbt", "durability",
    "item-flag", "enchantment", "enchantment-pool", "random-enchantment", "tag", "damage", "unbreakable",
    "grabbing", "head", "name", "lore"]

  lemma EditorNamesDistinct()
    ensures forall i, j :: 0 <= i < j < |EditorNames| ==> EditorNames[i] != EditorNames[j]
  {
  }

  /** The `material` entry, whose default depends on the item type. */
  function MaterialId(sec: Section, kind: string): string
  {
    sec.material.GetOr(if kind == "rod" then "FISHING_ROD" else "PAPER")
  }

  /** Where the base stack comes from: a "library:item" material is split at
      its first ':', anything else is an upper-cased vanilla material. */
  function Origin(m: string): (r: (string, string))
    ensures ':' in m ==> ':' !in r.0 && m == r.0 + ":" + r.1
    ensures ':' !in m ==> r.0 == "vanilla" && r.1 == UpperAscii(m)
  {
    if ':' in m then SplitFirstColon(m) else ("vanilla", UpperAscii(m))
  }

  /** `ItemFlag.valueOf(name.toUpperCase())` for every configured flag name,
      in order; the first name that is no flag throws. */
  function FlagOrdinals(host: Host, names: seq<string>): (r: Result<seq<nat>>)
    ensures r.Ok? <==> forall i :: 0 <= i < |names| ==> host.itemFlagOrdinal(UpperAscii(names[i])).Some?
    ensures r.Ok? ==> |r.value| == |names|
    ensures r.Ok? ==> forall i :: 0 <= i < |names| ==> r.value[i] == host.itemFlagOrdinal(UpperAscii(names[i])).value
    ensures r.Err? ==> r.error.UnknownItemFlag?
    decreases |names|
  {
    if names == [] then Ok([])
    else
      var up := UpperAscii(names[0]);
      match host.itemFlagOrdinal(up)
      case None => Err(UnknownItemFlag(up))
      case Some(o) =>
        var rest :- FlagOrdinals(host, names[1..]);
        assert forall i :: 0 <= i < |names[1..]| ==> names[1..][i] == names[i + 1];
        Ok([o] + rest)
  }

  /** The error names the first configured flag that is no flag. */
  lemma {:induction false} FlagOrdinalsError(host: Host, names: seq<string>)
    requires FlagOrdinals(host, names).Err?
    ensures exists i :: (0 <= i < |names| && host.itemFlagOrdinal(UpperAscii(names[i])).None?
                         && FlagOrdinals(host, names).error == UnknownItemFlag(UpperAscii(names[i]))
                         && forall j :: 0 <= j < i ==> host.itemFlagOrdinal(UpperAscii(names[j])).Some?)
    decreases |names|
  {
    if host.itemFlagOrdinal(UpperAscii(names[0])).Some? {
      var tail := names[1..];
      FlagOrdinalsError(host, tail);
      var k :| 0 <= k < |tail| && host.itemFlagOrdinal(UpperAscii(tail[k])).None?
               && FlagOrdinals(host, tail).error == UnknownItemFlag(UpperAscii(tail[k]))
               && forall j :: 0 <= j < k ==> host.itemFlagOrdinal(UpperAscii(tail[j])).Some?;
      FlagPrefixKnown(host, names, k);
    }
  }

  lemma FlagPrefixKnown(host: Host, names: seq<string>, k: nat)
    requires k < |names| - 1
    requires host.itemFlagOrdinal(UpperAscii(names[0])).Some?
    requires forall j :: 0 <= j < k ==> host.itemFlagOrdinal(UpperAscii(names[1..][j])).Some?
    ensures forall j :: 0 <= j < k + 1 ==> host.itemFlagOrdinal(UpperAscii(names[j])).Some?
    ensures names[k + 1] == names[1..][k]
  {
    forall j | 0 <= j < k + 1
      ensures host.itemFlagOrdinal(UpperAscii(names[j])).Some?
    {
      if j > 0 {
        assert names[j] == names[1..][j - 1];
      }
    }
  }

  function EnchantRequest(entries: seq<Enchant>, stored: bool): Option<Editor>
  {
    if entries == [] then None else Some(Enchantments(entries, stored))
  }

  function PoolRequest(amounts: seq<int>, pool: seq<Enchant>, stored: bool): Option<Editor>
  {
    if pool == [] || amounts == [] then None else Some(EnchantmentPool(amounts, pool, stored))
  }

  function RandomRequest(chances: seq<Chance>, stored: bool): Option<Editor>
  {
    if chances == [] then None else Some(RandomEnchantments(chances, stored))
  }

  /** The calls before the enchantment editors: each declines on its
      default value. */
  function LeadingCalls(sec: Section, ordinals: seq<nat>): (r: seq<Request>)
    ensures |r| == 7 && forall i :: 0 <= i < 7 ==> r[i].0 == EditorNames[i]
  {
    [("stackable", if sec.stackable.GetOr(true) then None else Some(Stackable)),
     ("size", if sec.size.Some? then Some(Size(sec.size.value.0, sec.size.value.1)) else None),
     ("price", if sec.priceBase == 0.0 && sec.priceBonus == 0.0 then None else Some(Price(sec.priceBase, sec.priceBonus))),
     ("custom-model-data", if sec.customModelData == 0 then None else Some(CustomModelData(sec.customModelData))),
     ("nbt", if sec.nbt.Some? then Some(ExtraNbt(sec.nbt.value)) else None),
     ("durability", if sec.maxDurability == 0 then None else Some(Durability(sec.maxDurability))),
     ("item-flag", if sec.itemFlags == [] then None else Some(ItemFlags(ordinals)))]
  }

  /** The calls after the enchantment editors; `tag` and `unbreakable`
      always register. */
  function TrailingCalls(sec: Section, kind: string, id: string, itemId: string): (r: seq<Request>)
    ensures |r| == 7 && forall i :: 0 <= i < 7 ==> r[i].0 == EditorNames[i + 10]
  {
    [("tag", Some(Identity(sec.tag.GetOr(true), kind, id))),
     ("damage", if sec.randomDurability.GetOr(false) then Some(RandomDamage) else None),
     ("unbreakable", Some(Unbreakable(sec.unbreakable.GetOr(false)))),
     ("grabbing", if sec.preventGrabbing.GetOr(true) then Some(Grabbing) else None),
     ("head", if sec.head64.Some? then Some(Head(sec.head64.value, itemId)) else None),
     ("name", if sec.displayName.Some? then Some(Name(sec.displayName.value)) else None),
     ("lore", if sec.lore == [] then None else Some(Lore(sec.lore)))]
  }

  function EnchantCalls(sec: Section): seq<Request>
  {
    [("enchantment", EnchantRequest(sec.enchantments, false)),
     ("enchantment", EnchantRequest(sec.storedEnchantments, true))]
  }

  function PoolCalls(sec: Section): seq<Request>
  {
    [("enchantment-pool", PoolRequest(sec.poolAmounts, sec.pool, false)),
     ("enchantment-pool", PoolRequest(sec.storedPoolAmounts, sec.storedPool, true))]
  }

  function RandomCalls(sec: Section): seq<Request>
  {
    [("random-enchantment", RandomRequest(sec.randomEnchantments, false)),
     ("random-enchantment", RandomRequest(sec.randomStoredEnchantments, true))]
  }

  /** The twenty editor-registering calls `getItemBuilder` makes after
      `amount`, in order: each
      enchantment editor is offered twice under one name, unstored first. */
  function SetterCalls(sec: Section, kind: string, id: string, itemId: string, ordinals: seq<nat>): seq<Request>
  {
    LeadingCalls(sec, ordinals) + EnchantCalls(sec) + PoolCalls(sec) + RandomCalls(sec)
    + TrailingCalls(sec, kind, id, itemId)
  }

  /** The same calls with one request per editor name: the stored variant of
      an enchantment editor, when it registers, in place of the unstored one. */
  function Canonical(sec: Section, kind: string, id: string, itemId: string, ordinals: seq<nat>): (r: seq<Request>)
    ensures |r| == |EditorNames|
    ensures forall i :: 0 <= i < |r| ==> r[i].0 == EditorNames[i]
  {
    LeadingCalls(sec, ordinals)
    + [("enchantment", Later(EnchantRequest(sec.enchantments, false), EnchantRequest(sec.storedEnchantments, true)))]
    + [("enchantment-pool", Later(PoolRequest(sec.poolAmounts, sec.pool, false),
                                  PoolRequest(sec.storedPoolAmounts, sec.storedPool, true)))]
    + [("random-enchantment", Later(RandomRequest(sec.randomEnchantments, false),
                                    RandomRequest(sec.randomStoredEnchantments, true)))]
    + TrailingCalls(sec, kind, id, itemId)
  }

  /** `getItemBuilder(section, type, id)`. */
  function GetItemBuilder(host: Host, sec: Section, kind: string, id: string): (r: Result<CFBuilder>)
    ensures r.Ok? <==> FlagOrdinals(host, sec.itemFlags).Ok?
    ensures r.Err? ==> r.error == FlagOrdinals(host, sec.itemFlags).error && r.error.UnknownItemFlag?
    ensures r.Ok? ==> (r.value.library, r.value.id) == Origin(MaterialId(sec, kind))
    ensures r.Ok? ==> r.value.amount == sec.amount.GetOr(1)
    ensures r.Ok? ==> UniqueNames(r.value.editors)
  {
    var ordinals :- FlagOrdinals(host, sec.itemFlags);
    var (library, itemId) := Origin(MaterialId(sec, kind));
    var b := Of(library, itemId);
    Ok(b.(amount := sec.amount.GetOr(1), editors := OfferAll(b.editors, SetterCalls(sec, kind, id, itemId, ordinals))))
  }

  /** The pipeline `getItemBuilder` assembles holds, in `EditorNames` order,
      exactly the editors some call registered, the later of two calls under
      one name winning. */
  lemma ItemBuilderEditors(host: Host, sec: Section, kind: string, id: string)
    requires GetItemBuilder(host, sec, kind, id).Ok?
    ensures GetItemBuilder(host, sec, kind, id).value.editors
            == Accepted(Canonical(sec, kind, id, GetItemBuilder(host, sec, kind, id).value.id,
                                  FlagOrdinals(host, sec.itemFlags).value))
  {
    var itemId := GetItemBuilder(host, sec, kind, id).value.id;
    var ordinals := FlagOrdinals(host, sec.itemFlags).value;
    CallsMerge(sec, kind, id, itemId, ordinals);
    CanonicalDistinct(sec, kind, id, itemId, ordinals);
    OfferAllFresh([], Canonical(sec, kind, id, itemId, ordinals));
  }

  /** The twenty editor-registering calls register what the seventeen canonical requests do. */
  lemma CallsMerge(sec: Section, kind: string, id: string, itemId: string, ordinals: seq<nat>)
    ensures OfferAll([], SetterCalls(sec, kind, id, itemId, ordinals)) == OfferAll([], Canonical(sec, kind, id, itemId, ordinals))
  {
    var lead, tail := LeadingCalls(sec, ordinals), TrailingCalls(sec, kind, id, itemId);
    var e, p, q := EnchantCalls(sec), PoolCalls(sec), RandomCalls(sec);
    var e1: Request := ("enchantment", Later(e[0].1, e[1].1));
    var p1: Request := ("enchantment-pool", Later(p[0].1, p[1].1));
    var q1: Request := ("random-enchantment", Later(q[0].1, q[1].1));
    assert SetterCalls(sec, kind, id, itemId, ordinals) == lead + [e[0], e[1]] + (p + q + tail);
    MergeTwice([], lead, e[0].0, e[0].1, e[1].1, p + q + tail);
    assert lead + [e1] + (p + q + tail) == (lead + [e1]) + [p[0], p[1]] + (q + tail);
    MergeTwice([], lead + [e1], p[0].0, p[0].1, p[1].1, q + tail);
    assert (lead + [e1]) + [p1] + (q + tail) == (lead + [e1] + [p1]) + [q[0], q[1]] + tail;
    MergeTwice([], lead + [e1] + [p1], q[0].0, q[0].1, q[1].1, tail);
    assert (lead + [e1] + [p1]) + [q1] + tail == Canonical(sec, kind, id, itemId, ordinals);
  }

  lemma CanonicalDistinct(sec: Section, kind: string, id: string, itemId: string, ordinals: seq<nat>)
    ensures DistinctRequests(Canonical(sec, kind, id, itemId, ordinals))
  {
    EditorNamesDistinct();
  }

  /** Each editor name holds what its canonical request registers. */
  lemma ItemBuilderLookup(host: Host, sec: Section, kind: string, id: string, i: nat)
    requires GetItemBuilder(host, sec, kind, id).Ok? && i < |EditorNames|
    ensures Get(GetItemBuilder(host, sec, kind, id).value.editors, EditorNames[i])
            == Canonical(sec, kind, id, GetItemBuilder(host, sec, kind, id).value.id,
                         FlagOrdinals(host, sec.itemFlags).value)[i].1
  {
    var c := Canonical(sec, kind, id, GetItemBuilder(host, sec, kind, id).value.id,
                       FlagOrdinals(host, sec.itemFlags).value);
    ItemBuilderEditors(host, sec, kind, id);
    CanonicalDistinct(sec, kind, id, GetItemBuilder(host, sec, kind, id).value.id, FlagOrdinals(host, sec.itemFlags).value);
    GetAccepted(c, i);
  }

  /** Stored and unstored variants share an editor name, so a stored list
      that registers replaces the unstored editor, and otherwise the
      unstored one stays. */
  lemma StoredReplacesUnstored(host: Host, sec: Section, kind: string, id: string)
    requires GetItemBuilder(host, sec, kind, id).Ok?
    ensures var eds := GetItemBuilder(host, sec, kind, id).value.editors;
            && (sec.storedEnchantments != [] ==>
                  Get(eds, "enchantment") == Some(Enchantments(sec.storedEnchantments, true)))
            && (sec.storedEnchantments == [] ==>
                  Get(eds, "enchantment") == EnchantRequest(sec.enchantments, false))
            && (sec.storedPool != [] && sec.storedPoolAmounts != [] ==>
                  Get(eds, "enchantment-pool") == Some(EnchantmentPool(sec.storedPoolAmounts, sec.storedPool, true)))
            && (sec.storedPool == [] || sec.storedPoolAmounts == [] ==>
                  Get(eds, "enchantment-pool") == PoolRequest(sec.poolAmounts, sec.pool, false))
            && (sec.randomStoredEnchantments != [] ==>
                  Get(eds, "random-enchantment") == Some(RandomEnchantments(sec.randomStoredEnchantments, true)))
            && (sec.randomStoredEnchantments == [] ==>
                  Get(eds, "random-enchantment") == RandomRequest(sec.randomEnchantments, false))
  {
    var b := GetItemBuilder(host, sec, kind, id).value;
    var c := Canonical(sec, kind, id, b.id, FlagOrdinals(host, sec.itemFlags).value);
    ItemBuilderEditors(host, sec, kind, id);
    CanonicalDistinct(sec, kind, id, b.id, FlagOrdinals(host, sec.itemFlags).value);
    CanonicalMiddle(sec, kind, id, b.id, FlagOrdinals(host, sec.itemFlags).value);
    GetAccepted(c, 7);
    GetAccepted(c, 8);
    GetAccepted(c, 9);
  }

  /** The three merged enchantment requests sit in the middle of the canonical list. */
  lemma CanonicalMiddle(sec: Section, kind: string, id: string, itemId: string, ordinals: seq<nat>)
    ensures var c := Canonical(sec, kind, id, itemId, ordinals);
            && c[7] == ("enchantment", Later(EnchantRequest(sec.enchantments, false),
                                             EnchantRequest(sec.storedEnchantments, true)))
            && c[8] == ("enchantment-pool", Later(PoolRequest(sec.poolAmounts, sec.pool, false),
                                                  PoolRequest(sec.storedPoolAmounts, sec.storedPool, true)))
            && c[9] == ("random-enchantment", Later(RandomRequest(sec.randomEnchantments, false),
                                                    RandomRequest(sec.randomStoredEnchantments, true)))
  {
  }

  /** When both register, the size editor runs immediately before the price
      editor, preceded at most by the stackable editor. */
  lemma SizeThenPrice(host: Host, sec: Section, kind: string, id: string)
    requires GetItemBuilder(host, sec, kind, id).Ok?
    requires sec.size.Some? && !(sec.priceBase == 0.0 && sec.priceBonus == 0.0)
    ensures var b := GetItemBuilder(host, sec, kind, id).value;
            var pre := if sec.stackable.GetOr(true) then [] else [Step("stackable", Stackable)];
            exists post :: b.editors == pre + [Step("size", Size(sec.size.value.0, sec.size.value.1)),
                                               Step("price", Price(sec.priceBase, sec.priceBonus))] + post
  {
    var b := GetItemBuilder(host, sec, kind, id).value;
    var c := Canonical(sec, kind, id, b.id, FlagOrdinals(host, sec.itemFlags).value);
    ItemBuilderEditors(host, sec, kind, id);
    CanonicalFront(sec, kind, id, b.id, FlagOrdinals(host, sec.itemFlags).value);
    AcceptedFirstThree(c);
    AcceptedCons(c[0], []);
    var pre := if sec.stackable.GetOr(true) then [] else [Step("stackable", Stackable)];
    assert Accepted([c[0]]) == pre by {
      assert [c[0]] == [c[0]] + [];
    }
    var post := Accepted(c[3..]);
    assert b.editors == pre + [Step("size", Size(sec.size.value.0, sec.size.value.1)),
                               Step("price", Price(sec.priceBase, sec.priceBonus))] + post;
  }

  /** The stackable, size and price requests open the canonical list. */
  lemma CanonicalFront(sec: Section, kind: string, id: string, itemId: string, ordinals: seq<nat>)
    ensures var c := Canonical(sec, kind, id, itemId, ordinals);
            && c[0] == ("stackable", if sec.stackable.GetOr(true) then None else Some(Stackable))
            && c[1] == ("size", if sec.size.Some? then Some(Size(sec.size.value.0, sec.size.value.1)) else None)
            && c[2] == ("price", if sec.priceBase == 0.0 && sec.priceBonus == 0.0 then None
                                 else Some(Price(sec.priceBase, sec.priceBonus)))
  {
  }

  lemma AcceptedFirstThree(c: seq<Request>)
    requires |c| >= 3 && c[1].1.Some? && c[2].1.Some?
    ensures Accepted(c) == Accepted([c[0]]) + [Step(c[1].0, c[1].1.value), Step(c[2].0, c[2].1.value)] + Accepted(c[3..])
  {
    assert c == [c[0]] + ([c[1]] + ([c[2]] + c[3..]));
    AcceptedCons(c[0], [c[1]] + ([c[2]] + c[3..]));
    AcceptedCons(c[1], [c[2]] + c[3..]);
    AcceptedCons(c[2], c[3..]);
    assert [c[0]][1..] == [];
  }

  lemma AcceptedCons(x: Request, rest: seq<Request>)
    ensures Accepted([x] + rest) == (if x.1.Some? then [Step(x.0, x.1.value)] else []) + Accepted(rest)
  {
    assert ([x] + rest)[1..] == rest;
  }

  // ---------------------------------------------------------------------
  // build

  /** What a build hands back: the stack, and the placeholder map and random
      stream as the editors left them. */
  datatype Built = Built(stack: ItemStack, ph: Placeholders, rng: Rng)

  function EditorsOf(p: seq<Step<Editor>>): (r: seq<Editor>)
    ensures |r| == |p|
    ensures forall i :: 0 <= i < |p| ==> r[i] == p[i].editor
  {
    seq(|p|, i requires 0 <= i < |p| => p[i].editor)
  }

  /** The builder's editors, once each and in pipeline order, over one state. */
  function Run(host: Host, player: Player, material: Material, b: CFBuilder, s: State): Result<State>
  {
    ApplyAll(host, player, material, EditorsOf(b.editors), s)
  }

  /** The stack handed out once the editors have run: the base stack's
      material, the builder's amount, and the tag the editors left with its
      lore brought up to date. */
  function Finished(host: Host, material: Material, amount: int, s: State): Built
  {
    Built(ItemStack(material, amount, host.updateLore(s.tag)), s.ph, s.rng)
  }

  /** `build(player, builder, placeholders)`. The library is looked up by
      name (a missing one is a null dereference); an AIR stack comes back
      as the library built it; otherwise the amount is set, the editors run
      over the stack's tag, and the lore is brought up to date. */
  function Build(host: Host, libs: Registry, player: Player, b: CFBuilder, ph: Placeholders, rng: Rng)
    : (r: Result<Built>)
    ensures b.library !in libs ==> r == Err(UnknownLibrary(b.library))
    ensures b.library in libs && libs[b.library].buildItem(player, b.id).material == AIR ==>
              r == Ok(Built(libs[b.library].buildItem(player, b.id), ph, rng))
    ensures b.library in libs && libs[b.library].buildItem(player, b.id).material != AIR ==>
              (r.Ok? <==> Run(host, player, libs[b.library].buildItem(player, b.id).material, b,
                              State(libs[b.library].buildItem(player, b.id).tag, ph, rng)).Ok?)
    ensures r.Ok? && r.value.stack.material != AIR ==>
              b.library in libs && r.value.stack.material == libs[b.library].buildItem(player, b.id).material
              && r.value.stack.amount == b.amount
    ensures b.library in libs && libs[b.library].buildItem(player, b.id).material != AIR ==>
              var t := libs[b.library].buildItem(player, b.id);
              match Run(host, player, t.material, b, State(t.tag, ph, rng))
              case Err(e) => r == Err(e)
              case Ok(s) => r == Ok(Finished(host, t.material, b.amount, s))
    ensures r.Ok? ==> r.value.rng.draw == rng.draw && rng.pos <= r.value.rng.pos
    ensures r.Err? ==>
              r.error == UnknownLibrary(b.library) || exists i :: 0 <= i < |b.editors| && MayFail(b.editors[i].editor)
  {
    if b.library !in libs then Err(UnknownLibrary(b.library))
    else
      var temp := libs[b.library].buildItem(player, b.id);
      if temp.material == AIR then Ok(Built(temp, ph, rng))
      else
        var s :- Run(host, player, temp.material, b, State(temp.tag, ph, rng));
        Ok(Finished(host, temp.material, b.amount, s))
  }

  /** Running a pipeline is running any prefix of it and then the rest from
      where the prefix left off. */
  lemma RunSplit(host: Host, player: Player, material: Material, b: CFBuilder, k: nat, s: State)
    requires k <= |b.editors|
    ensures Run(host, player, material, b, s) ==
            (match Run(host, player, material, b.(editors := b.editors[..k]), s)
             case Err(e) => Err(e)
             case Ok(mid) => Run(host, player, material, b.(editors := b.editors[k..]), mid))
  {
    assert EditorsOf(b.editors) == EditorsOf(b.editors[..k]) + EditorsOf(b.editors[k..]);
    ApplyAllConcat(host, player, material, EditorsOf(b.editors[..k]), EditorsOf(b.editors[k..]), s);
  }

  /** A custom editor registered under a new name runs last, on the state
      every other editor left. */
  lemma RegisterNewRunsLast(host: Host, player: Player, material: Material, b: CFBuilder, name: string,
                            edit: (Player, Compound, Placeholders) -> (Compound, Placeholders), s: State)
    requires UniqueNames(b.editors) && name !in Names(b.editors)
    ensures Run(host, player, material, RegisterCustomEditor(b, name, edit), s) ==
            (match Run(host, player, material, b, s)
             case Err(e) => Err(e)
             case Ok(mid) => Ok(State(edit(player, mid.tag, mid.ph).0, edit(player, mid.tag, mid.ph).1, mid.rng)))
  {
    EditorsAppend(b.editors, Step(name, Custom(edit)));
    ApplyAllConcat(host, player, material, EditorsOf(b.editors), [Custom(edit)], s);
    match Run(host, player, material, b, s)
    case Err(_) =>
    case Ok(mid) =>
      ApplyAllOne(host, player, material, Custom(edit), mid);
      ApplyCustom(host, player, material, edit, mid);
  }

  /** A custom editor registered under a new name shapes the built item
      last: it sees the tag and placeholders every other editor left, and
      what it returns is what gets its lore updated and handed out. */
  lemma BuildRegisterNew(host: Host, libs: Registry, player: Player, b: CFBuilder, name: string,
                         edit: (Player, Compound, Placeholders) -> (Compound, Placeholders), ph: Placeholders, rng: Rng)
    requires UniqueNames(b.editors) && name !in Names(b.editors)
    requires b.library in libs && libs[b.library].buildItem(player, b.id).material != AIR
    ensures var t := libs[b.library].buildItem(player, b.id);
            Build(host, libs, player, RegisterCustomEditor(b, name, edit), ph, rng) ==
            (match Run(host, player, t.material, b, State(t.tag, ph, rng))
             case Err(e) => Err(e)
             case Ok(mid) => Ok(Built(ItemStack(t.material, b.amount, host.updateLore(edit(player, mid.tag, mid.ph).0)),
                                      edit(player, mid.tag, mid.ph).1, mid.rng)))
  {
    var t := libs[b.library].buildItem(player, b.id);
    RegisterNewRunsLast(host, player, t.material, b, name, edit, State(t.tag, ph, rng));
  }

  lemma EditorsAppend(p: seq<Step<Editor>>, x: Step<Editor>)
    ensures EditorsOf(p + [x]) == EditorsOf(p) + [x.editor]
  {
  }

  /** In a built pipeline with size and price editors and no stackable one,
      the first two editors draw the size and then price the fish by it:
      the price editor reads the `{size}` the size editor has just written. */
  lemma BuiltPriceSeesSize(host: Host, sec: Section, kind: string, id: string, player: Player, material: Material, s: State)
    requires GetItemBuilder(host, sec, kind, id).Ok?
    requires sec.size.Some? && !(sec.priceBase == 0.0 && sec.priceBonus == 0.0) && sec.stackable.GetOr(true)
    requires SizeEdit(host, sec.size.value.0, sec.size.value.1, s).Ok?
    ensures var b := GetItemBuilder(host, sec, kind, id).value;
            |b.editors| >= 2
            && Run(host, player, material, b.(editors := b.editors[..2]), s)
               == PriceEdit(host, sec.priceBase, sec.priceBonus, SizeEdit(host, sec.size.value.0, sec.size.value.1, s).value)
  {
    var b := GetItemBuilder(host, sec, kind, id).value;
    var sz, pr := Step("size", Size(sec.size.value.0, sec.size.value.1)), Step("price", Price(sec.priceBase, sec.priceBonus));
    SizeThenPrice(host, sec, kind, id);
    var post :| b.editors == [] + [sz, pr] + post;
    RunFirstTwo(host, player, material, b, post, s);
    PriceSeesSize(host, player, material, sec.size.value.0, sec.size.value.1, sec.priceBase, sec.priceBonus, s);
  }

  /** Building an item from such a section: its base stack's tag first
      gets a size, then the price of that size, and the remaining editors
      run over what those two wrote. */
  lemma BuildPricesBySize(host: Host, libs: Registry, sec: Section, kind: string, id: string, player: Player,
                          ph: Placeholders, rng: Rng)
    requires GetItemBuilder(host, sec, kind, id).Ok?
    requires sec.size.Some? && !(sec.priceBase == 0.0 && sec.priceBonus == 0.0) && sec.stackable.GetOr(true)
    requires var b := GetItemBuilder(host, sec, kind, id).value;
             b.library in libs && libs[b.library].buildItem(player, b.id).material != AIR
             && SizeEdit(host, sec.size.value.0, sec.size.value.1,
                         State(libs[b.library].buildItem(player, b.id).tag, ph, rng)).Ok?
    ensures var b := GetItemBuilder(host, sec, kind, id).value;
            var t := libs[b.library].buildItem(player, b.id);
            var sized := SizeEdit(host, sec.size.value.0, sec.size.value.1, State(t.tag, ph, rng)).value;
            |b.editors| >= 2
            && Build(host, libs, player, b, ph, rng) ==
               (match PriceEdit(host, sec.priceBase, sec.priceBonus, sized)
                case Err(e) => Err(e)
                case Ok(priced) =>
                  match Run(host, player, t.material, b.(editors := b.editors[2..]), priced)
                  case Err(e) => Err(e)
                  case Ok(s) => Ok(Finished(host, t.material, b.amount, s)))
  {
    var b := GetItemBuilder(host, sec, kind, id).value;
    var t := libs[b.library].buildItem(player, b.id);
    var s0 := State(t.tag, ph, rng);
    BuiltPriceSeesSize(host, sec, kind, id, player, t.material, s0);
    RunSplit(host, player, t.material, b, 2, s0);
  }

  lemma RunFirstTwo(host: Host, player: Player, material: Material, b: CFBuilder, post: seq<Step<Editor>>, s: State)
    requires |b.editors| >= 2 && b.editors == [] + [b.editors[0], b.editors[1]] + post
    ensures Run(host, player, material, b.(editors := b.editors[..2]), s)
            == ApplyAll(host, player, material, [b.editors[0].editor, b.editors[1].editor], s)
  {
    assert b.editors[..2] == [b.editors[0], b.editors[1]];
    assert EditorsOf(b.editors[..2]) == [b.editors[0].editor, b.editors[1].editor];
  }

  /** Removing an editor and registering a custom one under its name moves
      that name to the end of the pipeline. */
  lemma RemoveThenRegister(b: CFBuilder, name: string, edit: (Player, Compound, Placeholders) -> (Compound, Placeholders))
    requires UniqueNames(b.editors)
    ensures RegisterCustomEditor(RemoveEditor(b, name), name, edit).editors
            == Remove(b.editors, name) + [Step(name, Custom(edit))]
  {
    RemovePut(b.editors, name, Custom(edit));
  }
}

=== FILE: editors.dfy ===
/** The property editors a `CFBuilder` registers. Each editor transforms the
    state of one build: the stack's tag document, the placeholder map shared
    by all editors of the build, and the random stream. The stack's material
    and amount are fixed before the editors run and no editor changes them. */
module Editors {
  import opened Wrappers
  import opened Nbt
  import opened Items
  import opened Platform
  import opened Randomness
  import opened Enchanting

  datatype Editor =
    | CustomModelData(value: int)
    | Name(text: string)
    /** `tag(enabled, type, id)`: registered always, inert when disabled. */
    | Identity(enabled: bool, kind: string, id: string)
    /** Registered always, inert when disabled. */
    | Unbreakable(enabled: bool)
    | Lore(lines: seq<string>)
    /** An `nbt` section, its values given as text. */
    | ExtraNbt(values: map<string, string>)
    /** The ordinals of the configured `ItemFlag`s. */
    | ItemFlags(ordinals: seq<nat>)
    | Enchantments(entries: seq<Enchant>, stored: bool)
    | RandomEnchantments(chances: seq<Chance>, stored: bool)
    /** Weighted amounts and a weighted pool; weights only shape probabilities. */
    | EnchantmentPool(amounts: seq<int>, pool: seq<Enchant>, stored: bool)
    | Durability(max: int)
    | Price(base: real, bonus: real)
    /** The configured `min~max` pair. */
    | Size(left: real, right: real)
    | Stackable
    | Grabbing
    /** A player head texture; `itemId` is the builder's id the skull UUID derives from. */
    | Head(base64: string, itemId: string)
    | RandomDamage
    /** An editor registered through `registerCustomEditor`. */
    | Custom(edit: (Player, Compound, Placeholders) -> (Compound, Placeholders))

  /** The state one build threads through its editors. */
  datatype State = State(tag: Compound, ph: Placeholders, rng: Rng)

  /** The top-level tag keys an editor may write; the other keys it keeps.
      Section-driven `nbt` values and custom editors may write anywhere. */
  function Touched(ed: Editor): set<string>
  {
    match ed
    case CustomModelData(_) => {"CustomModelData"}
    case Name(_) => {"display"}
    case Lore(_) => {"display"}
    case Identity(_, _, _) => {CF}
    case Durability(_) => {CF}
    case Size(_, _) => {CF}
    case Stackable => {CF}
    case Unbreakable(_) => {"Unbreakable"}
    case ItemFlags(_) => {"HideFlags"}
    case Enchantments(_, stored) => {ListKey(stored)}
    case RandomEnchantments(_, stored) => {ListKey(stored)}
    case EnchantmentPool(_, _, stored) => {ListKey(stored)}
    case Price(_, _) => {"Price"}
    case Grabbing => {"owner"}
    case Head(_, _) => {"SkullOwner"}
    case RandomDamage => {CF, "Damage"}
    case ExtraNbt(_) => {}
    case Custom(_) => {}
  }

  /** Editors whose writes are confined to `Touched`. */
  predicate Framed(ed: Editor)
  {
    !ed.ExtraNbt? && !ed.Custom?
  }

  /** Editors that consume random draws. */
  predicate Random(ed: Editor)
  {
    ed.Stackable? || ed.Size? || ed.RandomDamage? || ed.RandomEnchantments? || ed.EnchantmentPool?
  }

  /** Editors that may throw. */
  predicate MayFail(ed: Editor)
  {
    ed.EnchantmentPool? || ed.Price? || ed.Size? || ed.RandomDamage?
  }

  // ---------------------------------------------------------------------
  // Text

  /** A configured line as written into the tag: placeholders expanded,
      italics switched off, MiniMessage rendered to component JSON. */
  function Render(host: Host, player: Player, text: string, ph: Placeholders): string
  {
    host.miniToJson("<!i>" + host.expand(player, text, ph))
  }

  /** Every line rendered in place. */
  function RenderAll(host: Host, player: Player, lines: seq<string>, ph: Placeholders): (r: seq<string>)
    ensures |r| == |lines|
    ensures forall i :: 0 <= i < |lines| ==> r[i] == Render(host, player, lines[i], ph)
  {
    seq(|lines|, i requires 0 <= i < |lines| => Render(host, player, lines[i], ph))
  }

  /** `replace(",", ".")`: a decimal comma written by a localised formatter becomes a point. */
  function ReplaceComma(s: string): (r: string)
    ensures |r| == |s|
    ensures ',' !in r
    ensures forall i :: 0 <= i < |s| && s[i] != ',' ==> r[i] == s[i]
    ensures forall i :: 0 <= i < |s| && s[i] == ',' ==> r[i] == '.'
  {
    seq(|s|, i requires 0 <= i < |s| => if s[i] == ',' then '.' else s[i])
  }

  // ---------------------------------------------------------------------
  // item-flag

  /** `1 << ordinal` on a Java int: the shift distance is taken modulo 32. */
  function Bit(ordinal: nat): bv32
  {
    (1 as bv32) << ((ordinal % 32) as bv5)
  }

  /** The `HideFlags` mask: every configured flag's bit or-ed together. */
  function FlagMask(ordinals: seq<nat>): bv32
    decreases |ordinals|
  {
    if ordinals == [] then 0
    else FlagMask(ordinals[..|ordinals| - 1]) | Bit(ordinals[|ordinals| - 1])
  }

  /** Distinct bit positions of a Java int do not overlap. */
  lemma BitsDisjoint(a: nat, b: nat)
    requires a < 32 && b < 32
    ensures (Bit(a) & Bit(b) != 0) <==> a == b
  {
    ShiftsDisjoint(a as bv5, b as bv5);
    Bv5Injective(a, b);
  }

  lemma Bv5Injective(a: nat, b: nat)
    requires a < 32 && b < 32
    ensures (a as bv5 == b as bv5) <==> a == b
  {
    Bv5RoundTrip(a);
    Bv5RoundTrip(b);
  }

  lemma Bv5RoundTrip(a: nat)
    requires a < 32
    ensures (a as bv5) as int == a
  {
  }

  lemma ShiftsDisjoint(x: bv5, y: bv5)
    ensures (((1 as bv32) << x) & ((1 as bv32) << y) != 0) <==> x == y
  {
  }

  /** Bit `b` of the mask is set exactly when some configured flag has an
      ordinal congruent to `b` modulo 32. */
  lemma {:induction false} FlagMaskBits(ordinals: seq<nat>, b: nat)
    requires b < 32
    ensures (FlagMask(ordinals) & Bit(b) != 0) <==> HasBit(ordinals, b)
    decreases |ordinals|
  {
    if ordinals != [] {
      var init := ordinals[..|ordinals| - 1];
      var last := ordinals[|ordinals| - 1];
      FlagMaskBits(init, b);
      LastBit(last, b);
      OrBit(FlagMask(init), Bit(last), Bit(b));
      HasBitSplit(ordinals, b);
    }
  }

  /** Some configured flag has an ordinal congruent to `b` modulo 32. */
  predicate HasBit(ordinals: seq<nat>, b: nat)
  {
    exists i :: 0 <= i < |ordinals| && ordinals[i] % 32 == b
  }

  lemma HasBitSplit(ordinals: seq<nat>, b: nat)
    requires ordinals != []
    ensures HasBit(ordinals, b) <==>
            HasBit(ordinals[..|ordinals| - 1], b) || ordinals[|ordinals| - 1] % 32 == b
  {
    var init := ordinals[..|ordinals| - 1];
    if HasBit(init, b) {
      var i :| 0 <= i < |init| && init[i] % 32 == b;
      assert ordinals[i] == init[i];
    }
    if HasBit(ordinals, b) {
      var i :| 0 <= i < |ordinals| && ordinals[i] % 32 == b;
      if i < |init| {
        assert init[i] == ordinals[i];
      }
    }
  }

  lemma LastBit(last: nat, b: nat)
    requires b < 32
    ensures (Bit(last) & Bit(b) != 0) <==> last % 32 == b
  {
    BitsDisjoint(last % 32, b);
    BitReduced(last);
  }

  lemma BitReduced(n: nat)
    ensures Bit(n % 32) == Bit(n)
  {
    assert (n % 32) % 32 == n % 32;
  }

  lemma OrBit(x: bv32, y: bv32, m: bv32)
    ensures ((x | y) & m != 0) <==> (x & m != 0 || y & m != 0)
  {
  }

  /** A 32-bit pattern read as a Java (two's complement) int. */
  function JavaInt(m: bv32): (r: int)
    ensures -0x8000_0000 <= r < 0x8000_0000
    ensures r >= 0 ==> r == m as int
    ensures r < 0 ==> r + 0x1_0000_0000 == m as int
  {
    if m as int < 0x8000_0000 then m as int else m as int - 0x1_0000_0000
  }

  // ---------------------------------------------------------------------
  // random-enchantment

  /** Flips one coin per entry and appends the entries that win, an id at most once. */
  function RandomEnchantEdit(chances: seq<Chance>, stored: bool, s: State): (r: State)
    ensures r.tag == AppendCompounds(s.tag, ListKey(stored), EntriesOf(FirstOfEachId(Winners(chances, s.rng), {})))
    ensures r.ph == s.ph
    ensures r.rng == s.rng.Skip(|chances|)
  {
    var (picked, next) := RandomPicks(chances, {}, s.rng);
    RandomPicksAreFirstWinners(chances, {}, s.rng);
    State(AppendCompounds(s.tag, ListKey(stored), EntriesOf(picked)), s.ph, next)
  }

  // ---------------------------------------------------------------------
  // enchantment-pool

  /** The amount the pool editor draws: one weighted choice among the configured amounts. */
  function DrawnAmount(amounts: seq<int>, rng: Rng): (r: (int, Rng))
    requires amounts != []
    ensures r.0 in amounts && r.1 == rng.Skip(1)
  {
    var (k, next) := Pick(rng, |amounts|);
    (amounts[k], next)
  }

  /** Draws an amount, then runs the draw loop for that many enchantments
      and appends what it picked. An amount that is not positive appends
      nothing; an enchantment the server does not know throws. */
  function PoolEdit(host: Host, amounts: seq<int>, pool: seq<Enchant>, stored: bool, s: State): (r: Result<State>)
    ensures amounts == [] ==> r == Ok(s)
    ensures amounts != [] && DrawnAmount(amounts, s.rng).0 <= 0 ==> r == Ok(s.(rng := s.rng.Skip(1)))
    ensures r.Ok? ==> r.value.ph == s.ph && r.value.rng.draw == s.rng.draw && s.rng.pos <= r.value.rng.pos
    ensures r.Err? ==>
              (r.error.UnknownEnchantment?
               && exists i :: 0 <= i < |pool| && pool[i].id == r.error.id && host.enchantmentOf(pool[i].id).None?)
    ensures AllKnown(host, pool) ==> r.Ok?
  {
    if amounts == [] then Ok(s)
    else
      var (amount, next) := DrawnAmount(amounts, s.rng);
      if amount <= 0 then Ok(s.(rng := next))
      else
        var (es, last) :- PoolDraws(host, pool, {}, amount, next);
        Ok(State(AppendCompounds(s.tag, ListKey(stored), EntriesOf(es)), s.ph, last))
  }

  /** What the pool editor appends: at most the drawn amount of pool
      entries, no id twice, each compatible with those before it, and fewer
      than drawn only once the pool is used up. */
  lemma PoolEditAppends(host: Host, amounts: seq<int>, pool: seq<Enchant>, stored: bool, s: State)
    requires PoolEdit(host, amounts, pool, stored, s).Ok?
    ensures amounts != [] && DrawnAmount(amounts, s.rng).0 <= 0 ==> PoolEdit(host, amounts, pool, stored, s).value.tag == s.tag
    ensures exists es :: ((es == [] || (amounts != [] && |es| <= DrawnAmount(amounts, s.rng).0))
                          && (forall i :: 0 <= i < |es| ==> es[i] in pool)
                          && DistinctIds(es) && ConflictFree(host, {}, es)
                          && (amounts != [] && |es| < DrawnAmount(amounts, s.rng).0 ==> Exhausted(host, pool, {}, es))
                          && PoolEdit(host, amounts, pool, stored, s).value.tag == AppendCompounds(s.tag, ListKey(stored), EntriesOf(es)))
  {
    var none: seq<Enchant> := [];
    assert ConflictFree(host, {}, none);
    if amounts != [] {
      var (amount, next) := DrawnAmount(amounts, s.rng);
      if amount > 0 {
        var es := PoolDraws(host, pool, {}, amount, next).value.0;
        PoolDrawsExhaust(host, pool, {}, amount, next);
        assert PoolEdit(host, amounts, pool, stored, s).value.tag == AppendCompounds(s.tag, ListKey(stored), EntriesOf(es));
      } else {
        assert PoolEdit(host, amounts, pool, stored, s).value.tag == AppendCompounds(s.tag, ListKey(stored), EntriesOf(none));
      }
    } else {
      assert PoolEdit(host, amounts, pool, stored, s).value.tag == AppendCompounds(s.tag, ListKey(stored), EntriesOf(none));
    }
  }

  // ---------------------------------------------------------------------
  // price and size

  /** The text the price editor parses as the fish's size. */
  function SizeText(ph: Placeholders): string
  {
    ReplaceComma(if "{size}" in ph then ph["{size}"] else "0")
  }

  /** Writes `{base}` and `{bonus}` only when nonzero, then prices the fish
      by the `{size}` written earlier in the same build and stores the price
      in the tag and in `{price}`. A size text that does not parse throws. */
  function PriceEdit(host: Host, base: real, bonus: real, s: State): (r: Result<State>)
    ensures r.Ok? <==> host.parseNumber(SizeText(s.ph)).Some?
    ensures r.Err? ==> r.error == NumberFormat(SizeText(s.ph))
    ensures r.Ok? ==>
              (var size := host.parseNumber(SizeText(s.ph)).value;
               var price := host.fishPrice(base, bonus, size);
               r.value.tag == s.tag["Price" := DoubleTag(price)]
               && "{price}" in r.value.ph && r.value.ph["{price}"] == host.format2(price))
    ensures r.Ok? ==> ("{base}" in r.value.ph <==> base != 0.0 || "{base}" in s.ph)
    ensures r.Ok? && base != 0.0 ==> r.value.ph["{base}"] == host.format2(base)
    ensures r.Ok? ==> ("{bonus}" in r.value.ph <==> bonus != 0.0 || "{bonus}" in s.ph)
    ensures r.Ok? && bonus != 0.0 ==> r.value.ph["{bonus}"] == host.format2(bonus)
    ensures r.Ok? ==>
              forall k :: (k in s.ph && k != "{price}" && (k == "{base}" ==> base == 0.0) && (k == "{bonus}" ==> bonus == 0.0))
                          ==> k in r.value.ph && r.value.ph[k] == s.ph[k]
    ensures r.Ok? ==> r.value.ph.Keys == s.ph.Keys + {"{price}"} + (if base != 0.0 then {"{base}"} else {}) + (if bonus != 0.0 then {"{bonus}"} else {})
    ensures r.Ok? ==> r.value.rng == s.rng
  {
    var ph1 := if base != 0.0 then s.ph["{base}" := host.format2(base)] else s.ph;
    var ph2 := if bonus != 0.0 then ph1["{bonus}" := host.format2(bonus)] else ph1;
    assert SizeText(ph2) == SizeText(s.ph);
    var size :- ParseNumber(host, SizeText(ph2));
    var price := host.fishPrice(base, bonus, size);
    Ok(State(s.tag["Price" := DoubleTag(price)], ph2["{price}" := host.format2(price)], s.rng))
  }

  /** The size stored in the tag by the size editor, if any. */
  function StoredSize(tag: Compound): Option<real>
  {
    match GetCompound(tag, CF)
    case Some(cf) => if "size" in cf && cf["size"].FloatTag? then Some(cf["size"].f) else None
    case None => None
  }

  /** The random part of the size as the code computes it: by operator
      precedence the test is `left + left <= right`, in which case it is 0;
      otherwise it is drawn from [0, right - left) without adding `left`,
      and a bound that is not positive throws. */
  function SizeDraw(left: real, right: real, rng: Rng): (r: Result<(real, Rng)>)
    ensures left + left <= right ==> r == Ok((0.0, rng))
    ensures left + left > right ==> (r.Ok? <==> left < right)
    ensures left + left > right && r.Ok? ==> 0.0 <= r.value.0 < right - left && r.value.1 == rng.Skip(1)
  {
    if left + left <= right then Ok((0.0, rng)) else NextFloat(rng, right - left)
  }

  /** The stored size: the random part scaled by the multiplier and shifted by the offset. */
  function SizeValue(random: real, mult: real, fixed: real): real
  {
    random * mult + fixed
  }

  /** Draws the size, scales it by `{size-multiplier}` and shifts it by
      `{size-fixed}`, then stores it in the tag and in `{size}`. */
  function SizeEdit(host: Host, left: real, right: real, s: State): (r: Result<State>)
    ensures r.Ok? <==>
              (SizeDraw(left, right, s.rng).Ok?
               && ParseOr(host, s.ph, "{size-multiplier}", "1.0").Ok?
               && ParseOr(host, s.ph, "{size-fixed}", "0.0").Ok?)
    ensures r.Ok? ==>
              (var size := SizeValue(SizeDraw(left, right, s.rng).value.0,
                                     ParseOr(host, s.ph, "{size-multiplier}", "1.0").value,
                                     ParseOr(host, s.ph, "{size-fixed}", "0.0").value);
               StoredSize(r.value.tag) == Some(size)
               && r.value.ph == s.ph["{size}" := host.format2(size)]
               && r.value.rng == SizeDraw(left, right, s.rng).value.1)
    ensures r.Ok? ==> forall k :: k in s.tag && k != CF ==> k in r.value.tag && r.value.tag[k] == s.tag[k]
  {
    var (random, next) :- SizeDraw(left, right, s.rng);
    var mult :- ParseOr(host, s.ph, "{size-multiplier}", "1.0");
    var fixed :- ParseOr(host, s.ph, "{size-fixed}", "0.0");
    var size := SizeValue(random, mult, fixed);
    var cf := GetOrCreateCompound(s.tag, CF)["size" := FloatTag(size)];
    assert GetCompound(SetIn(s.tag, CF, "size", FloatTag(size)), CF) == Some(cf);
    assert StoredSize(SetIn(s.tag, CF, "size", FloatTag(size))) == Some(size);
    Ok(State(SetIn(s.tag, CF, "size", FloatTag(size)), s.ph["{size}" := host.format2(size)], next))
  }

  /** When the configured minimum is at most half the maximum (every usual
      range such as `1~3`), the random part is zero and the stored size is
      exactly the `{size-fixed}` offset, whatever the range. */
  lemma SizeIgnoresNarrowRange(host: Host, left: real, right: real, s: State)
    requires left + left <= right
    requires SizeEdit(host, left, right, s).Ok?
    ensures StoredSize(SizeEdit(host, left, right, s).value.tag) == Some(ParseOr(host, s.ph, "{size-fixed}", "0.0").value)
    ensures SizeEdit(host, left, right, s).value.rng == s.rng
  {
  }

  /** Otherwise the drawn part lies below `right - left`: with the default
      multiplier and offset the stored size stays below the configured
      minimum `left` rather than inside the range. */
  lemma SizeBelowWidth(host: Host, left: real, right: real, s: State)
    requires left + left > right
    requires "{size-multiplier}" !in s.ph && "{size-fixed}" !in s.ph
    requires host.parseNumber("1.0") == Some(1.0) && host.parseNumber("0.0") == Some(0.0)
    requires SizeEdit(host, left, right, s).Ok?
    ensures StoredSize(SizeEdit(host, left, right, s).value.tag).Some?
    ensures 0.0 <= StoredSize(SizeEdit(host, left, right, s).value.tag).value < right - left
    ensures StoredSize(SizeEdit(host, left, right, s).value.tag).value < left
  {
  }

  // ---------------------------------------------------------------------
  // damage

  /** The damage a fraction `dur / maxDur` of a material's durability
      stands for, truncated. */
  function ScaledDamage(m: nat, dur: nat, maxDur: int): (d: int)
    requires dur < maxDur
    ensures 0 <= d <= m
    ensures m > 0 ==> d < m
    ensures dur == 0 ==> d == 0
    ensures d * maxDur <= m * dur < (d + 1) * maxDur
  {
    ScaledBelow(m, dur, maxDur);
    TruncatedQuotient(m * dur, maxDur);
    (m * dur) / maxDur
  }

  /** Integer division by a positive divisor is the truncated quotient. */
  lemma TruncatedQuotient(p: int, q: int)
    requires q > 0
    ensures (p / q) * q <= p < (p / q + 1) * q
  {
    assert p == (p / q) * q + p % q;
    assert (p / q + 1) * q == (p / q) * q + q;
  }

  lemma ScaledBelow(m: nat, dur: nat, maxDur: int)
    requires dur < maxDur
    ensures 0 <= (m * dur) / maxDur <= m
    ensures m > 0 ==> (m * dur) / maxDur < m
  {
    var p := m * dur;
    var q := p / maxDur;
    MulLe(0, m, dur);
    DivBounds(p, maxDur);
    if m > 0 {
      MulStrict(m, dur, maxDur);
      if q >= m {
        MulLe(m, q, maxDur);
        assert false;
      }
    } else {
      assert p == 0;
    }
  }

  lemma DivBounds(p: int, d: int)
    requires p >= 0 && d > 0
    ensures 0 <= p / d && (p / d) * d <= p
  {
  }

  lemma MulStrict(m: int, a: int, b: int)
    requires m > 0 && a < b
    ensures m * a < m * b
  {
    assert m * b - m * a == m * (b - a);
  }

  lemma MulLe(a: int, b: int, c: int)
    requires a <= b && c >= 0
    ensures a * c <= b * c
  {
    assert b * c - a * c == (b - a) * c;
  }

  /** Randomises the damage. An item with its own nonzero `max_dur` gets a
      current durability in [0, max_dur) and the proportional vanilla
      damage; any other item gets a damage in [0, M) for the material's
      maximum M. A bound that is not positive throws. */
  function DamageEdit(host: Host, material: Material, s: State): (r: Result<State>)
    ensures r.Ok? ==> r.value.ph == s.ph && r.value.rng == s.rng.Skip(1)
    ensures r.Ok? ==>
              ("Damage" in r.value.tag && r.value.tag["Damage"].IntTag?
               && 0 <= r.value.tag["Damage"].i
               && (r.value.tag["Damage"].i < host.maxDurability(material) || r.value.tag["Damage"].i == 0))
    ensures OwnMax(s.tag).Some? ==>
              (r.Ok? <==> OwnMax(s.tag).value > 0)
    ensures OwnMax(s.tag).Some? && r.Ok? ==>
              (var cf := GetCompound(r.value.tag, CF);
               cf.Some? && "cur_dur" in cf.value && cf.value["cur_dur"].IntTag?
               && 0 <= cf.value["cur_dur"].i < OwnMax(s.tag).value
               && r.value.tag["Damage"].i == ScaledDamage(host.maxDurability(material), cf.value["cur_dur"].i, OwnMax(s.tag).value))
    ensures OwnMax(s.tag).None? ==>
              (r.Ok? <==> host.maxDurability(material) > 0)
    ensures OwnMax(s.tag).None? && r.Ok? ==> r.value.tag == s.tag["Damage" := r.value.tag["Damage"]]
    ensures r.Ok? ==> forall k :: k in s.tag && k != CF && k != "Damage" ==> k in r.value.tag && r.value.tag[k] == s.tag[k]
    ensures r.Ok? ==> r.value.tag.Keys == s.tag.Keys + {"Damage"}
  {
    var m := host.maxDurability(material);
    match OwnMax(s.tag)
    case Some(maxDur) =>
      var cf := GetCompound(s.tag, CF).value;
      var (dur, next) :- NextInt(s.rng, maxDur);
      var cf' := cf["cur_dur" := IntTag(dur)];
      Ok(State(s.tag[CF := CompoundTag(cf')]["Damage" := IntTag(ScaledDamage(m, dur, maxDur))], s.ph, next))
    case None =>
      var (k, next) :- NextInt(s.rng, m);
      Ok(State(s.tag["Damage" := IntTag(k)], s.ph, next))
  }

  /** The item's own `CustomFishing.max_dur`, when it has a plugin compound
      and that value is nonzero. */
  function OwnMax(tag: Compound): (r: Option<int>)
    ensures r.Some? ==> GetCompound(tag, CF).Some? && r.value == GetInteger(GetCompound(tag, CF).value, "max_dur") && r.value != 0
    ensures r.None? ==> GetCompound(tag, CF).None? || GetInteger(GetCompound(tag, CF).value, "max_dur") == 0
  {
    match GetCompound(tag, CF)
    case Some(cf) => if GetInteger(cf, "max_dur") != 0 then Some(GetInteger(cf, "max_dur")) else None
    case None => None
  }

  // ---------------------------------------------------------------------
  // head

  /** The skull owner: a name-based UUID derived from the item id and one
      more texture entry carrying the base64 value. */
  function HeadEdit(base64: string, itemId: string, tag: Compound): (r: Compound)
    ensures r.Keys == tag.Keys + {"SkullOwner"}
    ensures forall k :: k in tag && k != "SkullOwner" ==> r[k] == tag[k]
    ensures GetCompound(r, "SkullOwner").Some?
    ensures (var skull := GetCompound(r, "SkullOwner").value;
             "Id" in skull && skull["Id"] == UuidTag(NameUuid(itemId))
             && GetCompound(skull, "Properties").Some?
             && (var textures := ExistingList(GetCompound(skull, "Properties").value, "textures");
                 textures == ExistingList(GetOrCreateCompound(GetOrCreateCompound(tag, "SkullOwner"), "Properties"), "textures")
                             + [map["Value" := StringTag(base64)]]))
  {
    var skull := GetOrCreateCompound(tag, "SkullOwner")["Id" := UuidTag(NameUuid(itemId))];
    var props := GetOrCreateCompound(skull, "Properties");
    var props' := AppendCompounds(props, "textures", [map["Value" := StringTag(base64)]]);
    tag["SkullOwner" := CompoundTag(skull["Properties" := CompoundTag(props')])]
  }

  // ---------------------------------------------------------------------
  // One editor

  /** One editor's effect on the build state. */
  function ApplyEditor(host: Host, player: Player, material: Material, ed: Editor, s: State): (r: Result<State>)
    ensures r.Err? ==> MayFail(ed)
    ensures r.Ok? && !(ed.Price? || ed.Size? || ed.Custom?) ==> r.value.ph == s.ph
    ensures r.Ok? && !ed.Custom? ==> s.ph.Keys <= r.value.ph.Keys
    ensures r.Ok? ==> r.value.rng.draw == s.rng.draw && s.rng.pos <= r.value.rng.pos
    ensures r.Ok? && !Random(ed) ==> r.value.rng == s.rng
  {
    match ed
    case CustomModelData(v) => Ok(s.(tag := s.tag["CustomModelData" := IntTag(v)]))
    case Name(text) =>
      Ok(s.(tag := SetIn(s.tag, "display", "Name", StringTag(Render(host, player, text, s.ph)))))
    case Identity(enabled, kind, id) =>
      if !enabled then Ok(s)
      else Ok(s.(tag := SetIn(SetIn(s.tag, CF, "type", StringTag(kind)), CF, "id", StringTag(id))))
    case Unbreakable(enabled) =>
      if !enabled then Ok(s) else Ok(s.(tag := s.tag["Unbreakable" := ByteTag(1)]))
    case Lore(lines) =>
      Ok(s.(tag := SetIn(s.tag, "display", "Lore", StringListTag(RenderAll(host, player, lines, s.ph)))))
    case ExtraNbt(values) => Ok(s.(tag := host.applyNbt(s.tag, values)))
    case ItemFlags(ordinals) => Ok(s.(tag := s.tag["HideFlags" := IntTag(JavaInt(FlagMask(ordinals)))]))
    case Enchantments(entries, stored) =>
      Ok(s.(tag := AppendCompounds(s.tag, ListKey(stored), EntriesOf(entries))))
    case RandomEnchantments(chances, stored) => Ok(RandomEnchantEdit(chances, stored, s))
    case EnchantmentPool(amounts, pool, stored) => PoolEdit(host, amounts, pool, stored, s)
    case Durability(max) =>
      Ok(s.(tag := SetIn(SetIn(s.tag, CF, "max_dur", IntTag(max)), CF, "cur_dur", IntTag(max))))
    case Price(base, bonus) => PriceEdit(host, base, bonus, s)
    case Size(left, right) => SizeEdit(host, left, right, s)
    case Stackable =>
      var (u, next) := s.rng.Next();
      Ok(State(SetIn(s.tag, CF, "uuid", UuidTag(RandomUuid(u))), s.ph, next))
    case Grabbing =>
      if "player" in s.ph then Ok(s.(tag := s.tag["owner" := StringTag(s.ph["player"])]))
      else Ok(s.(tag := s.tag - {"owner"}))
    case Head(base64, itemId) => Ok(s.(tag := HeadEdit(base64, itemId, s.tag)))
    case RandomDamage => DamageEdit(host, material, s)
    case Custom(edit) =>
      var (tag, ph) := edit(player, s.tag, s.ph);
      Ok(State(tag, ph, s.rng))
  }

  /** `after` differs from `before` at most on `keys`. */
  predicate Confined(before: Compound, after: Compound, keys: set<string>)
  {
    && after.Keys <= before.Keys + keys
    && forall k :: k in before && k !in keys ==> k in after && after[k] == before[k]
  }

  lemma UpdateConfined(tag: Compound, key: string, v: Tag)
    ensures Confined(tag, tag[key := v], {key})
  {
  }

  lemma SetInConfined(tag: Compound, key: string, field: string, v: Tag)
    ensures Confined(tag, SetIn(tag, key, field, v), {key})
  {
  }

  lemma ConfinedTrans(a: Compound, b: Compound, c: Compound, keys: set<string>)
    requires Confined(a, b, keys) && Confined(b, c, keys)
    ensures Confined(a, c, keys)
  {
  }

  lemma AppendConfined(tag: Compound, key: string, entries: seq<Compound>)
    ensures Confined(tag, AppendCompounds(tag, key, entries), {key})
  {
  }

  /** Every editor except the section-driven `nbt` and custom ones writes
      only the top-level keys `Touched` names and keeps all the others. */
  lemma EditorFrame(host: Host, player: Player, material: Material, ed: Editor, s: State)
    requires Framed(ed)
    requires ApplyEditor(host, player, material, ed, s).Ok?
    ensures Confined(s.tag, ApplyEditor(host, player, material, ed, s).value.tag, Touched(ed))
  {
    if MayFail(ed) {
      FallibleFrame(host, player, material, ed, s);
    } else if Random(ed) {
      RandomFrame(host, player, material, ed, s);
    } else {
      PlainFrame(host, player, material, ed, s);
    }
  }

  lemma PlainFrame(host: Host, player: Player, material: Material, ed: Editor, s: State)
    requires Framed(ed) && !MayFail(ed) && !Random(ed)
    ensures ApplyEditor(host, player, material, ed, s).Ok?
    ensures Confined(s.tag, ApplyEditor(host, player, material, ed, s).value.tag, Touched(ed))
  {
    if ed.CustomModelData? || ed.Unbreakable? || ed.ItemFlags? || ed.Enchantments? || ed.Grabbing? || ed.Head? {
      TopLevelFrame(host, player, material, ed, s);
    } else {
      NestedFrame(host, player, material, ed, s);
    }
  }

  lemma TopLevelFrame(host: Host, player: Player, material: Material, ed: Editor, s: State)
    requires ed.CustomModelData? || ed.Unbreakable? || ed.ItemFlags? || ed.Enchantments? || ed.Grabbing? || ed.Head?
    ensures ApplyEditor(host, player, material, ed, s).Ok?
    ensures Confined(s.tag, ApplyEditor(host, player, material, ed, s).value.tag, Touched(ed))
  {
    match ed
    case CustomModelData(v) => UpdateConfined(s.tag, "CustomModelData", IntTag(v));
    case Unbreakable(enabled) => UpdateConfined(s.tag, "Unbreakable", ByteTag(1));
    case ItemFlags(ordinals) => UpdateConfined(s.tag, "HideFlags", IntTag(JavaInt(FlagMask(ordinals))));
    case Enchantments(entries, stored) => AppendConfined(s.tag, ListKey(stored), EntriesOf(entries));
    case Grabbing =>
    case Head(base64, itemId) =>
  }

  lemma NestedFrame(host: Host, player: Player, material: Material, ed: Editor, s: State)
    requires ed.Name? || ed.Lore? || ed.Identity? || ed.Durability?
    ensures ApplyEditor(host, player, material, ed, s).Ok?
    ensures Confined(s.tag, ApplyEditor(host, player, material, ed, s).value.tag, Touched(ed))
  {
    var t := ApplyEditor(host, player, material, ed, s).value.tag;
    match ed
    case Name(text) => SetInConfined(s.tag, "display", "Name", StringTag(Render(host, player, text, s.ph)));
    case Lore(lines) => SetInConfined(s.tag, "display", "Lore", StringListTag(RenderAll(host, player, lines, s.ph)));
    case Identity(enabled, kind, id) =>
      if enabled {
        var mid := SetIn(s.tag, CF, "type", StringTag(kind));
        SetInConfined(s.tag, CF, "type", StringTag(kind));
        SetInConfined(mid, CF, "id", StringTag(id));
        ConfinedTrans(s.tag, mid, t, {CF});
      }
    case Durability(max) =>
      var mid := SetIn(s.tag, CF, "max_dur", IntTag(max));
      SetInConfined(s.tag, CF, "max_dur", IntTag(max));
      SetInConfined(mid, CF, "cur_dur", IntTag(max));
      ConfinedTrans(s.tag, mid, t, {CF});
  }

  lemma RandomFrame(host: Host, player: Player, material: Material, ed: Editor, s: State)
    requires Framed(ed) && !MayFail(ed) && Random(ed)
    ensures ApplyEditor(host, player, material, ed, s).Ok?
    ensures Confined(s.tag, ApplyEditor(host, player, material, ed, s).value.tag, Touched(ed))
  {
    match ed
    case Stackable =>
      SetInConfined(s.tag, CF, "uuid", UuidTag(RandomUuid(s.rng.draw(s.rng.pos))));
    case RandomEnchantments(chances, stored) =>
      AppendConfined(s.tag, ListKey(stored), EntriesOf(FirstOfEachId(Winners(chances, s.rng), {})));
  }

  lemma FallibleFrame(host: Host, player: Player, material: Material, ed: Editor, s: State)
    requires MayFail(ed)
    requires ApplyEditor(host, player, material, ed, s).Ok?
    ensures Confined(s.tag, ApplyEditor(host, player, material, ed, s).value.tag, Touched(ed))
  {
    if ed.EnchantmentPool? || ed.Price? {
      PoolPriceFrame(host, player, material, ed, s);
    } else {
      var t := ApplyEditor(host, player, material, ed, s).value.tag;
      match ed
      case Size(left, right) =>
        assert t == SizeEdit(host, left, right, s).value.tag;
      case RandomDamage =>
        assert t == DamageEdit(host, material, s).value.tag;
    }
  }

  lemma PoolPriceFrame(host: Host, player: Player, material: Material, ed: Editor, s: State)
    requires ed.EnchantmentPool? || ed.Price?
    requires ApplyEditor(host, player, material, ed, s).Ok?
    ensures Confined(s.tag, ApplyEditor(host, player, material, ed, s).value.tag, Touched(ed))
  {
    var t := ApplyEditor(host, player, material, ed, s).value.tag;
    match ed
    case EnchantmentPool(amounts, pool, stored) =>
      PoolEditAppends(host, amounts, pool, stored, s);
      var es :| PoolEdit(host, amounts, pool, stored, s).value.tag == AppendCompounds(s.tag, ListKey(stored), EntriesOf(es));
      AppendConfined(s.tag, ListKey(stored), EntriesOf(es));
    case Price(base, bonus) =>
      assert t == PriceEdit(host, base, bonus, s).value.tag;
      UpdateConfined(s.tag, "Price", t["Price"]);
  }

  // ---------------------------------------------------------------------
  // A sequence of editors

  /** Every editor once, in order, on one shared state; the first that throws ends the build. */
  function ApplyAll(host: Host, player: Player, material: Material, eds: seq<Editor>, s: State): (r: Result<State>)
    ensures r.Err? ==> exists i :: 0 <= i < |eds| && MayFail(eds[i])
    ensures r.Ok? ==> r.value.rng.draw == s.rng.draw && s.rng.pos <= r.value.rng.pos
    ensures r.Ok? && (forall i :: 0 <= i < |eds| ==> !eds[i].Custom?) ==> s.ph.Keys <= r.value.ph.Keys
    decreases |eds|
  {
    if eds == [] then Ok(s)
    else
      var next :- ApplyEditor(host, player, material, eds[0], s);
      var r := ApplyAll(host, player, material, eds[1..], next);
      assert r.Err? ==> exists i :: 1 <= i < |eds| && MayFail(eds[i]) by {
        if r.Err? {
          var j :| 0 <= j < |eds[1..]| && MayFail(eds[1..][j]);
          assert eds[j + 1] == eds[1..][j];
        }
      }
      assert (forall i :: 0 <= i < |eds| ==> !eds[i].Custom?) ==> (forall i :: 0 <= i < |eds[1..]| ==> !eds[1..][i].Custom?);
      r
  }

  /** Running two pipelines back to back is running their concatenation. */
  lemma {:induction false} ApplyAllConcat(host: Host, player: Player, material: Material, a: seq<Editor>, b: seq<Editor>, s: State)
    ensures ApplyAll(host, player, material, a + b, s) ==
            (match ApplyAll(host, player, material, a, s)
             case Err(e) => Err(e)
             case Ok(mid) => ApplyAll(host, player, material, b, mid))
    decreases |a|
  {
    if a == [] {
      assert a + b == b;
    } else {
      assert (a + b)[0] == a[0];
      assert (a + b)[1..] == a[1..] + b;
      var first := ApplyEditor(host, player, material, a[0], s);
      if first.Ok? {
        ApplyAllConcat(host, player, material, a[1..], b, first.value);
      }
    }
  }

  /** A pipeline without randomised, failing or custom editors does not
      depend on the random stream and never throws. */
  lemma {:induction false} DeterministicPipeline(host: Host, player: Player, material: Material, eds: seq<Editor>, s: State)
    requires forall i :: 0 <= i < |eds| ==> !Random(eds[i]) && !MayFail(eds[i])
    ensures ApplyAll(host, player, material, eds, s).Ok?
    ensures ApplyAll(host, player, material, eds, s).value.rng == s.rng
    decreases |eds|
  {
    if eds != [] {
      var next := ApplyEditor(host, player, material, eds[0], s).value;
      assert forall i :: 0 <= i < |eds[1..]| ==> eds[1..][i] == eds[i + 1];
      DeterministicPipeline(host, player, material, eds[1..], next);
    }
  }

  /** The top-level keys a pipeline may write. */
  function TouchedAll(eds: seq<Editor>): set<string>
    decreases |eds|
  {
    if eds == [] then {} else Touched(eds[0]) + TouchedAll(eds[1..])
  }

  /** A pipeline of framed editors keeps every top-level key none of its
      editors writes. */
  lemma {:induction false} ApplyAllFrame(host: Host, player: Player, material: Material, eds: seq<Editor>, s: State)
    requires forall i :: 0 <= i < |eds| ==> Framed(eds[i])
    requires ApplyAll(host, player, material, eds, s).Ok?
    ensures Confined(s.tag, ApplyAll(host, player, material, eds, s).value.tag, TouchedAll(eds))
    decreases |eds|
  {
    if eds != [] {
      var next := ApplyEditor(host, player, material, eds[0], s).value;
      var last := ApplyAll(host, player, material, eds, s).value;
      EditorFrame(host, player, material, eds[0], s);
      assert forall i :: 0 <= i < |eds[1..]| ==> eds[1..][i] == eds[i + 1];
      ApplyAllFrame(host, player, material, eds[1..], next);
      ConfinedWiden(s.tag, next.tag, Touched(eds[0]), TouchedAll(eds));
      ConfinedWiden(next.tag, last.tag, TouchedAll(eds[1..]), TouchedAll(eds));
      ConfinedTrans(s.tag, next.tag, last.tag, TouchedAll(eds));
    }
  }

  lemma ConfinedWiden(a: Compound, b: Compound, keys: set<string>, wider: set<string>)
    requires Confined(a, b, keys) && keys <= wider
    ensures Confined(a, b, wider)
  {
  }

  /** A custom editor applies its function to the tag and placeholders. */
  lemma ApplyCustom(host: Host, player: Player, material: Material,
                    edit: (Player, Compound, Placeholders) -> (Compound, Placeholders), s: State)
    ensures ApplyEditor(host, player, material, Custom(edit), s)
            == Ok(State(edit(player, s.tag, s.ph).0, edit(player, s.tag, s.ph).1, s.rng))
  {
  }

  /** A single editor run as a pipeline. */
  lemma ApplyAllOne(host: Host, player: Player, material: Material, ed: Editor, s: State)
    ensures ApplyAll(host, player, material, [ed], s) == ApplyEditor(host, player, material, ed, s)
  {
    assert [ed][1..] == [];
  }

  /** Two editors run as a pipeline: the second sees the state the first left. */
  lemma ApplyAllTwo(host: Host, player: Player, material: Material, x: Editor, y: Editor, s: State)
    ensures ApplyAll(host, player, material, [x, y], s) ==
            (match ApplyEditor(host, player, material, x, s)
             case Err(e) => Err(e)
             case Ok(mid) => ApplyEditor(host, player, material, y, mid))
  {
    assert [x, y][1..] == [y];
    match ApplyEditor(host, player, material, x, s)
    case Err(_) =>
    case Ok(mid) => ApplyAllOne(host, player, material, y, mid);
  }

  /** The price editor right after the size editor prices the fish by the
      size just drawn, read back from its two-decimal rendering. */
  lemma PriceSeesSize(host: Host, player: Player, material: Material, left: real, right: real, base: real, bonus: real, s: State)
    requires SizeEdit(host, left, right, s).Ok?
    ensures StoredSize(SizeEdit(host, left, right, s).value.tag).Some?
    ensures SizeText(SizeEdit(host, left, right, s).value.ph)
            == ReplaceComma(host.format2(StoredSize(SizeEdit(host, left, right, s).value.tag).value))
    ensures ApplyAll(host, player, material, [Size(left, right), Price(base, bonus)], s)
            == PriceEdit(host, base, bonus, SizeEdit(host, left, right, s).value)
  {
    ApplyAllTwo(host, player, material, Size(left, right), Price(base, bonus), s);
    ApplySize(host, player, material, left, right, s);
    ApplyPrice(host, player, material, base, bonus, SizeEdit(host, left, right, s).value);
  }

  lemma ApplySize(host: Host, player: Player, material: Material, left: real, right: real, s: State)
    ensures ApplyEditor(host, player, material, Size(left, right), s) == SizeEdit(host, left, right, s)
  {
  }

  lemma ApplyPrice(host: Host, player: Player, material: Material, base: real, bonus: real, s: State)
    ensures ApplyEditor(host, player, material, Price(base, bonus), s) == PriceEdit(host, base, bonus, s)
  {
  }
}

=== FILE: enchanting.dfy ===
/** The two randomised enchantment editors: independent coin flips per entry
    (`random-enchantment`) and a bounded draw without replacement from a
    pool (`enchantment-pool`). Both append `{id, lvl}` compounds to the
    item's enchantment list. */
module Enchanting {
  import opened Wrappers
  import opened Nbt
  import opened Platform
  import opened Randomness

  /** An enchantment id as written in the configuration, and its level. */
  datatype Enchant = Enchant(id: string, level: int)

  /** A random-enchantment entry: the entry is applied when a draw falls below `chance`. */
  datatype Chance = Chance(chance: real, entry: Enchant)

  /** Stored enchantments (enchanted books) live under their own list. */
  function ListKey(stored: bool): string
  {
    if stored then "StoredEnchantments" else "Enchantments"
  }

  /** The compound appended to the list for one enchantment. */
  function EntryOf(e: Enchant): Compound
  {
    map["id" := StringTag(e.id), "lvl" := ShortTag(e.level)]
  }

  function EntriesOf(es: seq<Enchant>): (r: seq<Compound>)
    ensures |r| == |es|
    ensures forall i :: 0 <= i < |es| ==> r[i] == EntryOf(es[i])
  {
    seq(|es|, i requires 0 <= i < |es| => EntryOf(es[i]))
  }

  predicate DistinctIds(es: seq<Enchant>)
  {
    forall i, j :: 0 <= i < j < |es| ==> es[i].id != es[j].id
  }

  function IdSet(es: seq<Enchant>): set<string>
  {
    set i | 0 <= i < |es| :: es[i].id
  }

  // ---------------------------------------------------------------------
  // random-enchantment

  /** Entry `k` of the list won its coin flip against the stream `rng`. */
  ghost predicate WonAt(list: seq<Chance>, rng: Rng, k: int)
  {
    0 <= k < |list| && rng.draw(rng.pos + k) < list[k].chance
  }

  /** The list's entries in order, each kept when its draw is below its
      chance and its id was not taken before; one draw per entry, whether or
      not the entry is kept. */
  function RandomPicks(list: seq<Chance>, taken: set<string>, rng: Rng): (r: (seq<Enchant>, Rng))
    ensures r.1 == rng.Skip(|list|)
    ensures DistinctIds(r.0)
    ensures forall i :: 0 <= i < |r.0| ==> r.0[i].id !in taken
    ensures forall k :: WonAt(list, rng, k) ==> list[k].entry.id in taken + IdSet(r.0)
    decreases |list|
  {
    if list == [] then ([], rng)
    else
      var c := list[0];
      var take := rng.draw(rng.pos) < c.chance && c.entry.id !in taken;
      var taken' := if take then taken + {c.entry.id} else taken;
      var (rest, last) := RandomPicks(list[1..], taken', rng.Skip(1));
      var picked := if take then [c.entry] + rest else rest;
      PicksFresh(c.entry, taken, take, rest, picked);
      PicksComplete(list, taken, rng, take, rest, picked);
      (picked, last)
  }

  /** The entries whose draw fell below their chance, in list order. */
  function Winners(list: seq<Chance>, rng: Rng): seq<Enchant>
    decreases |list|
  {
    if list == [] then []
    else (if rng.draw(rng.pos) < list[0].chance then [list[0].entry] else [])
         + Winners(list[1..], rng.Skip(1))
  }

  /** The first entry of each id that is not already taken. */
  function FirstOfEachId(es: seq<Enchant>, taken: set<string>): seq<Enchant>
    decreases |es|
  {
    if es == [] then []
    else if es[0].id in taken then FirstOfEachId(es[1..], taken)
    else [es[0]] + FirstOfEachId(es[1..], taken + {es[0].id})
  }

  /** The editor's single pass equals flipping every coin first and then
      dropping repeated ids. */
  lemma {:induction false} RandomPicksAreFirstWinners(list: seq<Chance>, taken: set<string>, rng: Rng)
    ensures RandomPicks(list, taken, rng).0 == FirstOfEachId(Winners(list, rng), taken)
    decreases |list|
  {
    if list != [] {
      var c := list[0];
      var won := rng.draw(rng.pos) < c.chance;
      var take := won && c.entry.id !in taken;
      var taken' := if take then taken + {c.entry.id} else taken;
      RandomPicksAreFirstWinners(list[1..], taken', rng.Skip(1));
      var w := Winners(list[1..], rng.Skip(1));
      if won {
        assert Winners(list, rng) == [c.entry] + w;
        assert ([c.entry] + w)[1..] == w;
      } else {
        assert Winners(list, rng) == w;
      }
    }
  }

  /** Kept entries stay distinct and outside `taken` when the head is added. */
  lemma PicksFresh(head: Enchant, taken: set<string>, take: bool, rest: seq<Enchant>, picked: seq<Enchant>)
    requires picked == if take then [head] + rest else rest
    requires take ==> head.id !in taken
    requires DistinctIds(rest)
    requires forall i :: 0 <= i < |rest| ==> rest[i].id !in (if take then taken + {head.id} else taken)
    ensures DistinctIds(picked)
    ensures forall i :: 0 <= i < |picked| ==> picked[i].id !in taken
  {
    if take {
      forall i, j | 0 <= i < j < |picked|
        ensures picked[i].id != picked[j].id
      {
        assert picked[j] == rest[j - 1];
        if i > 0 {
          assert picked[i] == rest[i - 1];
        }
      }
    }
  }

  /** Every entry that won its draw was kept, or its id was taken already. */
  lemma PicksComplete(list: seq<Chance>, taken: set<string>, rng: Rng, take: bool, rest: seq<Enchant>, picked: seq<Enchant>)
    requires list != []
    requires picked == if take then [list[0].entry] + rest else rest
    requires take <==> rng.draw(rng.pos) < list[0].chance && list[0].entry.id !in taken
    requires forall k :: WonAt(list[1..], rng.Skip(1), k) ==>
               list[1..][k].entry.id in (if take then taken + {list[0].entry.id} else taken) + IdSet(rest)
    ensures forall k :: WonAt(list, rng, k) ==> list[k].entry.id in taken + IdSet(picked)
  {
    assert IdSet(picked) == (if take then {list[0].entry.id} else {}) + IdSet(rest) by {
      if take {
        forall x | x in IdSet(rest)
          ensures x in IdSet(picked)
        {
          var i :| 0 <= i < |rest| && rest[i].id == x;
          assert picked[i + 1] == rest[i];
        }
        assert picked[0] == list[0].entry;
      }
    }
    forall k | WonAt(list, rng, k)
      ensures list[k].entry.id in taken + IdSet(picked)
    {
      if k > 0 {
        assert list[1..][k - 1] == list[k];
        assert WonAt(list[1..], rng.Skip(1), k - 1);
      }
    }
  }

  // ---------------------------------------------------------------------
  // enchantment-pool

  /** `removeIf` on the pool: every entry with the given id goes. */
  function RemoveId(pool: seq<Enchant>, id: string): (r: seq<Enchant>)
    ensures forall i :: 0 <= i < |r| ==> r[i].id != id && r[i] in pool
    ensures |r| <= |pool|
    ensures (exists i :: 0 <= i < |pool| && pool[i].id == id) ==> |r| < |pool|
    ensures forall i :: 0 <= i < |pool| && pool[i].id != id ==> pool[i] in r
  {
    if pool == [] then []
    else if pool[0].id == id then RemoveId(pool[1..], id)
    else
      var rest := RemoveId(pool[1..], id);
      assert forall i :: 0 <= i < |pool[1..]| && pool[1..][i].id == id ==> pool[i + 1].id == id;
      [pool[0]] + rest
  }

  /** `removeIf` keeps the order of what it keeps: filtering a
      concatenation is concatenating the filtered parts. */
  lemma {:induction false} RemoveIdConcat(a: seq<Enchant>, b: seq<Enchant>, id: string)
    ensures RemoveId(a + b, id) == RemoveId(a, id) + RemoveId(b, id)
  {
    if a != [] {
      assert (a + b)[1..] == a[1..] + b;
      RemoveIdConcat(a[1..], b, id);
    } else {
      assert a + b == b;
    }
  }

  /** Appending `es` one by one never puts an enchantment next to one it
      conflicts with: each resolves to an enchantment compatible with
      everything added before it. */
  ghost predicate ConflictFree(host: Host, added: set<string>, es: seq<Enchant>)
    decreases |es|
  {
    es == [] ||
    (host.enchantmentOf(es[0].id).Some? &&
     (forall a :: a in added ==> !host.conflicts(host.enchantmentOf(es[0].id).value, a)) &&
     ConflictFree(host, added + {host.enchantmentOf(es[0].id).value}, es[1..]))
  }

  /** The enchantments the entries of `es` resolve to on this server. */
  function Resolved(host: Host, es: seq<Enchant>): set<string>
    decreases |es|
  {
    if es == [] then {}
    else (if host.enchantmentOf(es[0].id).Some? then {host.enchantmentOf(es[0].id).value} else {})
         + Resolved(host, es[1..])
  }

  /** An entry with this id can no longer be appended next to `held`: its
      enchantment conflicts with one of them. */
  predicate Blocked(host: Host, id: string, held: set<string>)
  {
    host.enchantmentOf(id).Some? && exists a :: a in held && host.conflicts(host.enchantmentOf(id).value, a)
  }

  /** The pool is used up by the entries `out` appended after `added`: each
      entry's id was appended, or its enchantment conflicts with one held. */
  predicate Exhausted(host: Host, pool: seq<Enchant>, added: set<string>, out: seq<Enchant>)
  {
    forall i :: 0 <= i < |pool| ==>
      pool[i].id in IdSet(out) || Blocked(host, pool[i].id, added + Resolved(host, out))
  }

  /** A drawn entry that conflicts is discarded with its id; what uses up
      the rest uses up the whole pool. */
  lemma ExhaustedAfterConflict(host: Host, pool: seq<Enchant>, rest: seq<Enchant>, id: string,
                               added: set<string>, r: Result<(seq<Enchant>, Rng)>, remaining: int)
    requires forall i :: 0 <= i < |pool| && pool[i].id != id ==> pool[i] in rest
    requires Blocked(host, id, added)
    requires r.Ok? && |r.value.0| < remaining ==> Exhausted(host, rest, added, r.value.0)
  {
    if r.Ok? && |r.value.0| < remaining {
      ExhaustedConflictStep(host, pool, rest, id, added, r.value.0);
    }
  }

  lemma ExhaustedConflictStep(host: Host, pool: seq<Enchant>, rest: seq<Enchant>, id: string,
                              added: set<string>, out: seq<Enchant>)
    requires forall i :: 0 <= i < |pool| && pool[i].id != id ==> pool[i] in rest
    requires Blocked(host, id, added)
    requires Exhausted(host, rest, added, out)
    ensures Exhausted(host, pool, added, out)
  {
    forall i | 0 <= i < |pool|
      ensures pool[i].id in IdSet(out) || Blocked(host, pool[i].id, added + Resolved(host, out))
    {
      if pool[i].id != id {
        var j :| 0 <= j < |rest| && rest[j] == pool[i];
      }
    }
  }

  /** A drawn entry that is appended takes its id with it; what uses up the
      rest after it uses up the whole pool. */
  lemma ExhaustedAfterAppend(host: Host, pool: seq<Enchant>, rest: seq<Enchant>, e: Enchant, c: string,
                             added: set<string>, out: seq<Enchant>, remaining: int)
    requires host.enchantmentOf(e.id) == Some(c)
    requires forall i :: 0 <= i < |pool| && pool[i].id != e.id ==> pool[i] in rest
    requires |out| < remaining - 1 ==> Exhausted(host, rest, added + {c}, out)
    ensures |[e] + out| < remaining ==> Exhausted(host, pool, added, [e] + out)
  {
    if |[e] + out| < remaining {
      ExhaustedAppendStep(host, pool, rest, e, c, added, out);
    }
  }

  lemma ExhaustedAppendStep(host: Host, pool: seq<Enchant>, rest: seq<Enchant>, e: Enchant, c: string,
                            added: set<string>, out: seq<Enchant>)
    requires host.enchantmentOf(e.id) == Some(c)
    requires forall i :: 0 <= i < |pool| && pool[i].id != e.id ==> pool[i] in rest
    requires Exhausted(host, rest, added + {c}, out)
    ensures Exhausted(host, pool, added, [e] + out)
  {
    assert ([e] + out)[1..] == out;
    assert Resolved(host, [e] + out) == {c} + Resolved(host, out);
    assert IdSet([e] + out) == {e.id} + IdSet(out) by {
      forall x | x in IdSet(out)
        ensures x in IdSet([e] + out)
      {
        var k :| 0 <= k < |out| && out[k].id == x;
        assert ([e] + out)[k + 1] == out[k];
      }
      assert ([e] + out)[0] == e;
    }
    forall i | 0 <= i < |pool|
      ensures pool[i].id in IdSet([e] + out) || Blocked(host, pool[i].id, added + Resolved(host, [e] + out))
    {
      if pool[i].id != e.id {
        var j :| 0 <= j < |rest| && rest[j] == pool[i];
        assert added + {c} + Resolved(host, out) == added + Resolved(host, [e] + out);
      }
    }
  }

  predicate AllKnown(host: Host, pool: seq<Enchant>)
  {
    forall i :: 0 <= i < |pool| ==> host.enchantmentOf(pool[i].id).Some?
  }

  /** The draw loop of the pool editor, `remaining` being how many more may
      be appended. Each round picks an entry; an id the server does not know
      throws; a conflict with an enchantment already added discards every
      entry with that id; otherwise the entry is appended and its id
      discarded. */
  function PoolDraws(host: Host, pool: seq<Enchant>, added: set<string>, remaining: int, rng: Rng)
    : (r: Result<(seq<Enchant>, Rng)>)
    ensures remaining <= 0 || pool == [] ==> r == Ok(([], rng))
    ensures r.Ok? ==> |r.value.0| <= remaining || r.value.0 == []
    ensures r.Ok? ==> r.value.1.draw == rng.draw && rng.pos <= r.value.1.pos
    ensures r.Ok? ==> forall i :: 0 <= i < |r.value.0| ==> r.value.0[i] in pool
    ensures r.Ok? ==> DistinctIds(r.value.0)
    ensures r.Ok? ==> ConflictFree(host, added, r.value.0)
    ensures r.Err? ==>
              (r.error.UnknownEnchantment?
               && exists i :: 0 <= i < |pool| && pool[i].id == r.error.id && host.enchantmentOf(pool[i].id).None?)
    ensures AllKnown(host, pool) ==> r.Ok?
    decreases |pool|
  {
    if remaining <= 0 || pool == [] then Ok(([], rng))
    else
      var (k, next) := Pick(rng, |pool|);
      var e := pool[k];
      match host.enchantmentOf(e.id)
      case None => Err(UnknownEnchantment(e.id))
      case Some(c) =>
        var rest := RemoveId(pool, e.id);
        assert AllKnown(host, pool) ==> AllKnown(host, rest);
        if exists a :: a in added && host.conflicts(c, a) then
          PoolDraws(host, rest, added, remaining, next)
        else
          var t :- PoolDraws(host, rest, added + {c}, remaining - 1, next);
          assert forall i :: 0 <= i < |t.0| ==> t.0[i].id != e.id;
          assert ([e] + t.0)[1..] == t.0;
          Ok(([e] + t.0, t.1))
  }

  /** The draw loop stops short of `remaining` only when the pool is used
      up: every entry's id was appended, or its enchantment conflicts with
      one added before the loop or by it. */
  lemma {:induction false} PoolDrawsExhaust(host: Host, pool: seq<Enchant>, added: set<string>, remaining: int, rng: Rng)
    ensures var r := PoolDraws(host, pool, added, remaining, rng);
            r.Ok? && |r.value.0| < remaining ==> Exhausted(host, pool, added, r.value.0)
    decreases |pool|
  {
    if remaining > 0 && pool != [] {
      var (k, next) := Pick(rng, |pool|);
      var e := pool[k];
      match host.enchantmentOf(e.id)
      case None =>
      case Some(c) =>
        var rest := RemoveId(pool, e.id);
        if exists a :: a in added && host.conflicts(c, a) {
          assert PoolDraws(host, pool, added, remaining, rng) == PoolDraws(host, rest, added, remaining, next);
          PoolDrawsExhaust(host, rest, added, remaining, next);
          ExhaustedAfterConflict(host, pool, rest, e.id, added, PoolDraws(host, rest, added, remaining, next), remaining);
        } else {
          PoolDrawsExhaust(host, rest, added + {c}, remaining - 1, next);
          var t := PoolDraws(host, rest, added + {c}, remaining - 1, next);
          PoolDrawsAppendUnfold(host, pool, added, remaining, rng, k, next, c);
          if t.Ok? {
            ExhaustedAfterAppend(host, pool, rest, e, c, added, t.value.0, remaining);
          }
        }
    }
  }

  /** One round of the draw loop that appends its pick. */
  lemma PoolDrawsAppendUnfold(host: Host, pool: seq<Enchant>, added: set<string>, remaining: int, rng: Rng,
                              k: nat, next: Rng, c: string)
    requires remaining > 0 && pool != [] && Pick(rng, |pool|) == (k, next)
    requires host.enchantmentOf(pool[k].id) == Some(c)
    requires forall a :: a in added ==> !host.conflicts(c, a)
    ensures PoolDraws(host, pool, added, remaining, rng) ==
            (match PoolDraws(host, RemoveId(pool, pool[k].id), added + {c}, remaining - 1, next)
             case Err(x) => Err(x)
             case Ok(t) => Ok(([pool[k]] + t.0, t.1)))
  {
  }
}

=== FILE: events.dfy ===
/** The listeners that guard and maintain built items (pick-up protection,
    hoppers, anvils, mending) and the two questions other components ask
    about a stack: is it one of ours, and which id does it carry. */
module Events {
  import opened Wrappers
  import opened Nbt
  import opened Items
  import opened Platform
  import opened Randomness
  import opened Editors

  /** The event's stack afterwards and whether the event ends up cancelled. */
  datatype Outcome = Outcome(stack: ItemStack, cancelled: bool)

  /** The key a protected drop keeps its owner's name under. */
  const OWNER: string := "owner"

  /** `onPickUp`: a protected drop may be picked up only by the player named
      in it, and loses the protection when that player takes it. */
  function OnPickUp(stack: ItemStack, cancelled: bool, player: Player): (r: Outcome)
    ensures r.cancelled <==> cancelled || (OWNER in stack.tag && GetString(stack.tag, OWNER) != player.name)
    ensures r.stack.material == stack.material && r.stack.amount == stack.amount
    ensures r.stack.tag == stack.tag || r.stack.tag == stack.tag - {OWNER}
    ensures !r.cancelled ==> OWNER !in r.stack.tag
    ensures r.cancelled ==> r.stack == stack
  {
    if cancelled || OWNER !in stack.tag then Outcome(stack, cancelled)
    else if GetString(stack.tag, OWNER) != player.name then Outcome(stack, true)
    else Outcome(stack.(tag := stack.tag - {OWNER}), false)
  }

  /** `onMove`: a hopper (or any inventory) that collects a drop strips its
      protection and never refuses it. */
  function OnMove(stack: ItemStack, cancelled: bool): (r: Outcome)
    ensures r.cancelled == cancelled
    ensures cancelled ==> r.stack == stack
    ensures !cancelled ==> r.stack == stack.(tag := stack.tag - {OWNER})
  {
    if cancelled || OWNER !in stack.tag then Outcome(stack, cancelled)
    else Outcome(stack.(tag := stack.tag - {OWNER}), false)
  }

  /** A pick-up that goes through leaves nothing to protect: a second pick-up
      by anyone goes through and changes nothing. */
  lemma PickUpIdempotent(stack: ItemStack, first: Player, second: Player)
    requires !OnPickUp(stack, false, first).cancelled
    ensures OnPickUp(OnPickUp(stack, false, first).stack, false, second)
            == OnPickUp(stack, false, first)
  {
  }

  /** After a hopper has collected a drop, every player may pick it up. */
  lemma MoveThenPickUp(stack: ItemStack, player: Player)
    ensures OnPickUp(OnMove(stack, false).stack, false, player) == OnMove(stack, false)
  {
  }

  /** The grabbing editor ties a built drop to the player it was made for:
      that player's pick-up goes through and removes the tie, anybody else's
      is cancelled; without a player placeholder nobody is refused. */
  lemma GrabThenPickUp(host: Host, builder: Player, material: Material, s: State,
                       amount: int, taker: Player)
    ensures var t := ApplyEditor(host, builder, material, Grabbing, s).value.tag;
            var dropped := ItemStack(material, amount, t);
            var r := OnPickUp(dropped, false, taker);
            ("player" in s.ph && s.ph["player"] == taker.name ==> r == Outcome(dropped.(tag := t - {OWNER}), false))
            && ("player" in s.ph && s.ph["player"] != taker.name ==> r == Outcome(dropped, true))
            && ("player" !in s.ph ==> r == Outcome(dropped, false))
  {
  }

  // ---------------------------------------------------------------------
  // Anvil repair

  const INT_MAX: int := 0x7fff_ffff
  const INT_MIN: int := -0x8000_0000

  /** Truncation toward zero, as a Java cast from a floating-point value. */
  function Truncate(x: real): (r: int)
    ensures x >= 0.0 ==> r as real <= x < r as real + 1.0
    ensures x < 0.0 ==> r as real - 1.0 < x <= r as real
  {
    if x >= 0.0 then x.Floor else -((-x).Floor)
  }

  /** A Java `(int)` cast of a finite double: truncated, and clamped to the
      range of `int`. */
  function JavaIntOf(x: real): (r: int)
    ensures INT_MIN <= r <= INT_MAX
    ensures INT_MIN as real <= x < (INT_MAX + 1) as real ==> r == Truncate(x)
  {
    if x >= INT_MAX as real then INT_MAX
    else if x <= INT_MIN as real then INT_MIN
    else Truncate(x)
  }

  function Sign(n: int): int
  {
    if n > 0 then 1 else if n < 0 then -1 else 0
  }

  /** The current durability `onRepairItem` writes:
      `(int) (maxDur * (1 - (double) damage / itemMax))`. For an item type
      with a maximum durability the value is the exact real one, truncated
      and clamped. With a maximum of zero the division follows IEEE 754:
      0/0 is NaN and casts to 0; otherwise the quotient is an infinity whose
      sign the damage gives, `1 - q` the opposite infinity, and the product
      with `maxDur` NaN when `maxDur` is zero and otherwise an infinity that
      casts to the end of the `int` range with the product's sign. */
  function AnvilCurDur(maxDur: int, damage: int, itemMax: nat): (r: int)
    ensures INT_MIN <= r <= INT_MAX
    ensures itemMax == 0 && (damage == 0 || maxDur == 0) ==> r == 0
    ensures itemMax == 0 && damage != 0 && maxDur != 0 ==>
              r == (if Sign(maxDur) != Sign(damage) then INT_MAX else INT_MIN)
  {
    if itemMax > 0 then
      JavaIntOf(maxDur as real * (1.0 - damage as real / itemMax as real))
    else if damage == 0 || maxDur == 0 then 0
    else if -Sign(damage) * Sign(maxDur) > 0 then INT_MAX
    else INT_MIN
  }

  /** For damage within the item type's range, the repaired durability lies
      between zero and the maximum the item was built with. */
  lemma AnvilBounds(maxDur: int, damage: int, itemMax: nat)
    requires itemMax > 0 && 0 <= damage <= itemMax
    requires 0 <= maxDur <= INT_MAX
    ensures 0 <= AnvilCurDur(maxDur, damage, itemMax) <= maxDur
  {
    var f := 1.0 - damage as real / itemMax as real;
    FractionBounds(damage, itemMax);
    ScaledBounds(maxDur, f);
  }

  lemma FractionBounds(damage: int, itemMax: nat)
    requires itemMax > 0 && 0 <= damage <= itemMax
    ensures 0.0 <= 1.0 - damage as real / itemMax as real <= 1.0
  {
    assert damage as real / itemMax as real <= 1.0 by {
      assert damage as real <= itemMax as real;
    }
  }

  lemma ScaledBounds(maxDur: int, f: real)
    requires 0 <= maxDur <= INT_MAX && 0.0 <= f <= 1.0
    ensures 0 <= JavaIntOf(maxDur as real * f) <= maxDur
  {
    var a := maxDur as real;
    NonNegProduct(a, f);
    NonNegProduct(a, 1.0 - f);
    assert a * (1.0 - f) == a - a * f;
    FloorBelow(a * f, maxDur);
  }

  lemma NonNegProduct(x: real, y: real)
    requires 0.0 <= x && 0.0 <= y
    ensures 0.0 <= x * y
  {
  }

  lemma FloorBelow(x: real, m: int)
    requires 0.0 <= x <= m as real
    ensures 0 <= x.Floor <= m
  {
  }

  /** An undamaged item repairs to its full durability. */
  lemma AnvilUndamaged(maxDur: int, itemMax: nat)
    requires itemMax > 0 && 0 <= maxDur <= INT_MAX
    ensures AnvilCurDur(maxDur, 0, itemMax) == maxDur
  {
    assert 0 as real / itemMax as real == 0.0;
    assert maxDur as real * (1.0 - 0.0) == maxDur as real;
  }

  /** An item damaged up to its type's maximum repairs to zero. */
  lemma AnvilBroken(maxDur: int, itemMax: nat)
    requires itemMax > 0 && INT_MIN <= maxDur <= INT_MAX
    ensures AnvilCurDur(maxDur, itemMax, itemMax) == 0
  {
    assert itemMax as real / itemMax as real == 1.0;
    assert maxDur as real * (1.0 - 1.0) == 0.0;
  }

  /** One of our stacks with a maximum durability and damageable meta. */
  predicate Repairable(host: Host, s: ItemStack)
  {
    GetCompound(s.tag, CF).Some? && "max_dur" in GetCompound(s.tag, CF).value && host.hasDamageableMeta(s)
  }

  /** `onRepairItem`: when the anvil's result is one of our items with a
      maximum durability and damageable meta, its `cur_dur` is recomputed
      from the vanilla damage; otherwise the result stays as it is. The
      vanilla damage is the `Damage` value of the tag. */
  function OnRepairItem(host: Host, result: Option<ItemStack>): (r: Option<ItemStack>)
    ensures IsNothing(result) ==> r == result
    ensures !IsNothing(result) && !Repairable(host, result.value) ==> r == result
    ensures !IsNothing(result) && Repairable(host, result.value) ==>
              var s := result.value;
              var cf := GetCompound(s.tag, CF).value;
              r == Some(s.(tag := SetIn(s.tag, CF, "cur_dur",
                                        IntTag(AnvilCurDur(GetInteger(cf, "max_dur"), GetInteger(s.tag, "Damage"),
                                                           host.maxDurability(s.material))))))
  {
    if IsNothing(result) then result
    else
      var s := result.value;
      match GetCompound(s.tag, CF)
      case None => result
      case Some(cf) =>
        if "max_dur" !in cf || !host.hasDamageableMeta(s) then result
        else
          var cur := AnvilCurDur(GetInteger(cf, "max_dur"), GetInteger(s.tag, "Damage"), host.maxDurability(s.material));
          Some(s.(tag := SetIn(s.tag, CF, "cur_dur", IntTag(cur))))
  }

  /** A freshly built item with a custom durability and no vanilla damage
      comes out of the anvil with its current durability at the maximum, and
      nothing else in its tag changed. */
  lemma RepairUndamaged(host: Host, player: Player, material: Material, max: int, s: State, amount: int)
    requires material != AIR && host.maxDurability(material) > 0 && 0 <= max <= INT_MAX
    requires GetInteger(s.tag, "Damage") == 0
    requires host.hasDamageableMeta(ItemStack(material, amount, ApplyEditor(host, player, material, Durability(max), s).value.tag))
    ensures var t := ApplyEditor(host, player, material, Durability(max), s).value.tag;
            OnRepairItem(host, Some(ItemStack(material, amount, t))) == Some(ItemStack(material, amount, t))
  {
    var t := DurabilityTag(host, player, material, max, s);
    AnvilUndamaged(max, host.maxDurability(material));
    var cf := GetCompound(t, CF).value;
    assert cf["cur_dur" := IntTag(max)] == cf;
    assert t[CF := CompoundTag(cf)] == t;
  }

  /** What the durability editor leaves in the tag. */
  lemma DurabilityTag(host: Host, player: Player, material: Material, max: int, s: State) returns (t: Compound)
    ensures t == ApplyEditor(host, player, material, Durability(max), s).value.tag
    ensures GetInteger(t, "Damage") == GetInteger(s.tag, "Damage")
    ensures GetCompound(t, CF).Some?
    ensures var cf := GetCompound(t, CF).value;
            "max_dur" in cf && cf["max_dur"] == IntTag(max) && "cur_dur" in cf && cf["cur_dur"] == IntTag(max)
  {
    t := SetIn(SetIn(s.tag, CF, "max_dur", IntTag(max)), CF, "cur_dur", IntTag(max));
  }

  /** A repaired result keeps its material, amount and every other tag entry,
      and for damage within its type's range its current durability lands
      between zero and its maximum. */
  lemma RepairBounded(host: Host, s: ItemStack)
    requires s.material != AIR && Repairable(host, s)
    requires host.maxDurability(s.material) > 0
    requires 0 <= GetInteger(s.tag, "Damage") <= host.maxDurability(s.material)
    requires 0 <= GetInteger(GetCompound(s.tag, CF).value, "max_dur") <= INT_MAX
    ensures var r := OnRepairItem(host, Some(s)).value;
            var cur := GetCompound(r.tag, CF).value["cur_dur"];
            && r.material == s.material && r.amount == s.amount
            && (forall k :: k in s.tag && k != CF ==> k in r.tag && r.tag[k] == s.tag[k])
            && cur.IntTag? && 0 <= cur.i <= GetInteger(GetCompound(s.tag, CF).value, "max_dur")
  {
    AnvilBounds(GetInteger(GetCompound(s.tag, CF).value, "max_dur"), GetInteger(s.tag, "Damage"),
                host.maxDurability(s.material));
  }

  // ---------------------------------------------------------------------
  // Mending

  /** `onMending`: experience that would mend one of our items is taken over
      by the plugin's own durability, and the vanilla repair is cancelled. */
  function OnMending(host: Host, stack: ItemStack, cancelled: bool, amount: int): (r: Outcome)
    ensures cancelled || GetCompound(stack.tag, CF).None? ==> r == Outcome(stack, cancelled)
    ensures !cancelled && GetCompound(stack.tag, CF).Some? ==>
              r == Outcome(host.increaseDurability(stack, amount), true)
    ensures r.cancelled <==> cancelled || GetCompound(stack.tag, CF).Some?
  {
    if cancelled || GetCompound(stack.tag, CF).None? then Outcome(stack, cancelled)
    else Outcome(host.increaseDurability(stack, amount), true)
  }

  /** Mending is taken over exactly for the stacks that answer an id: the
      listener and the identification question agree on what is ours. */
  lemma MendingTakesOverIdentified(host: Host, stack: ItemStack, amount: int)
    requires stack.material != AIR
    ensures OnMending(host, stack, false, amount).cancelled <==> CustomFishingItemId(Some(stack)).Some?
    ensures !OnMending(host, stack, false, amount).cancelled ==> OnMending(host, stack, false, amount).stack == stack
  {
  }

  // ---------------------------------------------------------------------
  // Identification

  /** `isCustomFishingItem`: nothing is not ours; a stack is ours when its
      plugin compound carries a non-empty id. A plugin key holding something
      other than a compound is dereferenced as null. */
  function IsCustomFishingItem(s: Option<ItemStack>): (r: Result<bool>)
    ensures r.Err? <==> !IsNothing(s) && CF in s.value.tag && !s.value.tag[CF].CompoundTag?
    ensures r.Err? ==> r.error == NotACompound(CF)
    ensures r == Ok(true) <==>
              !IsNothing(s) && GetCompound(s.value.tag, CF).Some? && GetString(GetCompound(s.value.tag, CF).value, "id") != ""
  {
    if IsNothing(s) || CF !in s.value.tag then Ok(false)
    else match GetCompound(s.value.tag, CF)
      case None => Err(NotACompound(CF))
      case Some(cf) => Ok(GetString(cf, "id") != "")
  }

  /** `getCustomFishingItemID`: the id in the plugin compound (empty when it
      holds none), or None for nothing and for stacks without the compound. */
  function CustomFishingItemId(s: Option<ItemStack>): (r: Option<string>)
    ensures r.Some? <==> !IsNothing(s) && GetCompound(s.value.tag, CF).Some?
    ensures r.Some? ==> r.value == GetString(GetCompound(s.value.tag, CF).value, "id")
  {
    if IsNothing(s) then None
    else match GetCompound(s.value.tag, CF)
      case None => None
      case Some(cf) => Some(GetString(cf, "id"))
  }

  /** The two questions agree: a stack is ours exactly when it carries a
      non-empty id, and one the first question chokes on has no id. */
  lemma IdentityAgree(s: Option<ItemStack>)
    ensures IsCustomFishingItem(s) == Ok(true) <==> CustomFishingItemId(s).Some? && CustomFishingItemId(s).value != ""
    ensures IsCustomFishingItem(s) == Ok(false) <==>
              (CustomFishingItemId(s) == None && !IsCustomFishingItem(s).Err?) || CustomFishingItemId(s) == Some("")
    ensures IsCustomFishingItem(s).Err? ==> CustomFishingItemId(s) == None
  {
  }

  /** The identity editor makes a stack ours: afterwards it is recognised and
      answers the id it was given. */
  lemma TagThenIdentify(host: Host, player: Player, material: Material, kind: string, id: string,
                        s: State, amount: int)
    requires material != AIR && id != ""
    ensures var t := ApplyEditor(host, player, material, Identity(true, kind, id), s).value.tag;
            IsCustomFishingItem(Some(ItemStack(material, amount, t))) == Ok(true)
            && CustomFishingItemId(Some(ItemStack(material, amount, t))) == Some(id)
  {
  }
}

=== FILE: items.dfy ===
/** Item stacks, players and the placeholder map as the item manager sees them. */
module Items {
  import opened Wrappers
  import opened Nbt

  /** A material name, as in Bukkit's `Material` enum. */
  type Material = string

  const AIR: Material := "AIR"

  /** A stack: its material, its amount, and its tag document. */
  datatype ItemStack = ItemStack(material: Material, amount: int, tag: Compound)

  /** `new ItemStack(material)`: one item, no tags. */
  function Fresh(m: Material): ItemStack
  {
    ItemStack(m, 1, map[])
  }

  /** A null reference or an AIR stack: the handlers and resolvers treat both as "nothing". */
  predicate IsNothing(s: Option<ItemStack>)
  {
    s.None? || s.value.material == AIR
  }

  datatype Player = Player(name: string)

  /** The mutable placeholder map threaded through one build. */
  type Placeholders = map<string, string>
}

/** Everything the item manager calls but whose code is not part of this
    model, gathered into one record of functions so that every property
    holds for every behaviour of these collaborators. */
module Platform {
  import opened Wrappers
  import opened Nbt
  import opened Items

  datatype Host = Host(
    /** The names of Bukkit's `Material` constants. */
    materials: set<Material>,
    /** `Material.getMaxDurability()`; zero for items that cannot be damaged. */
    maxDurability: Material -> nat,
    /** `ItemFlag.valueOf(name).ordinal()`, None when `valueOf` throws. */
    itemFlagOrdinal: string -> Option<nat>,
    /** `Enchantment.getByKey(NamespacedKey.fromString(id))`, as a canonical key. */
    enchantmentOf: string -> Option<string>,
    /** `Enchantment.conflictsWith` on canonical keys. */
    conflicts: (string, string) -> bool,
    /** `MarketManager.getFishPrice(base, bonus, size)`. */
    fishPrice: (real, real, real) -> real,
    /** `String.format("%.2f", x)`. */
    format2: real -> string,
    /** `Float.parseFloat` / `Double.parseDouble`; None when they throw. */
    parseNumber: string -> Option<real>,
    /** `PlaceholderManagerImpl.parse(player, text, placeholders)`. */
    expand: (Player, string, Placeholders) -> string,
    /** MiniMessage parsing followed by JSON serialisation of the component. */
    miniToJson: string -> string,
    /** `NBTUtils.setTagsFromBukkitYAML` for a section given as key/value text. */
    applyNbt: (Compound, map<string, string>) -> Compound,
    /** `ItemUtils.updateNBTItemLore`, which rewrites the lore held in the tag. */
    updateLore: Compound -> Compound,
    /** `ItemUtils.increaseDurability(stack, amount, true)`. */
    increaseDurability: (ItemStack, int) -> ItemStack,
    /** Whether the stack's item meta implements `Damageable`. */
    hasDamageableMeta: ItemStack -> bool)

  /** A number parsed from text; a malformed text throws `NumberFormatException`. */
  function ParseNumber(host: Host, text: string): (r: Result<real>)
    ensures r.Ok? <==> host.parseNumber(text).Some?
    ensures r.Err? ==> r.error == NumberFormat(text)
  {
    match host.parseNumber(text)
    case Some(v) => Ok(v)
    case None => Err(NumberFormat(text))
  }

  /** `placeholders.getOrDefault(key, fallback)` parsed as a number. */
  function ParseOr(host: Host, ph: Placeholders, key: string, fallback: string): (r: Result<real>)
    ensures key in ph ==> r == ParseNumber(host, ph[key])
    ensures key !in ph ==> r == ParseNumber(host, fallback)
  {
    ParseNumber(host, if key in ph then ph[key] else fallback)
  }
}

=== FILE: libraries.dfy ===
/** The item-library registry: plugins that can build items from an id and
    recognise their own items, keyed by their identification. */
module Libraries {
  import opened Wrappers
  import opened Nbt
  import opened Items
  import opened Platform

  /** An `ItemLibrary`: `getItemID` answers null (None) for stacks it does not own. */
  datatype Library = Library(
    identification: string,
    itemId: ItemStack -> Option<string>,
    buildItem: (Player, string) -> ItemStack)

  type Registry = map<string, Library>

  /** `registerItemLibrary`: refuses a taken identification, otherwise adds
      exactly that entry. */
  function Register(reg: Registry, lib: Library): (r: (Registry, bool))
    ensures r.1 <==> lib.identification !in reg
    ensures !r.1 ==> r.0 == reg
    ensures r.1 ==> r.0.Keys == reg.Keys + {lib.identification} && r.0[lib.identification] == lib
    ensures forall k :: k in reg ==> k in r.0 && r.0[k] == reg[k]
  {
    if lib.identification in reg then (reg, false)
    else (reg[lib.identification := lib], true)
  }

  /** `unRegisterItemLibrary`: reports whether the name was present; afterwards
      it is absent and every other entry is as before. */
  function Unregister(reg: Registry, id: string): (r: (Registry, bool))
    ensures r.1 <==> id in reg
    ensures r.0.Keys == reg.Keys - {id}
    ensures forall k :: k in r.0 ==> r.0[k] == reg[k]
  {
    (reg - {id}, id in reg)
  }

  /** The registry right after construction: the plugin's own library, then the vanilla one. */
  function Initial(own: Library, vanilla: Library): (r: Registry)
    requires own.identification != vanilla.identification
    ensures r.Keys == {own.identification, vanilla.identification}
    ensures r[own.identification] == own && r[vanilla.identification] == vanilla
  {
    Register(Register(map[], own).0, vanilla).0
  }

  /** Registering a new library and unregistering it again restores the registry. */
  lemma RegisterUnregister(reg: Registry, lib: Library)
    requires lib.identification !in reg
    ensures Unregister(Register(reg, lib).0, lib.identification) == (reg, true)
  {
    assert Register(reg, lib).0 - {lib.identification} == reg;
  }

  /** Unregistering a library and registering it again restores the registry. */
  lemma UnregisterRegister(reg: Registry, id: string)
    requires id in reg && reg[id].identification == id
    ensures Register(Unregister(reg, id).0, reg[id]) == (reg, true)
  {
    assert (reg - {id})[id := reg[id]] == reg;
  }

  // ---------------------------------------------------------------------
  // Reverse resolution: which library claims a stack

  /** The library at position `k` of the detection order is registered and claims `s`. */
  predicate ClaimsAt(reg: Registry, order: seq<string>, s: ItemStack, k: int)
  {
    0 <= k < |order| && order[k] in reg && reg[order[k]].itemId(s).Some?
  }

  /** The first claim at or after `from`, if any. */
  function FirstClaim(reg: Registry, order: seq<string>, s: ItemStack, from: nat): Option<string>
    requires from <= |order|
    decreases |order| - from
  {
    if from == |order| then None
    else if ClaimsAt(reg, order, s, from) then
      Some(reg[order[from]].itemId(s).value)
    else
      FirstClaim(reg, order, s, from + 1)
  }

  /** The search finds nothing exactly when no position from `from` on
      claims the stack, and otherwise answers the first claiming position. */
  lemma {:induction false} FirstClaimSpec(reg: Registry, order: seq<string>, s: ItemStack, from: nat)
    requires from <= |order|
    ensures FirstClaim(reg, order, s, from).None? <==> forall k :: from <= k < |order| ==> !ClaimsAt(reg, order, s, k)
    ensures FirstClaim(reg, order, s, from).Some? ==>
              exists k :: (from <= k < |order| && ClaimsAt(reg, order, s, k)
                           && FirstClaim(reg, order, s, from).value == reg[order[k]].itemId(s).value
                           && forall j :: from <= j < k ==> !ClaimsAt(reg, order, s, j))
    decreases |order| - from
  {
    if from < |order| && !ClaimsAt(reg, order, s, from) {
      FirstClaimSpec(reg, order, s, from + 1);
    }
  }

  /** `getAnyPluginItemID`: "AIR" for nothing, otherwise the id given by the
      first registered library in the detection order that claims the stack,
      and "AIR" again when none does. */
  function AnyPluginItemId(reg: Registry, order: seq<string>, s: Option<ItemStack>): (r: string)
    ensures IsNothing(s) ==> r == AIR
    ensures !IsNothing(s) && (forall k :: 0 <= k < |order| ==> !ClaimsAt(reg, order, s.value, k)) ==> r == AIR
    ensures !IsNothing(s) && (exists k :: 0 <= k < |order| && ClaimsAt(reg, order, s.value, k)) ==>
              exists k :: (0 <= k < |order| && ClaimsAt(reg, order, s.value, k)
                           && r == reg[order[k]].itemId(s.value).value
                           && forall j :: 0 <= j < k ==> !ClaimsAt(reg, order, s.value, j))
  {
    if IsNothing(s) then AIR
    else
      FirstClaimSpec(reg, order, s.value, 0);
      FirstClaim(reg, order, s.value, 0).GetOr(AIR)
  }

  /** The detection order with the unregistered names dropped. */
  function Registered(reg: Registry, order: seq<string>): (r: seq<string>)
    ensures forall x :: x in r <==> x in order && x in reg
  {
    if order == [] then []
    else if order[0] in reg then [order[0]] + Registered(reg, order[1..])
    else Registered(reg, order[1..])
  }

  /** Names in the detection order that are not registered play no part. */
  lemma {:induction false} UnregisteredSkipped(reg: Registry, order: seq<string>, s: ItemStack)
    ensures FirstClaim(reg, order, s, 0) == FirstClaim(reg, Registered(reg, order), s, 0)
    decreases |order|
  {
    if order != [] {
      UnregisteredSkipped(reg, order[1..], s);
      FirstClaimTail(reg, order, s);
      if order[0] in reg {
        var rest := Registered(reg, order[1..]);
        assert Registered(reg, order) == [order[0]] + rest;
        FirstClaimTail(reg, [order[0]] + rest, s);
        assert ([order[0]] + rest)[1..] == rest;
      }
    }
  }

  /** Searching from position 1 is searching the tail. */
  lemma {:induction false} FirstClaimTail(reg: Registry, order: seq<string>, s: ItemStack)
    requires order != []
    ensures !ClaimsAt(reg, order, s, 0) ==>
      FirstClaim(reg, order, s, 0) == FirstClaim(reg, order[1..], s, 0)
    ensures ClaimsAt(reg, order, s, 0) ==>
      FirstClaim(reg, order, s, 0) == Some(reg[order[0]].itemId(s).value)
  {
    if !ClaimsAt(reg, order, s, 0) {
      ShiftedSearch(reg, order, s, 1);
    }
  }

  /** A search from `from` over `order` is a search from `from - 1` over its tail. */
  lemma {:induction false} ShiftedSearch(reg: Registry, order: seq<string>, s: ItemStack, from: nat)
    requires 1 <= from <= |order|
    ensures FirstClaim(reg, order, s, from) == FirstClaim(reg, order[1..], s, from - 1)
    decreases |order| - from
  {
    if from < |order| {
      ShiftedStep(reg, order, s, from);
      if !ClaimsAt(reg, order, s, from) {
        ShiftedSearch(reg, order, s, from + 1);
      }
    }
  }

  /** One step of both searches: they look at the same library, and when it
      does not claim the stack both move on by one position. */
  lemma ShiftedStep(reg: Registry, order: seq<string>, s: ItemStack, from: nat)
    requires 1 <= from < |order|
    ensures ClaimsAt(reg, order, s, from) ==>
              FirstClaim(reg, order, s, from) == FirstClaim(reg, order[1..], s, from - 1)
    ensures !ClaimsAt(reg, order, s, from) ==>
              FirstClaim(reg, order, s, from) == FirstClaim(reg, order, s, from + 1)
              && FirstClaim(reg, order[1..], s, from - 1) == FirstClaim(reg, order[1..], s, from)
  {
    assert order[1..][from - 1] == order[from];
  }

  // ---------------------------------------------------------------------
  // Forward resolution: building a stack from an id

  /** `s.split(":", 2)` on a text containing ':': the part before the first ':' and the rest. */
  function SplitFirstColon(s: string): (r: (string, string))
    requires ':' in s
    ensures ':' !in r.0
    ensures s == r.0 + ":" + r.1
  {
    if s[0] == ':' then ("", s[1..])
    else
      var (a, b) := SplitFirstColon(s[1..]);
      assert s == [s[0]] + s[1..];
      ([s[0]] + a, b)
  }

  /** Splitting a joined pair at its first ':' gives the pair back. */
  lemma {:induction false} SplitJoin(lib: string, rest: string)
    requires ':' !in lib
    ensures SplitFirstColon(lib + ":" + rest) == (lib, rest)
    decreases |lib|
  {
    if lib != [] {
      assert (lib + ":" + rest)[1..] == lib[1..] + ":" + rest;
      SplitJoin(lib[1..], rest);
      assert [lib[0]] + lib[1..] == lib;
    }
  }

  function UpperChar(c: char): char
  {
    if 'a' <= c <= 'z' then (c as int - 32) as char else c
  }

  /** `toUpperCase(Locale.ENGLISH)` restricted to the ASCII letters: each
      lower-case letter becomes its capital in place, every other character
      is kept, and no lower-case ASCII letter is left. */
  function UpperAscii(s: string): (r: string)
    ensures |r| == |s|
    ensures forall i :: 0 <= i < |s| && 'a' <= s[i] <= 'z' ==> r[i] as int == s[i] as int - 32 && 'A' <= r[i] <= 'Z'
    ensures forall i :: 0 <= i < |s| && !('a' <= s[i] <= 'z') ==> r[i] == s[i]
    ensures forall i :: 0 <= i < |r| ==> !('a' <= r[i] <= 'z')
  {
    seq(|s|, i requires 0 <= i < |s| => UpperChar(s[i]))
  }

  /** Upper-casing twice is upper-casing once. */
  lemma UpperIdempotent(s: string)
    ensures UpperAscii(UpperAscii(s)) == UpperAscii(s)
  {
  }

  /** `buildAnyPluginItemByID`. A "library:item" id is split at its first ':'
      and handed to that library; an unknown library is a null dereference.
      A bare id is an upper-cased material name, and COD when no such
      material exists. */
  function BuildById(host: Host, reg: Registry, player: Player, id: string): (r: Result<ItemStack>)
    ensures ':' in id ==>
              exists lib, item :: (':' !in lib && id == lib + ":" + item
                                   && (lib in reg ==> r == Ok(reg[lib].buildItem(player, item)))
                                   && (lib !in reg ==> r == Err(UnknownLibrary(lib))))
    ensures ':' !in id && UpperAscii(id) in host.materials ==> r == Ok(Fresh(UpperAscii(id)))
    ensures ':' !in id && UpperAscii(id) !in host.materials ==> r == Ok(Fresh("COD"))
  {
    if ':' in id then
      var (lib, item) := SplitFirstColon(id);
      if lib in reg then Ok(reg[lib].buildItem(player, item)) else Err(UnknownLibrary(lib))
    else
      var up := UpperAscii(id);
      Ok(Fresh(if up in host.materials then up else "COD"))
  }

  /** The item part of a namespaced id may itself contain ':'; only the first one splits. */
  lemma BuildByIdDispatch(host: Host, reg: Registry, player: Player, lib: string, item: string)
    requires ':' !in lib && lib in reg
    ensures BuildById(host, reg, player, lib + ":" + item) == Ok(reg[lib].buildItem(player, item))
  {
    SplitJoin(lib, item);
  }

  /** `getItemStackAppearance`: the stack for a material id with its display
      data removed, or a structure void when there is no id. */
  function Appearance(host: Host, reg: Registry, player: Player, material: Option<string>): (r: Result<ItemStack>)
    ensures material.None? ==> r == Ok(Fresh("STRUCTURE_VOID"))
    ensures material.Some? ==> (r.Ok? <==> BuildById(host, reg, player, material.value).Ok?)
    ensures r.Ok? && material.Some? ==>
              ("display" !in r.value.tag
               && r.value == BuildById(host, reg, player, material.value).value
                               .(tag := BuildById(host, reg, player, material.value).value.tag - {"display"}))
  {
    match material
    case None => Ok(Fresh("STRUCTURE_VOID"))
    case Some(m) =>
      var s :- BuildById(host, reg, player, m);
      Ok(s.(tag := s.tag - {"display"}))
  }
}

=== FILE: nbt.dfy ===
/** The tag document (NBT) attached to an item stack, and the handful of
    NBT-API accessors the item manager relies on, each with the default the
    host library applies when a key is missing or holds another type. */
module Nbt {
  import opened Wrappers

  /** A name-based UUID (RFC 4122 section 4.3) is kept as the name it is
      derived from; a random one as the draw that produced it. */
  datatype Uuid = NameUuid(name: string) | RandomUuid(draw: real)

  datatype Tag =
    | IntTag(i: int)
    | ShortTag(sh: int)
    | ByteTag(b: int)
    | FloatTag(f: real)
    | DoubleTag(d: real)
    | StringTag(s: string)
    | UuidTag(u: Uuid)
    | CompoundTag(c: map<string, Tag>)
    | CompoundListTag(items: seq<map<string, Tag>>)
    | StringListTag(lines: seq<string>)

  type Compound = map<string, Tag>

  /** The compound this plugin keeps its own data in. */
  const CF: string := "CustomFishing"

  /** `getCompound(key)`: null unless the key holds a compound. */
  function GetCompound(doc: Compound, key: string): (r: Option<Compound>)
    ensures r.Some? <==> key in doc && doc[key].CompoundTag?
    ensures r.Some? ==> r.value == doc[key].c
  {
    if key in doc && doc[key].CompoundTag? then Some(doc[key].c) else None
  }

  /** `getOrCreateCompound(key)` (and `addCompound(key)`, which behaves the
      same way): the existing compound, or a fresh empty one. */
  function GetOrCreateCompound(doc: Compound, key: string): Compound
  {
    GetCompound(doc, key).GetOr(map[])
  }

  /** `getOrCreateCompound(key).setX(field, value)`: writes one field of a
      nested compound and keeps its other fields. */
  function SetIn(doc: Compound, key: string, field: string, value: Tag): (r: Compound)
    ensures r.Keys == doc.Keys + {key}
    ensures GetCompound(r, key) == Some(GetOrCreateCompound(doc, key)[field := value])
    ensures forall k :: k in doc && k != key ==> r[k] == doc[k]
  {
    doc[key := CompoundTag(GetOrCreateCompound(doc, key)[field := value])]
  }

  /** `getString(key)`: the empty string unless the key holds a string. */
  function GetString(c: Compound, key: string): string
  {
    if key in c && c[key].StringTag? then c[key].s else ""
  }

  /** `getInteger(key)`: zero unless the key holds an integral number. */
  function GetInteger(c: Compound, key: string): int
  {
    if key !in c then 0
    else match c[key]
      case IntTag(i) => i
      case ShortTag(s) => s
      case ByteTag(b) => b
      case _ => 0
  }

  /** `getCompoundList(key)` followed by one `addCompound()` per entry. The
      list is written back only when something is added. */
  function AppendCompounds(doc: Compound, key: string, entries: seq<Compound>): (r: Compound)
    ensures entries == [] ==> r == doc
    ensures entries != [] ==>
              (key in r && r[key].CompoundListTag? && r[key].items == ExistingList(doc, key) + entries)
    ensures forall k :: k in doc && k != key ==> k in r && r[k] == doc[k]
    ensures r.Keys <= doc.Keys + {key}
  {
    if entries == [] then doc else doc[key := CompoundListTag(ExistingList(doc, key) + entries)]
  }

  function ExistingList(doc: Compound, key: string): seq<Compound>
  {
    if key in doc && doc[key].CompoundListTag? then doc[key].items else []
  }
}

=== FILE: pipeline.dfy ===
/** An insertion-ordered map from editor names to editors (a `LinkedHashMap`),
    kept as a sequence of named steps. Putting a name that is present
    replaces its editor where it stands; putting a new name appends it. */
module Pipeline {
  import opened Wrappers

  datatype Step<E> = Step(name: string, editor: E)

  function Names<E>(p: seq<Step<E>>): (r: seq<string>)
    ensures |r| == |p|
    ensures forall i :: 0 <= i < |p| ==> r[i] == p[i].name
  {
    seq(|p|, i requires 0 <= i < |p| => p[i].name)
  }

  /** The map invariant: no name occurs twice. */
  predicate UniqueNames<E>(p: seq<Step<E>>)
  {
    forall i, j :: 0 <= i < j < |p| ==> p[i].name != p[j].name
  }

  /** `get(name)`: the editor of the first step with that name. */
  function Get<E>(p: seq<Step<E>>, name: string): (r: Option<E>)
    ensures r.None? <==> name !in Names(p)
  {
    if p == [] then None
    else if p[0].name == name then Some(p[0].editor)
    else Get(p[1..], name)
  }

  /** `put(name, editor)`. */
  function Put<E>(p: seq<Step<E>>, name: string, e: E): (r: seq<Step<E>>)
    requires UniqueNames(p)
    ensures UniqueNames(r)
    ensures name in Names(p) ==> Names(r) == Names(p)
    ensures name !in Names(p) ==> r == p + [Step(name, e)]
    ensures forall i :: 0 <= i < |p| ==> r[i] == (if p[i].name == name then Step(name, e) else p[i])
  {
    if name in Names(p) then
      var r := seq(|p|, i requires 0 <= i < |p| => if p[i].name == name then Step(name, e) else p[i]);
      assert Names(r) == Names(p);
      r
    else
      p + [Step(name, e)]
  }

  /** After a put, the name maps to the new editor and every other name to what it did before. */
  lemma PutGet<E>(p: seq<Step<E>>, name: string, e: E, m: string)
    requires UniqueNames(p)
    ensures Get(Put(p, name, e), name) == Some(e)
    ensures m != name ==> Get(Put(p, name, e), m) == Get(p, m)
  {
    if name in Names(p) {
      GetReplacedSame(p, Put(p, name, e), name, e);
      if m != name {
        GetReplacedOther(p, Put(p, name, e), name, e, m);
      }
    } else {
      GetAppended(p, name, e, m);
    }
  }

  /** `remove(name)`: the steps with other names, in their order. */
  function Remove<E>(p: seq<Step<E>>, name: string): (r: seq<Step<E>>)
    ensures name !in Names(r)
    ensures forall n :: n in Names(r) ==> n in Names(p)
    ensures UniqueNames(p) ==> UniqueNames(r)
  {
    if p == [] then []
    else if p[0].name == name then Remove(p[1..], name)
    else
      var rest := Remove(p[1..], name);
      NamesAppend([p[0]], rest);
      KeepHeadUnique(p, rest);
      [p[0]] + rest
  }

  /** Replacing the entries of one name keeps the lookup of every other name. */
  lemma {:induction false} GetReplacedOther<E>(p: seq<Step<E>>, r: seq<Step<E>>, name: string, e: E, m: string)
    requires |r| == |p|
    requires forall i :: 0 <= i < |p| ==> r[i] == (if p[i].name == name then Step(name, e) else p[i])
    requires m != name
    ensures Get(r, m) == Get(p, m)
  {
    if p != [] && p[0].name != m {
      GetReplacedOther(p[1..], r[1..], name, e, m);
    }
  }

  /** Replacing the entries of a present name makes it map to the new editor. */
  lemma {:induction false} GetReplacedSame<E>(p: seq<Step<E>>, r: seq<Step<E>>, name: string, e: E)
    requires |r| == |p|
    requires forall i :: 0 <= i < |p| ==> r[i] == (if p[i].name == name then Step(name, e) else p[i])
    requires name in Names(p)
    ensures Get(r, name) == Some(e)
  {
    if p[0].name != name {
      assert Names(p) == [p[0].name] + Names(p[1..]);
      GetReplacedSame(p[1..], r[1..], name, e);
    }
  }

  lemma NamesAppend<E>(a: seq<Step<E>>, b: seq<Step<E>>)
    ensures Names(a + b) == Names(a) + Names(b)
  {
  }

  lemma TailUnique<E>(p: seq<Step<E>>)
    requires UniqueNames(p) && p != []
    ensures UniqueNames(p[1..]) && p[0].name !in Names(p[1..])
  {
    forall i | 0 <= i < |p[1..]|
      ensures p[1..][i].name != p[0].name
    {
      assert p[1..][i] == p[i + 1];
    }
  }

  /** Keeping the head of a map without repeated names in front of a
      sub-map of its tail keeps the names unique. */
  lemma KeepHeadUnique<E>(p: seq<Step<E>>, rest: seq<Step<E>>)
    requires p != []
    requires forall n :: n in Names(rest) ==> n in Names(p[1..])
    requires UniqueNames(p[1..]) ==> UniqueNames(rest)
    ensures UniqueNames(p) ==> UniqueNames([p[0]] + rest)
  {
    if UniqueNames(p) {
      TailUnique(p);
      ConsUnique(p[0], rest);
    }
  }

  lemma ConsUnique<E>(x: Step<E>, rest: seq<Step<E>>)
    requires UniqueNames(rest) && x.name !in Names(rest)
    ensures UniqueNames([x] + rest)
  {
    forall i, j | 0 <= i < j < |[x] + rest|
      ensures ([x] + rest)[i].name != ([x] + rest)[j].name
    {
      if i == 0 {
        assert ([x] + rest)[j].name == Names(rest)[j - 1];
      }
    }
  }

  /** Appending a new entry keeps every other lookup. */
  lemma {:induction false} GetAppended<E>(p: seq<Step<E>>, name: string, e: E, m: string)
    requires name !in Names(p)
    ensures Get(p + [Step(name, e)], name) == Some(e)
    ensures m != name ==> Get(p + [Step(name, e)], m) == Get(p, m)
  {
    if p != [] {
      assert (p + [Step(name, e)])[1..] == p[1..] + [Step(name, e)];
      assert Names(p) == [p[0].name] + Names(p[1..]);
      GetAppended(p[1..], name, e, m);
    }
  }

  /** Removing a name forgets it and keeps every other lookup. */
  lemma {:induction false} RemoveGet<E>(p: seq<Step<E>>, name: string, m: string)
    ensures Get(Remove(p, name), name).None?
    ensures m != name ==> Get(Remove(p, name), m) == Get(p, m)
  {
    if p != [] {
      RemoveGet(p[1..], name, m);
      if p[0].name != name {
        assert ([p[0]] + Remove(p[1..], name))[1..] == Remove(p[1..], name);
      }
    }
  }

  /** On a map without repeated names, removing a present name deletes exactly
      its step and keeps the others in order. */
  lemma {:induction false} RemoveDeletesOne<E>(p: seq<Step<E>>, k: nat)
    requires UniqueNames(p) && k < |p|
    ensures Remove(p, p[k].name) == p[..k] + p[k + 1..]
    decreases k
  {
    var name := p[k].name;
    if k == 0 {
      RemoveAbsent(p[1..], name);
      assert p[1..] == p[..0] + p[1..];
    } else {
      RemoveDeletesOne(p[1..], k - 1);
      assert p[1..][k - 1].name == name;
      assert p[..k] + p[k + 1..] == [p[0]] + (p[1..][..k - 1] + p[1..][k..]);
    }
  }

  /** What `remove` leaves: the map itself for an absent name, and the map
      without the one entry of a present name. */
  lemma RemoveShape<E>(p: seq<Step<E>>, name: string)
    ensures name !in Names(p) ==> Remove(p, name) == p
    ensures UniqueNames(p) ==>
              forall k :: 0 <= k < |p| && p[k].name == name ==> Remove(p, name) == p[..k] + p[k + 1..]
  {
    if name !in Names(p) {
      RemoveAbsent(p, name);
    }
    if UniqueNames(p) {
      forall k | 0 <= k < |p| && p[k].name == name
        ensures Remove(p, name) == p[..k] + p[k + 1..]
      {
        RemoveDeletesOne(p, k);
      }
    }
  }

  /** Removing an absent name changes nothing. */
  lemma {:induction false} RemoveAbsent<E>(p: seq<Step<E>>, name: string)
    requires name !in Names(p)
    ensures Remove(p, name) == p
  {
    if p != [] {
      assert Names(p)[0] == p[0].name != name;
      assert Names(p[1..]) == Names(p)[1..];
      RemoveAbsent(p[1..], name);
      assert Remove(p, name) == [p[0]] + Remove(p[1..], name);
      assert [p[0]] + p[1..] == p;
    }
  }

  /** Putting a name twice is putting its last editor once, at the position of the first put. */
  lemma PutPut<E>(p: seq<Step<E>>, name: string, e1: E, e2: E)
    requires UniqueNames(p)
    ensures Put(Put(p, name, e1), name, e2) == Put(p, name, e2)
  {
    var once := Put(p, name, e2);
    var twice := Put(Put(p, name, e1), name, e2);
    if name !in Names(p) {
      assert Names(Put(p, name, e1))[|p|] == name;
    }
    assert |twice| == |once|;
    forall i | 0 <= i < |once|
      ensures twice[i] == once[i]
    {
      if i < |p| && p[i].name == name {
        assert Names(twice)[i] == name;
      }
    }
  }

  /** Removing a name and putting it again moves it to the end. */
  lemma RemovePut<E>(p: seq<Step<E>>, name: string, e: E)
    requires UniqueNames(p)
    ensures Put(Remove(p, name), name, e) == Remove(p, name) + [Step(name, e)]
  {
  }

  // ---------------------------------------------------------------------
  // Conditional registration, the shape of every builder method

  /** A builder method either declines (None) or puts its editor under its name. */
  function Offer<E>(p: seq<Step<E>>, name: string, e: Option<E>): seq<Step<E>>
    requires UniqueNames(p)
    ensures UniqueNames(Offer(p, name, e))
  {
    match e
    case None => p
    case Some(x) => Put(p, name, x)
  }

  /** A run of builder-method calls. */
  function OfferAll<E>(p: seq<Step<E>>, reqs: seq<(string, Option<E>)>): (r: seq<Step<E>>)
    requires UniqueNames(p)
    ensures UniqueNames(r)
    decreases |reqs|
  {
    if reqs == [] then p else OfferAll(Offer(p, reqs[0].0, reqs[0].1), reqs[1..])
  }

  /** The steps a run of calls contributes when every name is new. */
  function Accepted<E>(reqs: seq<(string, Option<E>)>): seq<Step<E>>
  {
    if reqs == [] then []
    else (if reqs[0].1.Some? then [Step(reqs[0].0, reqs[0].1.value)] else []) + Accepted(reqs[1..])
  }

  predicate DistinctRequests<E>(reqs: seq<(string, Option<E>)>)
  {
    forall i, j :: 0 <= i < j < |reqs| ==> reqs[i].0 != reqs[j].0
  }

  /** Calls under distinct new names append their accepted editors in call order. */
  lemma {:induction false} OfferAllFresh<E>(p: seq<Step<E>>, reqs: seq<(string, Option<E>)>)
    requires UniqueNames(p) && DistinctRequests(reqs)
    requires forall i :: 0 <= i < |reqs| ==> reqs[i].0 !in Names(p)
    ensures OfferAll(p, reqs) == p + Accepted(reqs)
    decreases |reqs|
  {
    if reqs != [] {
      var q := Offer(p, reqs[0].0, reqs[0].1);
      FreshStep(p, reqs);
      OfferAllFresh(q, reqs[1..]);
      Associative(p, Accepted(reqs[..1]), Accepted(reqs[1..]));
    }
  }

  /** The first call of a fresh run appends its editor and leaves the rest of the run fresh. */
  lemma FreshStep<E>(p: seq<Step<E>>, reqs: seq<(string, Option<E>)>)
    requires UniqueNames(p) && DistinctRequests(reqs) && reqs != []
    requires forall i :: 0 <= i < |reqs| ==> reqs[i].0 !in Names(p)
    ensures Offer(p, reqs[0].0, reqs[0].1) == p + Accepted(reqs[..1])
    ensures Accepted(reqs) == Accepted(reqs[..1]) + Accepted(reqs[1..])
    ensures DistinctRequests(reqs[1..])
    ensures forall i :: 0 <= i < |reqs[1..]| ==> reqs[1..][i].0 !in Names(Offer(p, reqs[0].0, reqs[0].1))
  {
    var n, x := reqs[0].0, reqs[0].1;
    assert reqs[..1] == [(n, x)];
    assert [(n, x)][1..] == [];
    OfferNew(p, n, x);
    AcceptedHead(reqs);
    TailRequests(reqs);
    RestFresh(p, Offer(p, n, x), reqs);
  }

  lemma AcceptedHead<E>(reqs: seq<(string, Option<E>)>)
    requires reqs != []
    ensures Accepted(reqs) == Accepted(reqs[..1]) + Accepted(reqs[1..])
  {
    assert reqs == reqs[..1] + reqs[1..];
    AcceptedConcat(reqs[..1], reqs[1..]);
  }

  /** Names new to `p` and different from the first call's stay new after it. */
  lemma RestFresh<E>(p: seq<Step<E>>, q: seq<Step<E>>, reqs: seq<(string, Option<E>)>)
    requires reqs != []
    requires forall i :: 0 <= i < |reqs| ==> reqs[i].0 !in Names(p)
    requires forall i :: 0 <= i < |reqs[1..]| ==> reqs[1..][i].0 != reqs[0].0
    requires forall m :: m in Names(q) ==> m in Names(p) || m == reqs[0].0
    ensures forall i :: 0 <= i < |reqs[1..]| ==> reqs[1..][i].0 !in Names(q)
  {
    forall i | 0 <= i < |reqs[1..]|
      ensures reqs[1..][i].0 !in Names(q)
    {
      assert reqs[1..][i] == reqs[i + 1];
    }
  }

  lemma Associative<T>(a: seq<T>, b: seq<T>, c: seq<T>)
    ensures (a + b) + c == a + (b + c)
  {
  }

  /** One call under a new name appends its editor, if any. */
  lemma OfferNew<E>(p: seq<Step<E>>, n: string, x: Option<E>)
    requires UniqueNames(p) && n !in Names(p)
    ensures Offer(p, n, x) == p + Accepted([(n, x)])
    ensures forall m :: m in Names(Offer(p, n, x)) ==> m in Names(p) || m == n
  {
    assert [(n, x)][1..] == [];
    NamesAppend(p, Accepted([(n, x)]));
  }

  /** The calls after the first are distinct and differ from the first. */
  lemma TailRequests<E>(reqs: seq<(string, Option<E>)>)
    requires DistinctRequests(reqs) && reqs != []
    ensures DistinctRequests(reqs[1..])
    ensures forall i :: 0 <= i < |reqs[1..]| ==> reqs[1..][i].0 != reqs[0].0
  {
    forall i, j | 0 <= i < j < |reqs[1..]|
      ensures reqs[1..][i].0 != reqs[1..][j].0
    {
      assert reqs[1..][i] == reqs[i + 1] && reqs[1..][j] == reqs[j + 1];
    }
  }

  /** A run of calls can be split anywhere. */
  lemma {:induction false} OfferAllConcat<E>(p: seq<Step<E>>, a: seq<(string, Option<E>)>, b: seq<(string, Option<E>)>)
    requires UniqueNames(p)
    ensures OfferAll(p, a + b) == OfferAll(OfferAll(p, a), b)
    decreases |a|
  {
    if a == [] {
      assert a + b == b;
    } else {
      assert (a + b)[0] == a[0];
      assert (a + b)[1..] == a[1..] + b;
      OfferAllConcat(Offer(p, a[0].0, a[0].1), a[1..], b);
    }
  }

  /** The later of two calls under one name wins. */
  function Later<E>(x: Option<E>, y: Option<E>): Option<E>
  {
    if y.Some? then y else x
  }

  /** Two consecutive calls under one name act as one call carrying the later editor. */
  lemma OfferTwice<E>(p: seq<Step<E>>, name: string, x: Option<E>, y: Option<E>)
    requires UniqueNames(p)
    ensures OfferAll(p, [(name, x), (name, y)]) == Offer(p, name, Later(x, y))
  {
    var two := [(name, x), (name, y)];
    assert two[1..] == [(name, y)];
    var q := Offer(p, name, x);
    assert OfferAll(q, [(name, y)]) == Offer(q, name, y) by {
      assert [(name, y)][1..] == [];
    }
    if x.Some? && y.Some? {
      PutPut(p, name, x.value, y.value);
    }
  }

  /** A run of one call is that call. */
  lemma OfferAllOne<E>(p: seq<Step<E>>, n: string, x: Option<E>)
    requires UniqueNames(p)
    ensures OfferAll(p, [(n, x)]) == Offer(p, n, x)
  {
    assert [(n, x)][1..] == [];
  }

  /** Two consecutive calls under one name inside a longer run act as one
      call carrying the later editor. */
  lemma MergeTwice<E>(p: seq<Step<E>>, pre: seq<(string, Option<E>)>, n: string, x: Option<E>, y: Option<E>,
                      post: seq<(string, Option<E>)>)
    requires UniqueNames(p)
    ensures OfferAll(p, pre + [(n, x), (n, y)] + post) == OfferAll(p, pre + [(n, Later(x, y))] + post)
  {
    var q := OfferAll(p, pre);
    OfferAllConcat(p, pre + [(n, x), (n, y)], post);
    OfferAllConcat(p, pre, [(n, x), (n, y)]);
    OfferTwice(q, n, x, y);
    OfferAllConcat(p, pre + [(n, Later(x, y))], post);
    OfferAllConcat(p, pre, [(n, Later(x, y))]);
    OfferAllOne(q, n, Later(x, y));
  }

  /** The accepted steps of two runs are those of each, in order. */
  lemma {:induction false} AcceptedConcat<E>(a: seq<(string, Option<E>)>, b: seq<(string, Option<E>)>)
    ensures Accepted(a + b) == Accepted(a) + Accepted(b)
    decreases |a|
  {
    if a == [] {
      assert a + b == b;
    } else {
      var h := if a[0].1.Some? then [Step(a[0].0, a[0].1.value)] else [];
      assert (a + b)[0] == a[0];
      assert (a + b)[1..] == a[1..] + b;
      assert Accepted(a + b) == h + Accepted(a[1..] + b);
      AcceptedConcat(a[1..], b);
      assert Accepted(a) == h + Accepted(a[1..]);
    }
  }

  /** A name no call uses gets no step. */
  lemma {:induction false} UnrequestedAbsent<E>(reqs: seq<(string, Option<E>)>, m: string)
    requires forall j :: 0 <= j < |reqs| ==> reqs[j].0 != m
    ensures m !in Names(Accepted(reqs))
    decreases |reqs|
  {
    if reqs != [] {
      var head: seq<Step<E>> := if reqs[0].1.Some? then [Step(reqs[0].0, reqs[0].1.value)] else [];
      assert forall j :: 0 <= j < |reqs[1..]| ==> reqs[1..][j] == reqs[j + 1];
      UnrequestedAbsent(reqs[1..], m);
      NamesAppend(head, Accepted(reqs[1..]));
    }
  }

  /** Looking past a step with another name. */
  lemma GetSkip<E>(head: seq<Step<E>>, rest: seq<Step<E>>, m: string)
    requires |head| <= 1 && (head != [] ==> head[0].name != m)
    ensures Get(head + rest, m) == Get(rest, m)
  {
    if head != [] {
      assert (head + rest)[1..] == rest;
    } else {
      assert head + rest == rest;
    }
  }

  /** Under distinct names, each call's editor is what the accepted steps
      hold under its name: absent when the call declined. */
  lemma {:induction false} GetAccepted<E>(reqs: seq<(string, Option<E>)>, i: nat)
    requires DistinctRequests(reqs) && i < |reqs|
    ensures Get(Accepted(reqs), reqs[i].0) == reqs[i].1
    decreases i
  {
    var n := reqs[0].0;
    var head: seq<Step<E>> := if reqs[0].1.Some? then [Step(n, reqs[0].1.value)] else [];
    assert Accepted(reqs) == head + Accepted(reqs[1..]);
    TailRequests(reqs);
    if i == 0 {
      if reqs[0].1.Some? {
        assert Accepted(reqs)[0] == Step(n, reqs[0].1.value);
      } else {
        UnrequestedAbsent(reqs[1..], n);
        assert head + Accepted(reqs[1..]) == Accepted(reqs[1..]);
      }
    } else {
      assert reqs[1..][i - 1] == reqs[i];
      GetAccepted(reqs[1..], i - 1);
      GetSkip(head, Accepted(reqs[1..]), reqs[i].0);
    }
  }
}

=== FILE: placeholders.dfy ===
/** The two placeholder detectors of the PlaceholderAPI integration:
    `detectBasicPlaceholders` finds `%name%` tokens with the pattern `%([^%]*)%`,
    `detectBetterPlaceholders` finds `{name}` tokens with the lazy pattern
    `\{(.+?)\}`. Both collect every match that `java.util.regex.Matcher.find`
    reports, left to right, each search resuming where the previous match ended.

    The regexes are written here as explicit character scanners and proved
    against a declarative description of what the `find` loop reports. */
module PlaceholderScan {
  import opened Wrappers

  /** A match occupying `text[start..end]`. */
  datatype Span = Span(start: nat, end: nat)

  // ---------------------------------------------------------------------------
  // What a `while (matcher.find())` loop reports, for any pattern
  // ---------------------------------------------------------------------------

  /** `m(s, e)` holds when the pattern, tried at start `s`, reports `text[s..e]`
      (the end the engine settles on: the only one, or the lazy least one). */
  type MatchAt = (nat, nat) -> bool

  ghost predicate NoMatchIn(m: MatchAt, lo: nat, hi: nat)
  {
    forall s, e :: lo <= s < hi ==> !m(s, e)
  }

  ghost predicate NoMatchFrom(m: MatchAt, lo: nat)
  {
    forall s, e :: lo <= s ==> !m(s, e)
  }

  /** The engine reports at most one match per start. */
  ghost predicate OneEndPerStart(m: MatchAt)
  {
    forall s, e1, e2 :: m(s, e1) && m(s, e2) ==> e1 == e2
  }

  /** Where the k-th search starts: the caller's offset for the first one, the
      end of the previous match afterwards. */
  function Resume(from: nat, ms: seq<Span>, k: nat): nat
    requires k <= |ms|
  {
    if k == 0 then from else ms[k - 1].end
  }

  /** The reports of the `find` loop started at `from`: each search reports the
      match with the least start at or after its resume point, and the loop
      stops when no match starts at or after the last resume point. */
  ghost predicate FindSpec(m: MatchAt, from: nat, ms: seq<Span>)
  {
    && (forall k :: 0 <= k < |ms| ==> m(ms[k].start, ms[k].end))
    && (forall k {:trigger Resume(from, ms, k)} :: 0 <= k < |ms| ==>
          Resume(from, ms, k) <= ms[k].start && NoMatchIn(m, Resume(from, ms, k), ms[k].start))
    && NoMatchFrom(m, Resume(from, ms, |ms|))
  }

  /** Dropping the first report leaves the reports of the search resumed after it. */
  lemma FindSpecTail(m: MatchAt, from: nat, ms: seq<Span>)
    requires FindSpec(m, from, ms) && |ms| > 0
    ensures FindSpec(m, ms[0].end, ms[1..])
  {
    var rest, e := ms[1..], ms[0].end;
    forall k | 0 <= k < |rest|
      ensures m(rest[k].start, rest[k].end)
      ensures Resume(e, rest, k) <= rest[k].start && NoMatchIn(m, Resume(e, rest, k), rest[k].start)
    {
      assert rest[k] == ms[k + 1];
      assert Resume(e, rest, k) == Resume(from, ms, k + 1);
    }
    assert Resume(e, rest, |rest|) == Resume(from, ms, |ms|);
  }

  /** Two report sequences meeting the description begin alike. */
  lemma FindSpecHead(m: MatchAt, from: nat, a: seq<Span>, b: seq<Span>)
    requires OneEndPerStart(m)
    requires FindSpec(m, from, a) && FindSpec(m, from, b) && |a| > 0
    ensures |b| > 0 && a[0] == b[0]
  {
    assert m(a[0].start, a[0].end);
    assert Resume(from, a, 0) == from;
    if |b| == 0 {
      assert false;
    }
    assert m(b[0].start, b[0].end);
    assert Resume(from, b, 0) == from;
    if a[0].start < b[0].start {
      assert false;
    } else if b[0].start < a[0].start {
      assert false;
    }
  }

  /** The description determines the reports completely. */
  lemma {:induction false} FindSpecUnique(m: MatchAt, from: nat, a: seq<Span>, b: seq<Span>)
    requires OneEndPerStart(m)
    requires FindSpec(m, from, a) && FindSpec(m, from, b)
    ensures a == b
    decreases |a|
  {
    if |a| > 0 {
      FindSpecHead(m, from, a, b);
      FindSpecTail(m, from, a);
      FindSpecTail(m, from, b);
      var a', b' := a[1..], b[1..];
      FindSpecUnique(m, a[0].end, a', b');
      calc {
        a;
        [a[0]] + a';
        [b[0]] + b';
        b;
      }
    } else if |b| > 0 {
      FindSpecHead(m, from, b, a);
    }
  }

  /** Prepending a report that the first search makes. */
  lemma FindSpecCons(m: MatchAt, from: nat, sp: Span, rest: seq<Span>)
    requires from <= sp.start && m(sp.start, sp.end) && NoMatchIn(m, from, sp.start)
    requires FindSpec(m, sp.end, rest)
    ensures FindSpec(m, from, [sp] + rest)
  {
    var ms := [sp] + rest;
    forall k | 0 <= k < |ms|
      ensures m(ms[k].start, ms[k].end)
      ensures Resume(from, ms, k) <= ms[k].start && NoMatchIn(m, Resume(from, ms, k), ms[k].start)
    {
      if k == 0 {
        assert ms[0] == sp && Resume(from, ms, 0) == from;
      } else {
        assert ms[k] == rest[k - 1];
        assert Resume(from, ms, k) == Resume(sp.end, rest, k - 1);
      }
    }
    assert Resume(from, ms, |ms|) == Resume(sp.end, rest, |rest|);
  }

  // ---------------------------------------------------------------------------
  // Character helpers
  // ---------------------------------------------------------------------------

  /** Number of occurrences of `c` in `t[from..]`. */
  function CountFrom(t: string, c: char, from: nat): nat
    requires from <= |t|
    decreases |t| - from
  {
    if from == |t| then 0 else (if t[from] == c then 1 else 0) + CountFrom(t, c, from + 1)
  }

  /** The first index at or after `from` that holds `c`, or `|t|` when there is none. */
  function NextIndex(t: string, c: char, from: nat): (i: nat)
    requires from <= |t|
    ensures from <= i <= |t|
    ensures i < |t| ==> t[i] == c
    ensures forall k :: from <= k < i ==> t[k] != c
    decreases |t| - from
  {
    if from == |t| || t[from] == c then from else NextIndex(t, c, from + 1)
  }

  /** Skipping characters other than `c` does not change the count of `c`. */
  lemma {:induction false} CountSkips(t: string, c: char, from: nat)
    requires from <= |t|
    ensures CountFrom(t, c, from) == CountFrom(t, c, NextIndex(t, c, from))
    decreases |t| - from
  {
    if from < |t| && t[from] != c {
      CountSkips(t, c, from + 1);
    }
  }

  /** The characters Java's `.` refuses when DOTALL is off. */
  predicate IsLineTerminator(c: char)
  {
    c == '\n' || c == '\r' || c == '\U{85}' || c == '\U{2028}' || c == '\U{2029}'
  }

  predicate NoTerminatorIn(t: string, lo: nat, hi: nat)
    requires lo <= hi <= |t|
  {
    forall x :: lo <= x < hi ==> !IsLineTerminator(t[x])
  }

  function Texts(t: string, ms: seq<Span>): (r: seq<string>)
    requires forall k :: 0 <= k < |ms| ==> ms[k].start <= ms[k].end <= |t|
    ensures |r| == |ms|
    ensures forall k :: 0 <= k < |ms| ==> r[k] == t[ms[k].start..ms[k].end]
  {
    seq(|ms|, k requires 0 <= k < |ms| => t[ms[k].start..ms[k].end])
  }

  // ---------------------------------------------------------------------------
  // The basic pattern  %([^%]*)%
  // ---------------------------------------------------------------------------

  /** `text[s..e]` is a match of `%([^%]*)%` at `s`. Since `[^%]` stops at the
      next '%', there is at most one such `e` for each `s`. */
  predicate IsBasicMatch(t: string, s: nat, e: nat)
  {
    s + 2 <= e <= |t| && t[s] == '%' && t[e - 1] == '%'
    && forall k :: s < k < e - 1 ==> t[k] != '%'
  }

  ghost function BasicAt(t: string): MatchAt
  {
    (s: nat, e: nat) => IsBasicMatch(t, s, e)
  }

  lemma BasicOneEndPerStart(t: string)
    ensures OneEndPerStart(BasicAt(t))
  {
  }

  /** One `Matcher.find` of the basic pattern from `from`: the first '%' at or
      after `from` opens, the next '%' closes. */
  function FindBasic(t: string, from: nat): (r: Option<Span>)
    requires from <= |t|
    ensures r.Some? ==> from <= r.value.start && IsBasicMatch(t, r.value.start, r.value.end)
    ensures r.Some? ==> NoMatchIn(BasicAt(t), from, r.value.start)
    ensures r.None? ==> NoMatchFrom(BasicAt(t), from)
  {
    var i := NextIndex(t, '%', from);
    if i == |t| then None
    else
      var j := NextIndex(t, '%', i + 1);
      if j == |t| then None else Some(Span(i, j + 1))
  }

  /** The spans the `find` loop reports from `from` on, in order. */
  function ScanBasic(t: string, from: nat): (ms: seq<Span>)
    requires from <= |t|
    ensures forall k :: 0 <= k < |ms| ==> from <= ms[k].start && IsBasicMatch(t, ms[k].start, ms[k].end)
    ensures forall k :: 0 < k < |ms| ==> ms[k - 1].end <= ms[k].start
    decreases |t| - from
  {
    match FindBasic(t, from)
    case None => []
    case Some(sp) => [sp] + ScanBasic(t, sp.end)
  }

  /** The scanner reports exactly what the declarative description admits. */
  lemma {:induction false} ScanBasicMeetsSpec(t: string, from: nat)
    requires from <= |t|
    ensures FindSpec(BasicAt(t), from, ScanBasic(t, from))
    decreases |t| - from
  {
    match FindBasic(t, from)
    case None =>
      assert Resume(from, [], 0) == from;
    case Some(sp) =>
      ScanBasicMeetsSpec(t, sp.end);
      FindSpecCons(BasicAt(t), from, sp, ScanBasic(t, sp.end));
  }

  /** Each closed pair of '%' consumes two of them, so the scanner reports
      half the '%' characters, rounded down. */
  lemma {:induction false} ScanBasicCount(t: string, from: nat)
    requires from <= |t|
    ensures |ScanBasic(t, from)| == CountFrom(t, '%', from) / 2
    decreases |t| - from
  {
    match FindBasic(t, from)
    case None =>
      NoPairCount(t, from);
    case Some(sp) =>
      PairCount(t, from);
      ScanBasicCount(t, sp.end);
  }

  /** When no pair is left, at most one '%' is. */
  lemma NoPairCount(t: string, from: nat)
    requires from <= |t| && FindBasic(t, from).None?
    ensures CountFrom(t, '%', from) <= 1
  {
    var i := NextIndex(t, '%', from);
    CountSkips(t, '%', from);
    if i < |t| {
      CountSkips(t, '%', i + 1);
    }
  }

  /** A reported pair accounts for exactly two '%' characters. */
  lemma PairCount(t: string, from: nat)
    requires from <= |t| && FindBasic(t, from).Some?
    ensures CountFrom(t, '%', from) == 2 + CountFrom(t, '%', FindBasic(t, from).value.end)
  {
    var i := NextIndex(t, '%', from);
    CountSkips(t, '%', from);
    CountSkips(t, '%', i + 1);
  }

  /** A `%name%` token: both ends '%', no '%' inside. */
  predicate IsBasicToken(s: string)
  {
    |s| >= 2 && s[0] == '%' && s[|s| - 1] == '%' && forall k :: 0 < k < |s| - 1 ==> s[k] != '%'
  }

  /** `detectBasicPlaceholders`: null text, or text without '%', gives the
      empty list; otherwise the text of every match the `find` loop reports. */
  function DetectBasicPlaceholders(text: Option<string>): (r: seq<string>)
    ensures text.None? || '%' !in text.value ==> r == []
    ensures forall k :: 0 <= k < |r| ==> IsBasicToken(r[k])
    ensures text.Some? ==> |r| == CountFrom(text.value, '%', 0) / 2
  {
    if text.None? then []
    else if '%' !in text.value then
      var t := text.value;
      CountSkips(t, '%', 0);
      []
    else
      var t := text.value;
      var ms := ScanBasic(t, 0);
      ScanBasicCount(t, 0);
      BasicTexts(t, ms);
      Texts(t, ms)
  }

  /** The text of a basic match is a basic token. */
  lemma BasicTexts(t: string, ms: seq<Span>)
    requires forall k :: 0 <= k < |ms| ==> ms[k].start <= ms[k].end <= |t|
    requires forall k :: 0 <= k < |ms| ==> IsBasicMatch(t, ms[k].start, ms[k].end)
    ensures forall k :: 0 <= k < |ms| ==> IsBasicToken(Texts(t, ms)[k])
  {
    forall k | 0 <= k < |ms|
      ensures IsBasicToken(Texts(t, ms)[k])
    {
      var tok := t[ms[k].start..ms[k].end];
      assert Texts(t, ms)[k] == tok;
      forall x | 0 < x < |tok| - 1
        ensures tok[x] != '%'
      {
        assert tok[x] == t[ms[k].start + x];
      }
    }
  }

  /** The detector returns the texts of the one report sequence the
      declarative description admits, whatever sequence of spans meets it. */
  lemma DetectBasicMatchesSpec(t: string, ms: seq<Span>)
    requires FindSpec(BasicAt(t), 0, ms)
    ensures forall k :: 0 <= k < |ms| ==> ms[k].start < ms[k].end <= |t|
    ensures DetectBasicPlaceholders(Some(t)) == Texts(t, ms)
  {
    assert forall k :: 0 <= k < |ms| ==> BasicAt(t)(ms[k].start, ms[k].end);
    ScanBasicMeetsSpec(t, 0);
    BasicOneEndPerStart(t);
    FindSpecUnique(BasicAt(t), 0, ms, ScanBasic(t, 0));
    if '%' !in t {
      assert NextIndex(t, '%', 0) == |t|;
    }
  }

  // ---------------------------------------------------------------------------
  // The lazy pattern  \{(.+?)\}
  // ---------------------------------------------------------------------------

  /** `text[s..e]` matches `\{.+\}`: a '{', at least one character other than a
      line terminator, a '}'. */
  predicate IsBraceMatch(t: string, s: nat, e: nat)
  {
    s + 3 <= e <= |t| && t[s] == '{' && t[e - 1] == '}' && NoTerminatorIn(t, s + 1, e - 1)
  }

  /** The lazy `.+?` settles on the least end. */
  ghost predicate IsLazyBraceMatch(t: string, s: nat, e: nat)
  {
    IsBraceMatch(t, s, e) && forall e': nat :: e' < e ==> !IsBraceMatch(t, s, e')
  }

  ghost function BetterAt(t: string): MatchAt
  {
    (s: nat, e: nat) => IsLazyBraceMatch(t, s, e)
  }

  lemma BetterOneEndPerStart(t: string)
    ensures OneEndPerStart(BetterAt(t))
  {
  }

  /** The first '}' at or after `k`, provided no line terminator comes before it. */
  function CloseFrom(t: string, k: nat): (j: Option<nat>)
    requires k <= |t|
    ensures j.Some? ==> k <= j.value < |t| && t[j.value] == '}' && NoTerminatorIn(t, k, j.value)
    ensures j.Some? ==> forall m :: k <= m < j.value ==> t[m] != '}'
    ensures j.None? ==> forall m :: k <= m < |t| && t[m] == '}' ==> !NoTerminatorIn(t, k, m)
    decreases |t| - k
  {
    if k == |t| then None
    else if t[k] == '}' then Some(k)
    else if IsLineTerminator(t[k]) then None
    else CloseFrom(t, k + 1)
  }

  /** The lazy pattern tried at start `s`: '{', one character that is not a line
      terminator (it may be '}'), then the first eligible '}'. */
  function LazyBraceAt(t: string, s: nat): (r: Option<nat>)
    requires s <= |t|
    ensures r.Some? ==> IsLazyBraceMatch(t, s, r.value)
    ensures r.None? ==> forall e: nat :: !IsBraceMatch(t, s, e)
  {
    if s + 1 < |t| && t[s] == '{' && !IsLineTerminator(t[s + 1]) then
      match CloseFrom(t, s + 2)
      case Some(j) =>
        assert forall e': nat :: e' < j + 1 ==> !IsBraceMatch(t, s, e');
        Some(j + 1)
      case None =>
        assert forall e: nat :: !IsBraceMatch(t, s, e);
        None
    else
      None
  }

  /** One `Matcher.find` of the lazy pattern from `from`: the engine tries each
      start in turn. */
  function FindBetter(t: string, from: nat): (r: Option<Span>)
    requires from <= |t|
    ensures r.Some? ==> from <= r.value.start && IsLazyBraceMatch(t, r.value.start, r.value.end)
    ensures r.Some? ==> NoMatchIn(BetterAt(t), from, r.value.start)
    ensures r.None? ==> NoMatchFrom(BetterAt(t), from)
    decreases |t| - from
  {
    if from == |t| then None
    else
      match LazyBraceAt(t, from)
      case Some(e) => Some(Span(from, e))
      case None => FindBetter(t, from + 1)
  }

  /** The spans the `find` loop reports from `from` on, in order. */
  function ScanBetter(t: string, from: nat): (ms: seq<Span>)
    requires from <= |t|
    ensures forall k :: 0 <= k < |ms| ==> from <= ms[k].start && IsLazyBraceMatch(t, ms[k].start, ms[k].end)
    ensures forall k :: 0 < k < |ms| ==> ms[k - 1].end <= ms[k].start
    decreases |t| - from
  {
    match FindBetter(t, from)
    case None => []
    case Some(sp) => [sp] + ScanBetter(t, sp.end)
  }

  /** The scanner reports exactly what the declarative description admits. */
  lemma {:induction false} ScanBetterMeetsSpec(t: string, from: nat)
    requires from <= |t|
    ensures FindSpec(BetterAt(t), from, ScanBetter(t, from))
    decreases |t| - from
  {
    match FindBetter(t, from)
    case None =>
      assert Resume(from, [], 0) == from;
    case Some(sp) =>
      ScanBetterMeetsSpec(t, sp.end);
      FindSpecCons(BetterAt(t), from, sp, ScanBetter(t, sp.end));
  }

  /** A `{name}` token: braces at both ends, at least one character between,
      no line terminator, and (laziness) no '}' from offset 2 up to the last
      character. */
  predicate IsBraceToken(s: string)
  {
    && |s| >= 3 && s[0] == '{' && s[|s| - 1] == '}'
    && (forall k :: 0 < k < |s| - 1 ==> !IsLineTerminator(s[k]))
    && (forall k :: 2 <= k < |s| - 1 ==> s[k] != '}')
  }

  lemma LazyMatchIsToken(t: string, s: nat, e: nat)
    requires IsLazyBraceMatch(t, s, e)
    ensures IsBraceToken(t[s..e])
  {
    var tok := t[s..e];
    forall k | 2 <= k < |tok| - 1 ensures tok[k] != '}' {
      if tok[k] == '}' {
        assert IsBraceMatch(t, s, s + k + 1);
        assert false;
      }
    }
  }

  /** `detectBetterPlaceholders`: null text, or text lacking '{' or '}', gives
      the empty list; otherwise the text of every match the `find` loop reports. */
  function DetectBetterPlaceholders(text: Option<string>): (r: seq<string>)
    ensures text.None? || '{' !in text.value || '}' !in text.value ==> r == []
    ensures forall k :: 0 <= k < |r| ==> IsBraceToken(r[k])
  {
    if text.None? || !('{' in text.value && '}' in text.value) then []
    else
      var t := text.value;
      var ms := ScanBetter(t, 0);
      assert forall k :: 0 <= k < |ms| ==> IsBraceToken(t[ms[k].start..ms[k].end]) by {
        forall k | 0 <= k < |ms| ensures IsBraceToken(t[ms[k].start..ms[k].end]) {
          LazyMatchIsToken(t, ms[k].start, ms[k].end);
        }
      }
      Texts(t, ms)
  }

  /** The guard in front of the lazy scan never changes the answer: text
      without a '{' or without a '}' has no match anyway. */
  lemma BetterGuardRedundant(t: string)
    requires '{' !in t || '}' !in t
    ensures ScanBetter(t, 0) == []
  {
    var ms := ScanBetter(t, 0);
    if |ms| > 0 {
      assert false;
    }
  }

  /** The detector returns the texts of the one report sequence the
      declarative description admits. */
  lemma DetectBetterMatchesSpec(t: string, ms: seq<Span>)
    requires FindSpec(BetterAt(t), 0, ms)
    ensures forall k :: 0 <= k < |ms| ==> ms[k].start < ms[k].end <= |t|
    ensures DetectBetterPlaceholders(Some(t)) == Texts(t, ms)
  {
    assert forall k :: 0 <= k < |ms| ==> BetterAt(t)(ms[k].start, ms[k].end);
    ScanBetterMeetsSpec(t, 0);
    BetterOneEndPerStart(t);
    FindSpecUnique(BetterAt(t), 0, ms, ScanBetter(t, 0));
    if !('{' in t && '}' in t) {
      BetterGuardRedundant(t);
    }
  }
}

=== FILE: randomness.dfy ===
/** Randomness as caller-supplied values. Every random call of the item
    manager (`Math.random`, `ThreadLocalRandom.nextInt/nextFloat`,
    `UUID.randomUUID`, and the weighted choice of `WeightUtils.getRandom`)
    consumes one draw in [0, 1) from a stream and maps it into its documented
    range. Quantifying over all streams covers every outcome the real
    generators can produce. */
module Randomness {
  import opened Wrappers

  type Unit = x: real | 0.0 <= x < 1.0 witness 0.0

  /** An endless stream of draws and the position of the next one. */
  datatype Rng = Rng(draw: nat -> Unit, pos: nat) {

    function Next(): (r: (Unit, Rng))
      ensures r.0 == draw(pos) && r.1 == Rng(draw, pos + 1)
    {
      (draw(pos), Rng(draw, pos + 1))
    }

    /** The stream after `n` further draws. */
    function Skip(n: nat): Rng
    {
      Rng(draw, pos + n)
    }
  }

  /** `nextInt(bound)`: uniform in [0, bound); a bound that is not positive throws. */
  function NextInt(rng: Rng, bound: int): (r: Result<(nat, Rng)>)
    ensures r.Ok? <==> bound > 0
    ensures r.Ok? ==> r.value.0 < bound && r.value.1 == rng.Skip(1)
  {
    if bound <= 0 then Err(NonPositiveBound)
    else
      var (u, next) := rng.Next();
      var k := Scale(u, bound as real).Floor;
      Ok((k as nat, next))
  }

  /** `nextFloat(bound)`: uniform in [0, bound); a bound that is not positive throws. */
  function NextFloat(rng: Rng, bound: real): (r: Result<(real, Rng)>)
    ensures r.Ok? <==> bound > 0.0
    ensures r.Ok? ==> 0.0 <= r.value.0 < bound
    ensures r.Ok? ==> r.value.1 == rng.Skip(1)
  {
    if bound <= 0.0 then Err(NonPositiveBound)
    else
      var (u, next) := rng.Next();
      Ok((Scale(u, bound), next))
  }

  /** `WeightUtils.getRandom` over `n` candidates: the index of some candidate.
      Weights only shape the probabilities, which are not modelled. */
  function Pick(rng: Rng, n: nat): (r: (nat, Rng))
    requires n > 0
    ensures r.0 < n && r.1 == rng.Skip(1)
  {
    var (u, next) := rng.Next();
    var k := Scale(u, n as real).Floor;
    (k as nat, next)
  }

  /** A draw scaled to a positive bound stays below the bound. */
  function Scale(u: Unit, b: real): (x: real)
    requires b > 0.0
    ensures 0.0 <= x < b
  {
    var gap := 1.0 - u;
    assert gap * b > 0.0;
    assert b - u * b == gap * b;
    u * b
  }

  /** No outcome is left out: every value in [0, bound) is produced by some draw. */
  lemma NextIntCovers(rng: Rng, bound: int, k: nat)
    requires k < bound
    ensures exists d: nat -> Unit :: NextInt(Rng(d, rng.pos), bound) == Ok((k, Rng(d, rng.pos + 1)))
  {
    var u: Unit := k as real / bound as real;
    var d: nat -> Unit := (_: nat) => u;
    assert u * bound as real == k as real;
    assert NextInt(Rng(d, rng.pos), bound) == Ok((k, Rng(d, rng.pos + 1)));
  }
}

=== FILE: templates.dfy ===
/** The template registry: item builders keyed by item type and id, filled
    from configuration files, looked up to build items, and emptied on
    unload. */
module Templates {
  import opened Wrappers
  import opened Items
  import opened Platform
  import opened Randomness
  import opened Libraries
  import opened Builders

  /** `Key.of(namespace, value)`. */
  datatype Key = Key(namespace: string, value: string)

  /** The `buildableItemMap`. */
  type Catalogue = map<Key, CFBuilder>

  /** A top-level entry of an item file: its name and, when its value is a
      section, that section. */
  datatype Entry = Entry(name: string, section: Option<Section>)

  /** The keys the section entries of a file ask for. */
  function SectionKeys(ns: string, entries: seq<Entry>): set<Key>
  {
    set i | 0 <= i < |entries| && entries[i].section.Some? :: Key(ns, entries[i].name)
  }

  /** One entry of a file: a section under a new key becomes a builder (and
      making it may throw); anything else leaves the registry as it is. */
  function Admit(host: Host, items: Catalogue, ns: string, e: Entry): (r: Result<Catalogue>)
    ensures r.Err? ==> r.error.UnknownItemFlag?
    ensures r.Ok? ==> forall k :: k in items ==> k in r.value && r.value[k] == items[k]
    ensures e.section.None? || Key(ns, e.name) in items ==> r == Ok(items)
    ensures e.section.Some? && Key(ns, e.name) !in items ==>
              (r.Ok? <==> GetItemBuilder(host, e.section.value, ns, e.name).Ok?)
    ensures r.Ok? && e.section.Some? && Key(ns, e.name) !in items ==>
              r.value == items[Key(ns, e.name) := GetItemBuilder(host, e.section.value, ns, e.name).value]
  {
    if e.section.None? || Key(ns, e.name) in items then Ok(items)
    else
      var b :- GetItemBuilder(host, e.section.value, ns, e.name);
      Ok(items[Key(ns, e.name) := b])
  }

  /** `loadSingleFile(file, namespace)`: every section entry, in file order,
      becomes a builder under `(namespace, name)` unless that key is taken
      (the duplicate is only logged); other entries are skipped. A builder
      that cannot be made throws, which ends the load with what was added
      before it kept (`LoadFailsExactly`, `LoadStopsAtFirstFailing`). */
  function LoadSingleFile(host: Host, items: Catalogue, ns: string, entries: seq<Entry>): (r: (Catalogue, Option<Error>))
    ensures forall k :: k in items ==> k in r.0 && r.0[k] == items[k]
    ensures r.0.Keys <= items.Keys + SectionKeys(ns, entries)
    ensures r.1.Some? ==> r.1.value.UnknownItemFlag?
    decreases |entries|
  {
    if entries == [] then (items, None)
    else
      match Admit(host, items, ns, entries[0])
      case Err(err) => (items, Some(err))
      case Ok(next) =>
        SectionKeysCons(ns, entries);
        LoadSingleFile(host, next, ns, entries[1..])
  }

  /** Entry `i` of a file ends its load: it is a section under a key that
      was not registered before and that no earlier section of the file
      asks for, and its builder cannot be made. */
  predicate Failing(host: Host, items: Catalogue, ns: string, entries: seq<Entry>, i: int)
    requires 0 <= i < |entries|
  {
    entries[i].section.Some? && Key(ns, entries[i].name) !in items
    && (forall j :: 0 <= j < i ==> entries[j].section.None? || entries[j].name != entries[i].name)
    && GetItemBuilder(host, entries[i].section.value, ns, entries[i].name).Err?
  }

  /** A load fails exactly when some entry of the file is failing: a
      duplicate key or a value that is no section never ends a load. */
  lemma {:induction false} LoadFailsExactly(host: Host, items: Catalogue, ns: string, entries: seq<Entry>)
    ensures LoadSingleFile(host, items, ns, entries).1.Some? <==>
            exists i :: 0 <= i < |entries| && Failing(host, items, ns, entries, i)
    decreases |entries|
  {
    if entries != [] {
      match Admit(host, items, ns, entries[0])
      case Err(err) =>
        assert Failing(host, items, ns, entries, 0);
      case Ok(next) =>
        LoadFailsExactly(host, next, ns, entries[1..]);
        FailsIffStep(host, items, next, ns, entries);
    }
  }

  lemma FailsIffStep(host: Host, items: Catalogue, next: Catalogue, ns: string, entries: seq<Entry>)
    requires entries != [] && Admit(host, items, ns, entries[0]) == Ok(next)
    requires LoadSingleFile(host, next, ns, entries[1..]).1.Some? <==>
             exists i :: 0 <= i < |entries[1..]| && Failing(host, next, ns, entries[1..], i)
    ensures LoadSingleFile(host, items, ns, entries).1.Some? <==>
            exists i :: 0 <= i < |entries| && Failing(host, items, ns, entries, i)
  {
    assert LoadSingleFile(host, items, ns, entries) == LoadSingleFile(host, next, ns, entries[1..]);
    FailingDown(host, items, next, ns, entries);
    FailingUp(host, items, next, ns, entries);
  }

  lemma FailingDown(host: Host, items: Catalogue, next: Catalogue, ns: string, entries: seq<Entry>)
    requires entries != [] && Admit(host, items, ns, entries[0]) == Ok(next)
    ensures (exists i :: 0 <= i < |entries| && Failing(host, items, ns, entries, i)) ==>
            exists i :: 0 <= i < |entries[1..]| && Failing(host, next, ns, entries[1..], i)
  {
    if exists i :: 0 <= i < |entries| && Failing(host, items, ns, entries, i) {
      var i :| 0 <= i < |entries| && Failing(host, items, ns, entries, i);
      assert i != 0;
      FailingShift(host, items, next, ns, entries, i);
      assert Failing(host, next, ns, entries[1..], i - 1);
    }
  }

  lemma FailingUp(host: Host, items: Catalogue, next: Catalogue, ns: string, entries: seq<Entry>)
    requires entries != [] && Admit(host, items, ns, entries[0]) == Ok(next)
    ensures (exists i :: 0 <= i < |entries[1..]| && Failing(host, next, ns, entries[1..], i)) ==>
            exists i :: 0 <= i < |entries| && Failing(host, items, ns, entries, i)
  {
    if exists i :: 0 <= i < |entries[1..]| && Failing(host, next, ns, entries[1..], i) {
      var i :| 0 <= i < |entries[1..]| && Failing(host, next, ns, entries[1..], i);
      FailingShift(host, items, next, ns, entries, i + 1);
      assert Failing(host, items, ns, entries, i + 1);
    }
  }

  /** A load that fails stops at its first failing entry, with that entry's
      error, keeping exactly what the entries before it added. */
  lemma {:induction false} LoadStopsAtFirstFailing(host: Host, items: Catalogue, ns: string, entries: seq<Entry>, i: nat)
    requires i < |entries| && Failing(host, items, ns, entries, i)
    requires forall j :: 0 <= j < i ==> !Failing(host, items, ns, entries, j)
    ensures LoadSingleFile(host, items, ns, entries[..i]).1.None?
    ensures LoadSingleFile(host, items, ns, entries).0 == LoadSingleFile(host, items, ns, entries[..i]).0
    ensures LoadSingleFile(host, items, ns, entries).1
            == Some(GetItemBuilder(host, entries[i].section.value, ns, entries[i].name).error)
    decreases i
  {
    if i == 0 {
      assert entries[..0] == [];
    } else {
      assert !Failing(host, items, ns, entries, 0);
      assert Admit(host, items, ns, entries[0]).Ok?;
      var next := Admit(host, items, ns, entries[0]).value;
      var rest := entries[1..];
      FailingShift(host, items, next, ns, entries, i);
      forall j | 0 <= j < i - 1
        ensures !Failing(host, next, ns, rest, j)
      {
        FailingShift(host, items, next, ns, entries, j + 1);
      }
      LoadStopsAtFirstFailing(host, next, ns, rest, i - 1);
      PrefixLoad(host, items, next, ns, entries, i);
    }
  }

  lemma PrefixLoad(host: Host, items: Catalogue, next: Catalogue, ns: string, entries: seq<Entry>, i: nat)
    requires 1 <= i < |entries| && Admit(host, items, ns, entries[0]) == Ok(next)
    ensures LoadSingleFile(host, items, ns, entries[..i]) == LoadSingleFile(host, next, ns, entries[1..][..i - 1])
    ensures LoadSingleFile(host, items, ns, entries) == LoadSingleFile(host, next, ns, entries[1..])
    ensures entries[1..][i - 1] == entries[i]
  {
    assert entries[..i][0] == entries[0];
    assert entries[..i][1..] == entries[1..][..i - 1];
  }

  /** Admitting the head of a file leaves every later entry failing exactly
      as it did. */
  lemma FailingShift(host: Host, items: Catalogue, next: Catalogue, ns: string, entries: seq<Entry>, i: int)
    requires 1 <= i < |entries| && Admit(host, items, ns, entries[0]) == Ok(next)
    ensures Failing(host, items, ns, entries, i) <==> Failing(host, next, ns, entries[1..], i - 1)
  {
    var rest := entries[1..];
    assert rest[i - 1] == entries[i];
    var e, x := entries[0], entries[i];
    assert (forall j :: 0 <= j < i ==> entries[j].section.None? || entries[j].name != x.name)
           <==> (e.section.None? || e.name != x.name)
                && (forall j :: 0 <= j < i - 1 ==> rest[j].section.None? || rest[j].name != x.name) by {
      forall j | 0 <= j < i - 1
        ensures rest[j] == entries[j + 1]
      {
      }
      if forall j :: 0 <= j < i - 1 ==> rest[j].section.None? || rest[j].name != x.name {
        forall j | 1 <= j < i
          ensures entries[j].section.None? || entries[j].name != x.name
        {
          assert entries[j] == rest[j - 1];
        }
      }
    }
  }

  /** A load that runs to the end holds a builder under every key the file's
      sections ask for. */
  lemma {:induction false} LoadComplete(host: Host, items: Catalogue, ns: string, entries: seq<Entry>)
    requires LoadSingleFile(host, items, ns, entries).1.None?
    ensures LoadSingleFile(host, items, ns, entries).0.Keys == items.Keys + SectionKeys(ns, entries)
    decreases |entries|
  {
    if entries != [] {
      var next := Admit(host, items, ns, entries[0]).value;
      LoadComplete(host, next, ns, entries[1..]);
      SectionKeysCons(ns, entries);
    }
  }

  lemma SectionKeysCons(ns: string, entries: seq<Entry>)
    requires entries != []
    ensures SectionKeys(ns, entries)
            == (if entries[0].section.Some? then {Key(ns, entries[0].name)} else {}) + SectionKeys(ns, entries[1..])
  {
    var rest := entries[1..];
    forall k | k in SectionKeys(ns, entries)
      ensures k in (if entries[0].section.Some? then {Key(ns, entries[0].name)} else {}) + SectionKeys(ns, rest)
    {
      var i :| 0 <= i < |entries| && entries[i].section.Some? && k == Key(ns, entries[i].name);
      if i > 0 {
        assert rest[i - 1] == entries[i];
      }
    }
    forall k | k in SectionKeys(ns, rest)
      ensures k in SectionKeys(ns, entries)
    {
      var i :| 0 <= i < |rest| && rest[i].section.Some? && k == Key(ns, rest[i].name);
      assert entries[i + 1] == rest[i];
    }
  }

  /** On a duplicated key the first definition is kept: a key new to the
      registry ends up holding the builder of the first section under that
      name. */
  lemma {:induction false} FirstDefinitionKept(host: Host, items: Catalogue, ns: string, entries: seq<Entry>, i: nat)
    requires LoadSingleFile(host, items, ns, entries).1.None?
    requires i < |entries| && entries[i].section.Some? && Key(ns, entries[i].name) !in items
    requires forall j :: 0 <= j < i ==> entries[j].section.None? || entries[j].name != entries[i].name
    ensures GetItemBuilder(host, entries[i].section.value, ns, entries[i].name).Ok?
    ensures Key(ns, entries[i].name) in LoadSingleFile(host, items, ns, entries).0
    ensures LoadSingleFile(host, items, ns, entries).0[Key(ns, entries[i].name)]
            == GetItemBuilder(host, entries[i].section.value, ns, entries[i].name).value
    decreases i
  {
    LoadStep(host, items, ns, entries);
    var next := Admit(host, items, ns, entries[0]).value;
    if i > 0 {
      NoEarlierInRest(entries, i);
      assert Key(ns, entries[i].name) !in next;
      FirstDefinitionKept(host, next, ns, entries[1..], i - 1);
    } else {
      assert next[Key(ns, entries[0].name)] == GetItemBuilder(host, entries[0].section.value, ns, entries[0].name).value;
    }
  }

  /** A load without error admits the first entry and loads the rest. */
  lemma LoadStep(host: Host, items: Catalogue, ns: string, entries: seq<Entry>)
    requires entries != [] && LoadSingleFile(host, items, ns, entries).1.None?
    ensures Admit(host, items, ns, entries[0]).Ok?
    ensures LoadSingleFile(host, items, ns, entries)
            == LoadSingleFile(host, Admit(host, items, ns, entries[0]).value, ns, entries[1..])
  {
  }

  lemma NoEarlierInRest(entries: seq<Entry>, i: nat)
    requires 0 < i < |entries|
    requires forall j :: 0 <= j < i ==> entries[j].section.None? || entries[j].name != entries[i].name
    ensures entries[1..][i - 1] == entries[i]
    ensures forall j :: 0 <= j < i - 1 ==> entries[1..][j].section.None? || entries[1..][j].name != entries[1..][i - 1].name
  {
    forall j | 0 <= j < i - 1
      ensures entries[1..][j].section.None? || entries[1..][j].name != entries[1..][i - 1].name
    {
      assert entries[1..][j] == entries[j + 1];
    }
  }

  /** `unload`: the registry is copied, cleared, and the builders for which
      `persist` holds are put back into the copy, which is then dropped.
      Answers the registry and the copy. (`CFBuilder.persist()` answers
      false; the outcome is the same for every `persist`.) */
  method Unload(items: Catalogue, persist: CFBuilder -> bool) returns (registry: Catalogue, copy: Catalogue)
    ensures registry == map[]
    ensures copy == items
  {
    copy := items;
    registry := map[];
    var pending := items.Keys;
    while pending != {}
      invariant pending <= items.Keys
      invariant copy == items
      decreases pending
    {
      var k :| k in pending;
      if persist(items[k]) {
        copy := copy[k := items[k]];
      }
      pending := pending - {k};
    }
  }

  /** `getBuildableItem(namespace, value)`. */
  function GetBuildableItem(items: Catalogue, ns: string, value: string): (r: Option<CFBuilder>)
    ensures r.Some? <==> Key(ns, value) in items
    ensures r.Some? ==> r.value == items[Key(ns, value)]
  {
    if Key(ns, value) in items then Some(items[Key(ns, value)]) else None
  }

  /** After a load that runs to the end, a lookup finds a template exactly
      under a key that was registered before or that one of the file's
      sections asks for, and a key new to the registry answers the builder
      made from the first section under that name. */
  lemma LoadThenLookup(host: Host, items: Catalogue, ns: string, entries: seq<Entry>, value: string)
    requires LoadSingleFile(host, items, ns, entries).1.None?
    ensures var loaded := LoadSingleFile(host, items, ns, entries).0;
            GetBuildableItem(loaded, ns, value).Some? <==> Key(ns, value) in items || Key(ns, value) in SectionKeys(ns, entries)
    ensures forall i :: 0 <= i < |entries| && entries[i].section.Some? && entries[i].name == value
                        && Key(ns, value) !in items
                        && (forall j :: 0 <= j < i ==> entries[j].section.None? || entries[j].name != value) ==>
              GetItemBuilder(host, entries[i].section.value, ns, value).Ok?
              && GetBuildableItem(LoadSingleFile(host, items, ns, entries).0, ns, value)
                 == Some(GetItemBuilder(host, entries[i].section.value, ns, value).value)
  {
    LoadComplete(host, items, ns, entries);
    forall i | 0 <= i < |entries| && entries[i].section.Some? && entries[i].name == value
               && Key(ns, value) !in items
               && (forall j :: 0 <= j < i ==> entries[j].section.None? || entries[j].name != value)
      ensures GetItemBuilder(host, entries[i].section.value, ns, value).Ok?
              && GetBuildableItem(LoadSingleFile(host, items, ns, entries).0, ns, value)
                 == Some(GetItemBuilder(host, entries[i].section.value, ns, value).value)
    {
      FirstDefinitionKept(host, items, ns, entries, i);
    }
  }

  /** `build(player, namespace, value, placeholders)`: None for an unknown
      key, otherwise that builder's build. */
  function BuildByKey(host: Host, libs: Registry, items: Catalogue, player: Player, ns: string, value: string,
                      ph: Placeholders, rng: Rng): (r: Result<Option<Built>>)
    ensures Key(ns, value) !in items ==> r == Ok(None)
    ensures Key(ns, value) in items ==>
              (r.Ok? <==> Build(host, libs, player, items[Key(ns, value)], ph, rng).Ok?)
    ensures r.Ok? && r.value.Some? ==>
              Key(ns, value) in items && r.value.value == Build(host, libs, player, items[Key(ns, value)], ph, rng).value
  {
    match GetBuildableItem(items, ns, value)
    case None => Ok(None)
    case Some(b) =>
      var built :- Build(host, libs, player, b, ph, rng);
      Ok(Some(built))
  }

  /** A section loaded under a fresh key builds as the builder made from it. */
  lemma LoadThenBuild(host: Host, libs: Registry, items: Catalogue, ns: string, entries: seq<Entry>, i: nat,
                      player: Player, ph: Placeholders, rng: Rng)
    requires LoadSingleFile(host, items, ns, entries).1.None?
    requires i < |entries| && entries[i].section.Some? && Key(ns, entries[i].name) !in items
    requires forall j :: 0 <= j < i ==> entries[j].section.None? || entries[j].name != entries[i].name
    ensures GetItemBuilder(host, entries[i].section.value, ns, entries[i].name).Ok?
    ensures var loaded := LoadSingleFile(host, items, ns, entries).0;
            var b := GetItemBuilder(host, entries[i].section.value, ns, entries[i].name).value;
            BuildByKey(host, libs, loaded, player, ns, entries[i].name, ph, rng)
            == (match Build(host, libs, player, b, ph, rng) case Err(e) => Err(e) case Ok(x) => Ok(Some(x)))
  {
    FirstDefinitionKept(host, items, ns, entries, i);
  }
}

=== FILE: wrappers.dfy ===
/** Failure-compatible wrappers used across the model: `Option` stands for a
    Java reference that may be null, `Result` for a computation that may
    throw. */
module Wrappers {

  datatype Option<+T> = None | Some(value: T) {

    /** The wrapped value, or `default` for None. */
    function GetOr(default: T): T {
      match this
      case Some(v) => v
      case None => default
    }
  }

  /** The exceptions the modelled code can raise (or the null dereferences it
      can run into), named after their cause. */
  datatype Error =
    | UnknownLibrary(library: string)        // itemLibraryMap.get(..) returned null
    | UnknownEnchantment(id: string)          // Enchantment.getByKey(..) returned null
    | NonPositiveBound                        // Random.nextInt/nextFloat with a bound <= 0
    | NumberFormat(text: string)              // Float.parseFloat / Double.parseDouble failed
    | NotACompound(key: string)               // getCompound(..) returned null and was dereferenced
    | UnknownItemFlag(name: string)           // ItemFlag.valueOf(..) found no such constant

  datatype Result<+T> = Ok(value: T) | Err(error: Error) {

    predicate IsFailure() {
      Err?
    }

    function PropagateFailure<U>(): Result<U>
      requires Err?
    {
      Err(error)
    }

    function Extract(): T
      requires Ok?
    {
      value
    }
  }
}
